=== FILE: README.md ===
# Canopy PAI and soil-moisture fire-susceptibility scripts, modelled in Dafny

The repository analyses two field campaigns in a Mediterranean oak forest:
- canopy Plant Area Index (PAI) readings, taken per site and plot and flagged in a `BAD_READINGS` column;
- volumetric soil-moisture and soil-temperature readings, taken per measurement location (`ID_LOC`), plus a point layer giving each location's geometry.

Three pandas scripts turn these tables into figures and printed summaries. This project models the data handling behind those figures, as pure functions over sequences of records.

The behaviour modelled is that of pandas 2.2 and later. Three details depend on the version: the row order of an inner merge, the order in which `pd.cut` checks its edges (so a missing edge is reported as edges that are not increasing), and the route `to_datetime` takes for `%Y%m%d` (the format's regex, where pandas 1.x tried a digits-only shortcut first).

- **`fire_risk.py`**
  - Parses the PAI and soil timestamps with the fixed format `%Y%m%d %H:%M:%S`.
  - Drops ERROR-flagged PAI readings.
  - Coerces soil moisture to numbers, or to missing.
  - Takes daily means of PAI and of moisture.
  - Bins PAI with `pd.cut` at `[0, q25, q75, max]` into Low, Medium and High.
  - Classifies every PAI reading with `determine_fire_risk` against the 0.75 PAI quantile, the campaign-wide mean moisture and the fixed threshold 5.0.
- **`pai_analysis.py`**
  - Applies the two bad-reading filters.
  - Converts `MEAS_DATE` with `%Y%m%d`. An empty, `NaT` or `nan` date becomes NaT, and such readings drop out of the monthly grouping and the resample.
  - Builds the plot key `SITE + "_" + SITE_PLOT`.
  - Takes the mean per (plot, calendar month).
  - Resamples each plot monthly, from its first observed month to its last.
  - Names the months.
  - Ranks the plots by their average monthly mean, largest first.
- **`soil_moisture_analysis.py`**
  - Drops readings that miss a critical cell.
  - Builds timestamps.
  - Inner-joins the point layer with the readings on `ID_LOC`.
  - Converts comma-decimal moisture strictly.
  - Computes whole days since the earliest reading, and the mean moisture for each such day.
  - Selects readings above the 0.9 quantile and below the 0.1 quantile, and lists the distinct `SITE_PLOT`s of each selection.
  - Coerces temperature and drops readings without one.
  - Builds the daily moisture and temperature table, then re-parses its date column.

## How the model is organised

| module | file | what it holds |
|---|---|---|
| `Wrappers` | wrappers.dfy | `Option` (a missing value, NaN) and `Result` (a step that raises) |
| `Seqs` | seqs.dfy | boolean-mask selection, column-wide conversion that stops at the first failure, `unique()` |
| `Calendar` | calendar.dfy | proleptic Gregorian dates, day and second numbering, calendar months, month names |
| `TimeParse` | timeparse.dfy | the `%Y%m%d` and `%Y%m%d %H:%M:%S` formats as the regex pandas builds from them reads text; the range a nanosecond pandas timestamp can hold |
| `Decimal` | decimal.dfy | numeric text with a dot or a comma separator; coercing and strict conversion |
| `Stats` | stats.dfy | NaN-skipping mean, sorting, the linear-interpolation quantile, maximum |
| `Grouping` | grouping.dfy | `groupby(key).mean()`: a reference definition, the sorted-key form pandas returns, and a one-pass accumulator proved equal to the reference |
| `Orders` | orders.dfy | the key orders pandas sorts group labels by (strings by code point, integers, dates, (plot, month)); rendered dates sort as dates |
| `Join` | join.dfy | the inner join on a key, with its multiplicities and its size |
| `Records` | records.dfy | raw PAI and soil rows, the two bad-reading masks, the plot key |
| `FireRisk` | firerisk.dfy | `fire_risk.py` |
| `PaiAnalysis` | pai.dfy | `pai_analysis.py` |
| `SoilMoisture` | soil.dfy | `soil_moisture_analysis.py` |

Measurements are `real`. A missing cell is `None`. Every comparison with a missing operand is false, as with NaN. A step that raises in pandas returns `Err` with the error it raises:
- a timestamp that does not match its format, or is out of range;
- a moisture text that `astype(float)` cannot read after its commas become dots;
- `pd.cut` edges that are not increasing, or not unique.

Each script is also modelled as one function from its input tables to either its results or its first error: `FireRisk.FireRiskScript`, `PaiAnalysis.PaiScript` (`PaiAnalysis.PreparePai`, then `PaiAnalysis.MonthlyMeans`, `PaiAnalysis.ResampleMonthly` and `PaiAnalysis.PlotAverages`), and `SoilMoisture.SoilScript`. Some consequences of the code that are easy to miss:
- `pd.cut` bins are right-closed: a PAI equal to a cut point goes to the lower bin.
- A degenerate PAI distribution (q25 == q75, or q75 == max) makes `pd.cut` raise on non-unique edges.
- In `pai_analysis.py` a reading whose date is NaT is simply dropped, unless every unflagged reading of its plot has a NaT date. Then that plot's resampler at line 65 has only NaT in its index, and the resample raises.
- `fire_risk.py:28-34` never aligns the two daily series on their common days. Both are aggregated independently, and the model keeps them apart.
- The moisture conversion at `soil_moisture_analysis.py:36` (and 120) is `astype(float)` after `.str.replace`. On a text column it raises on text it cannot read and does not produce a missing value. The model takes this column, and the temperature column of line 147, to hold text (see `SoilMoisture.ConvertMoisture` under Left out).
- A format does not demand zero padding. Pandas turns `%Y%m%d %H:%M:%S` into a regex whose month, day, hour, minute and second each also match one character, and whose blank matches any run of white space. `2021315` is 2021-03-15 and `2021111` is 2021-11-01. Seconds 60 and 61 are accepted and carry into the next minute.

## Model

| member | source | states |
|---|---|---|
| Seqs.Filter | fire_risk.py:11 | a mask keeps exactly the rows satisfying the condition, and nothing that was not in the table |
| Seqs.Traverse | fire_risk.py:10 | a column-wide conversion succeeds exactly when every cell converts; it then holds each cell's value in place; otherwise it raises the error of the first cell that fails |
| Seqs.Distinct | soil_moisture_analysis.py:67-68 | `unique()` lists every value that occurs, each exactly once, and nothing else |
| Seqs.FirstIndex | soil_moisture_analysis.py:67-68 | the first position of a value is a position holding it, with no earlier occurrence |
| Seqs.DistinctOrder | soil_moisture_analysis.py:67-68 | `unique()` lists the values in the order in which each first appears |
| Records.DropErrors | fire_risk.py:11 | after the ERROR mask no row is flagged ERROR; every unflagged or otherwise-flagged row survives |
| Records.DropErrorsKeepsOrder | fire_risk.py:65 | the ERROR mask distributes over concatenation, so survivors keep their relative order |
| Records.KeepUnflagged | pai_analysis.py:18 | after the `isnull()` mask exactly the rows with a missing flag remain |
| Records.BothMasksKeepUnflagged | pai_analysis.py:12-18 | the ERROR mask followed by the `isnull()` mask removes every flagged row, not only ERROR ones: it equals the `isnull()` mask alone |
| Records.PlotKey | pai_analysis.py:21 | the plot key is the site, an underscore and the site plot, character for character |
| Records.PlotKeyInjective | pai_analysis.py:21 | for site names without an underscore, two plot keys are equal exactly when site and site plot both are |
| Records.PlotKeyAmbiguous | fire_risk.py:12 | with underscores in the names, different (site, plot) pairs can share a key |
| Calendar.DaysInMonth | pai_analysis.py:65 | a month has 28 to 31 days, and 29 exactly for February of a Gregorian leap year |
| Calendar.SecondsOrder | soil_moisture_analysis.py:42 | the second count used for timestamp differences orders timestamps chronologically and identifies equal ones |
| Calendar.MonthEnd | pai_analysis.py:65 | a monthly resample bin is labelled with a valid date in that month, its last day |
| Calendar.MonthName | pai_analysis.py:70-72 | the month map names exactly the numbers 1..12, and each name maps back to its number |
| Calendar.MonthNameInjective | pai_analysis.py:70-72 | no two months share a name |
| TimeParse.ParseRender | soil_moisture_analysis.py:151 | reading back a zero-padded rendering of a number that fits the width gives the number |
| TimeParse.RenderParse | soil_moisture_analysis.py:151 | rendering the number a digit string spells, at the string's width, gives the string back |
| TimeParse.SpaceRunBounds | fire_risk.py:10 | the run that `\s+` measures is white space throughout and stops at the end of the text or at other text |
| TimeParse.TryAltsStep | fire_risk.py:10 | when the regex engine matches, the first token's width is one of its alternatives and the rest is the engine's match of the rest of the pattern from there |
| TimeParse.DateMatch | pai_analysis.py:15 | a `%Y%m%d` match takes four digits, then a month of one or two characters naming 1..12, then a day naming 1..31 |
| TimeParse.StampMatch | fire_risk.py:10 | the fields a `%Y%m%d %H:%M:%S` match captures are a month 1..12, a day 1..31, an hour below 24, a minute below 60 and a second below 62 |
| TimeParse.StampShape | fire_risk.py:10 | such a match spans four digits, the month and day, a run of blanks, and hour, minute and second separated by single colons, ending on a digit |
| TimeParse.CarrySeconds | fire_risk.py:10 | a captured second of 60 or 61 carries: the result is a valid timestamp whose second count is the raw fields added up |
| TimeParse.CarryInRange | fire_risk.py:10 | a raw timestamp that passes the range check stays in range after the carry |
| TimeParse.ParseDate | pai_analysis.py:15 | the format `%Y%m%d` on its own yields only dates whose midnight pandas can hold |
| TimeParse.ConvertDate | pai_analysis.py:15 | `to_datetime(format='%Y%m%d')` gives NaT exactly for the empty text and `NaT`, `nat`, `NAT`, `nan`, `NaN`, `NAN`; any other text except `now` and `today` converts exactly when the format accepts it, to an in-range date (see Left out for those two) |
| TimeParse.ParseTimestamp | fire_risk.py:10 | `%Y%m%d %H:%M:%S` yields only valid timestamps in pandas' range |
| TimeParse.FirstAltWins | fire_risk.py:10 | when the rest of the pattern matches after a token's first alternative, the engine takes that alternative |
| TimeParse.DateFirst | pai_analysis.py:15 | eight digits spelling a month 1..12 and a day 1..31 match `%Y%m%d` at widths 4, 2 and 2 |
| TimeParse.ClockFirst | fire_risk.py:10 | a blank, then a zero-padded hour below 24, minute below 60 and second below 62 with colons, match at widths 1, 2, 1, 2, 1 and 2 |
| TimeParse.ParseDateFixed | pai_analysis.py:15 | on eight digits `%Y%m%d` succeeds exactly when the date they spell is a real date whose midnight pandas holds, and yields that date |
| TimeParse.FixedWidths | fire_risk.py:10 | on zero-padded `YYYYMMDD HH:MM:SS` every field of a whole-text match is read at full width |
| TimeParse.ParseTimestampFixed | fire_risk.py:10 | on zero-padded `YYYYMMDD HH:MM:SS` the parse succeeds exactly when the fields spell a real date, an hour, a minute and a second up to 61 in range, within pandas' range; it yields those fields with a leap second carried |
| TimeParse.FieldAppend | fire_risk.py:10 | a field reads only its own characters, so appending text leaves it unchanged |
| TimeParse.JoinedCells | fire_risk.py:10 | a zero-padded date cell and time cell joined by a blank are zero-padded text spelling both cells' fields |
| TimeParse.ParseDateTimeFixed | fire_risk.py:20 | zero-padded date and time cells convert exactly when pandas admits the fields they spell, and to those fields with a leap second carried |
| TimeParse.RenderDateFields | soil_moisture_analysis.py:151-157 | a date's `YYYYMMDD` rendering is eight digits spelling that date |
| TimeParse.RenderTimeFields | fire_risk.py:10 | a time's `HH:MM:SS` rendering is zero-padded text spelling that time |
| TimeParse.FieldsRenderDate | soil_moisture_analysis.py:157 | eight digits spelling a month and a day in range are the rendering of the date they spell |
| TimeParse.FieldsRenderTime | fire_risk.py:10 | zero-padded `HH:MM:SS` spelling a valid time is the rendering of that time |
| TimeParse.ParseRenderedDate | pai_analysis.py:15 | every date whose midnight pandas holds converts back from its `YYYYMMDD` rendering |
| TimeParse.FixedDateRenders | soil_moisture_analysis.py:157 | an eight-digit text that `%Y%m%d` accepts is the rendering of the date it yields |
| TimeParse.ParseRenderedTimestamp | fire_risk.py:10 | every timestamp pandas can hold converts back from its `YYYYMMDD` and `HH:MM:SS` renderings |
| TimeParse.FixedCellsRender | fire_risk.py:10 | zero-padded cells with seconds below 60 that convert are exactly the renderings of the resulting timestamp |
| TimeParse.DateAccepted | pai_analysis.py:15 | text `%Y%m%d` accepts has 6 to 8 characters and starts with four digits |
| TimeParse.TimestampAccepted | fire_risk.py:10 | text `%Y%m%d %H:%M:%S` accepts has at least 12 characters, starts with four digits, has white space at the seventh, eighth or ninth character and ends on a digit |
| TimeParse.NatTextsRejected | pai_analysis.py:15 | the format itself rejects every NaT text, and on text it accepts the conversion yields the format's date |
| TimeParse.ParseDateTime | fire_risk.py:10 | a joined date and time cell convert only to timestamps pandas can hold; `ParseDateTimeFixed` states which zero-padded cells convert and to what |
| TimeParse.JoinedNotNat | fire_risk.py:10 | a date cell joined to a time cell by a blank is never a NaT text, and a date cell whose joined row converts is not one either |
| TimeParse.NanRejected | fire_risk.py:20 | a row with an empty date or time cell, read as the text `nan`, does not convert |
| TimeParse.FloatDateRejected | soil_moisture_analysis.py:21-23 | a date rendered from a float column, `YYYYMMDD.0`, is rejected by both formats |
| TimeParse.StampDate | soil_moisture_analysis.py:23 | an eight-digit date cell whose row converts spells a real date, and the row's raw timestamp lies in pandas' range |
| TimeParse.FirstDayFields | soil_moisture_analysis.py:157 | eight digits spelling a real date spell 1677-09-21 exactly when they are `16770921` |
| TimeParse.MidnightInRange | soil_moisture_analysis.py:157 | pandas holds midnight of every in-range day except 1677-09-21 |
| TimeParse.DateCellOfStamp | soil_moisture_analysis.py:23-157 | an eight-digit date cell whose row converts with its time also converts alone with `%Y%m%d`, except exactly for `16770921` |
| TimeParse.UnpaddedMonth | pai_analysis.py:15 | `2021315` is 2021-03-15 |
| TimeParse.PaddedDate | pai_analysis.py:15 | `20210401` is 2021-04-01 |
| TimeParse.GreedyMonth | pai_analysis.py:15 | `2021111` is 2021-11-01: the two-digit month is tried first |
| TimeParse.BacktrackedMonth | pai_analysis.py:15 | `2021120` is 2021-01-20: with month 12 no day is left, so the one-digit month is taken |
| TimeParse.SpacePaddedDay | pai_analysis.py:15 | `202103 5` is 2021-03-05 |
| TimeParse.LeftoverRejected | pai_analysis.py:15 | a trailing blank after a full date is unconverted text, and the parse raises |
| TimeParse.UnpaddedTime | fire_risk.py:10 | date `20210315` with time ` 9:05:00` is 2021-03-15 09:05:00 |
| TimeParse.LeapSecondCarries | fire_risk.py:10 | `20211231` at `23:59:60` is 2022-01-01 00:00:00 |
| Decimal.ReplaceCommas | soil_moisture_analysis.py:36 | `.str.replace(',', '.')` turns every comma into a dot and changes nothing else |
| Decimal.ReplaceCommasIdempotent | soil_moisture_analysis.py:120 | replacing commas twice is replacing them once, and text without a comma is unchanged |
| Decimal.ParseDecimal | fire_risk.py:23 | text the number reader accepts is non-empty and holds no comma; `DecimalCommaForm` states which dot forms it reads and to which value |
| Decimal.CoerceNumeric | fire_risk.py:23 | `to_numeric(errors='coerce')` is missing for a missing cell and for every text with a comma; a value comes only from comma-free text the reader accepts |
| Decimal.CoerceCommaDecimal | soil_moisture_analysis.py:147 | the temperature coercion agrees with plain coercion on comma-free text, and is missing for a missing cell; `SeparatorInsensitive` states that a comma reads as a dot |
| Decimal.StrictCommaDecimal | soil_moisture_analysis.py:36 | the strict conversion succeeds exactly when the comma-replaced text is a number, with the coercion's value; otherwise it raises naming the comma-replaced text, the only text `astype` sees |
| Decimal.SeparatorInsensitive | soil_moisture_analysis.py:147 | two texts that differ only by comma-versus-dot convert to the same value when coercing, and give the same strict result, the same error included |
| Decimal.DecimalCommaForm | soil_moisture_analysis.py:36 | for any digits `w`, `f`: coercion without replacement rejects `w,f`, and reads `w.f` and, after replacement, `w,f` as the same value |
| Decimal.TwelveAndAHalf | fire_risk.py:23 | "12,5" is missing under plain coercion and 12.5 under the comma-decimal conversions |
| Stats.MeanPresent | fire_risk.py:29-30 | the NaN-skipping mean exists exactly when some value is present |
| Stats.MeanPresentBetween | fire_risk.py:100 | the mean of present values lies within any bounds that hold for all of them |
| Stats.MeanSkipsMissing | fire_risk.py:100 | a missing value does not change the mean |
| Stats.SortBy | pai_analysis.py:79 | sorting returns a permutation of its input ordered by the given total preorder |
| Stats.Quantile | soil_moisture_analysis.py:65-66 | the quantile of a non-empty column lies between its minimum and maximum; an empty column has none |
| Stats.QuantileMonotone | soil_moisture_analysis.py:65-66 | a higher probability never gives a lower quantile, so q10 <= q90 |
| Stats.QuantileEnds | fire_risk.py:68-69 | the 0 quantile is the minimum and the 1 quantile the maximum |
| Stats.QuantilePresent | fire_risk.py:68-69 | the NaN-skipping quantile is missing exactly when no value is present |
| Stats.QuantilePresentWithin | fire_risk.py:68-69 | the quantile of present values lies within any bounds that hold for all of them |
| Stats.QuantilePresentAtMostMax | fire_risk.py:70 | no quantile exceeds the column maximum |
| Stats.QuantilePresentMonotone | fire_risk.py:68-69 | q25 <= q75 on the same column |
| Stats.MaxPresent | fire_risk.py:70 | `max()` is a present value no present value exceeds, and is missing only for an all-missing column |
| Grouping.GroupMean | fire_risk.py:29 | a group-by-mean reference: one entry per key that occurs, no other key, each holding the NaN-skipping mean of that key's values |
| Grouping.SortedKeys | soil_moisture_analysis.py:57 | the group labels are strictly ascending and are exactly the keys that occur |
| Grouping.SortedGroupMean | pai_analysis.py:27 | `groupby(...).mean()` as pandas returns it: strictly ascending labels, exactly the keys that occur, each with its group's mean |
| Grouping.SortedGroupMeanSameEntries | fire_risk.py:29 | pandas' sorted result holds exactly the entries of the group-by-mean reference |
| Grouping.SortedGroupMeanExact | fire_risk.py:30 | (k, v) is in the result exactly when some row has key k and v is the mean of k's values |
| Grouping.GroupMeanBetween | soil_moisture_analysis.py:57 | every group mean lies within bounds that hold for all values |
| Grouping.GroupMeanPresent | soil_moisture_analysis.py:57 | with no missing value every group has a mean |
| Grouping.GroupMeanOnePass | fire_risk.py:29-30 | accumulating per-key sums and counts in one pass over the rows yields exactly the group-by-mean reference |
| Orders.StringLeIsTotalOrder | soil_moisture_analysis.py:151 | code-point string order, by which string labels are sorted, is a total order |
| Orders.IntLeIsTotalOrder | soil_moisture_analysis.py:57 | the order of integer day labels is a total order |
| Orders.DateLeIsTotalOrder | fire_risk.py:29 | chronological order of day periods is a total order |
| Orders.PlotMonthLeIsTotalOrder | pai_analysis.py:27 | (plot, month) labels ordered by plot then month form a total order |
| Orders.DigitsOrder | soil_moisture_analysis.py:151 | on digit strings of equal width, string order is numeric order |
| Orders.RenderDateOrder | soil_moisture_analysis.py:151-157 | `YYYYMMDD` texts sort as strings exactly as their dates sort in time |
| Join.InnerJoin | soil_moisture_analysis.py:33 | every joined row pairs a left and a right row with equal keys, both taken from the inputs |
| Join.JoinMultiplicity | soil_moisture_analysis.py:33 | a pair with equal keys appears (left count) x (right count) times, and a pair with different keys never does |
| Join.JoinKeepsMatches | soil_moisture_analysis.py:33 | every matching pair of rows appears in the join |
| Join.JoinKeys | soil_moisture_analysis.py:33 | a key occurs in the join exactly when it occurs on both sides, so one-sided identifiers vanish |
| Join.JoinSize | soil_moisture_analysis.py:33 | the join's size is the sum over distinct left keys of the product of the two sides' multiplicities |
| FireRisk.ParseAll | fire_risk.py:10 | parsing a table succeeds exactly when every row's date and time cells match `%Y%m%d %H:%M:%S`; it then holds every row's timestamp; otherwise it raises some row's error |
| FireRisk.ParsedCellsRoundTrip | fire_risk.py:10-20 | every parsed row's timestamp is in range and converts back from its own renderings; zero-padded cells with seconds below 60 are exactly those renderings |
| FireRisk.MissingSoilCellRaises | fire_risk.py:20 | an empty date or time cell is read as the text `nan` and makes the soil parse raise |
| FireRisk.DailyMeans | fire_risk.py:29-30 | the daily table is strictly ascending by day and lists one NaN-skipping mean per day that occurs |
| FireRisk.DailyMeansExact | fire_risk.py:29-30 | a (day, mean) entry is present exactly when some row falls on that day and the mean is of that day's values; days absent from the input do not appear |
| FireRisk.PaiByDay | fire_risk.py:11-15 | the keyed PAI pairs are no more than the rows, each the day and PAI of a row that survives the ERROR mask; `PaiByDayKeys` gives the converse |
| FireRisk.PaiByDayKeys | fire_risk.py:11-15 | a day is keyed exactly when a PAI reading that survives the ERROR mask was taken on it |
| FireRisk.DailyPai | fire_risk.py:29 | the daily PAI table is strictly ascending by day; `DailyPaiExact` states its entries |
| FireRisk.DailyPaiExact | fire_risk.py:29 | the daily PAI table has an entry for a day exactly when a non-ERROR reading was taken on it, holding those readings' mean |
| FireRisk.MoistureColumn | fire_risk.py:23 | the moisture column has one entry per soil row, missing for a missing cell and for any comma-decimal text |
| FireRisk.SoilDayValues | fire_risk.py:23-30 | the moisture values grouped under a day are exactly the coerced moistures of the soil rows parsed to that day |
| FireRisk.DailySoilExact | fire_risk.py:23-30 | the daily moisture table has an entry for a day exactly when a soil row was taken on it, holding the NaN-skipping mean of that day's coerced moistures |
| FireRisk.CheckBins | fire_risk.py:70-71 | `pd.cut`'s edge checks: not increasing (or holding NaN) raises first; otherwise repeated edges raise, except for exactly two edges; otherwise the edges are used as given |
| FireRisk.CountBelow | fire_risk.py:70-71 | the edge search counts no more edges than there are; `CountBelowSplits` states which ones it counts |
| FireRisk.CountBelowSplits | fire_risk.py:70-71 | on ascending edges, the edges strictly below a value form a prefix |
| FireRisk.CutIndex | fire_risk.py:70-71 | a value gets a bin only when it is present, and only a bin between two edges; `CutIndexRightClosed` states which bin |
| FireRisk.CutIndexRightClosed | fire_risk.py:70-71 | on increasing edges a value lands in bin k exactly when e[k] < x <= e[k+1] |
| FireRisk.PaiEdges | fire_risk.py:68-70 | the edges are 0, q25, q75 and the maximum; q25 is missing exactly when no PAI is present, and otherwise q25 <= q75 <= max |
| FireRisk.CheckFourEdges | fire_risk.py:70 | for edges [0, a, b, c] with a <= b <= c: a negative a raises the monotonicity error; a zero or repeated edge raises the uniqueness error; otherwise the edges are accepted |
| FireRisk.PaiCutOutcome | fire_risk.py:68-71 | the cut raises "not increasing" exactly when q25 is missing or negative, raises "not unique" exactly when 0 == q25, q25 == q75 or q75 == max, and succeeds exactly when 0 < q25 < q75 < max |
| FireRisk.Label | fire_risk.py:71 | bin numbers 0, 1 and 2 are named Low, Medium and High, and only a missing bin has no label |
| FireRisk.LabelRightClosed | fire_risk.py:71 | on four increasing edges, Low, Medium and High are (e0, e1], (e1, e2], (e2, e3]; anything else gets no label |
| FireRisk.PaiCut | fire_risk.py:68-71 | a successful cut labels every PAI row; `PaiCutOutcome` states when it raises and `PaiCutRightClosed` which label each value gets |
| FireRisk.PaiCutRightClosed | fire_risk.py:68-71 | after a successful cut, Low is (0, q25], Medium (q25, q75], High (q75, max], and a missing or non-positive PAI gets no label |
| FireRisk.PaiCutEdgeValues | fire_risk.py:68-71 | a PAI equal to q25 is Low, one equal to q75 is Medium, and the maximum PAI is High |
| FireRisk.ConstantPaiRaises | fire_risk.py:68-71 | a column whose present values are all one positive number raises on non-unique edges instead of labelling |
| FireRisk.DetermineFireRisk | fire_risk.py:90-96 | High exactly when PAI is at least its threshold and moisture at most its own; Low exactly when PAI is below and moisture above; a missing operand satisfies neither test |
| FireRisk.RiskQuadrants | fire_risk.py:90-96 | with every operand present: High exactly for pai >= t and moisture <= mt, Low exactly for pai < t and moisture > mt, Moderate in the two other quadrants |
| FireRisk.MissingOperandIsModerate | fire_risk.py:90-96 | a missing PAI, moisture or threshold makes both comparisons false, so the risk is Moderate |
| FireRisk.RiskMonotone | fire_risk.py:90-96 | more PAI or drier soil never lowers the risk in the order Low < Moderate < High |
| FireRisk.AssessFireRisk | fire_risk.py:99-102 | one risk per PAI row; `WetSoilNeverHigh`, `DrySoilNeverLow`, `NoMoistureAllModerate` and `AtMostTwoLabels` state which |
| FireRisk.WetSoilNeverHigh | fire_risk.py:86-102 | with mean moisture above 5.0 no reading is High, and a reading is Low exactly when its PAI is below the 0.75 quantile |
| FireRisk.DrySoilNeverLow | fire_risk.py:86-102 | with mean moisture at most 5.0 no reading is Low, and a reading is High exactly when its PAI is at least the 0.75 quantile |
| FireRisk.NoMoistureAllModerate | fire_risk.py:99-102 | with no numeric moisture at all, the mean is missing and every reading is Moderate |
| FireRisk.AtMostTwoLabels | fire_risk.py:99-102 | High and Low never occur in the same assessment |
| FireRisk.FireRiskScript | fire_risk.py:10-102 | a completed run has one bin and one risk per row that survives the ERROR mask; `ScriptOutcome` and `BinsAndRisksAgree` state when it completes and how bins and risks agree |
| FireRisk.ScriptOutcome | fire_risk.py:10-71 | the script fails first on any PAI row (ERROR-flagged or not) whose timestamp does not parse, then on any soil row, then on the cut; it completes exactly when all rows parse and the cut succeeds |
| FireRisk.CutAndRiskAgree | fire_risk.py:68-102 | a Low-binned PAI is never High risk; a Medium one is High risk only at q75 itself; on dry soil a High-binned PAI is High risk |
| FireRisk.BinsAndRisksAgree | fire_risk.py:64-102 | the same agreement holds between the script's bins and its risk labels, row by row |
| PaiAnalysis.PreparePai | pai_analysis.py:12-21 | preparation succeeds exactly when every non-ERROR row's date converts (to a date or to NaT), even rows the second mask would drop, and otherwise raises some such row's error; it then holds exactly the unflagged rows with a date, with parsed dates and plot keys |
| PaiAnalysis.NatDateLeftOut | pai_analysis.py:15-21 | a reading whose date is NaT converts but leaves no prepared row, so it reaches no (plot, month) group and no bin; whether its plot then stops the resample is stated by `UndatedPlotRaises` |
| PaiAnalysis.CleanedPlots | pai_analysis.py:15-21 | a plot has prepared rows exactly when one of its unflagged readings has a date |
| PaiAnalysis.ResampleChecked | pai_analysis.py:64-79 | on prepared rows, the resample raises exactly when some unflagged plot has no dated reading, naming such a plot; otherwise every unflagged plot has a series and the results are the monthly means, the series and their ranking |
| PaiAnalysis.PaiScript | pai_analysis.py:12-79 | the script fails on a date exactly when preparation fails; `PaiScriptOutcome` states the rest |
| PaiAnalysis.PaiScriptOutcome | pai_analysis.py:12-79 | a date failure carries some non-ERROR row's conversion error; once preparation succeeds, the script fails exactly when some unflagged plot has only NaT dates, naming such a plot; otherwise it yields the monthly means, the series (one for every unflagged plot) and the ranking of the prepared rows |
| PaiAnalysis.UndatedPlotRaises | pai_analysis.py:15-65 | a table holding only one unflagged reading with a NaT date makes the script raise at the resample for that reading's plot |
| PaiAnalysis.AppendNatPrepares | pai_analysis.py:15-21 | appending a reading with a NaT date, flagged or not, leaves a successful preparation unchanged |
| PaiAnalysis.SamePreparedSameScript | pai_analysis.py:21-79 | everything after preparation depends only on the prepared rows, as long as no plot is undated |
| PaiAnalysis.NatReadingOfDatedPlot | pai_analysis.py:15-79 | appending a reading with a NaT date to a table whose script completes, when the reading's plot already has a dated unflagged reading, leaves the script's results unchanged |
| PaiAnalysis.PreparedDatesValid | pai_analysis.py:15 | every prepared date is a valid calendar date |
| PaiAnalysis.MonthlyMeans | pai_analysis.py:27 | each (plot, month) entry holds the mean PAI of exactly the readings with that key, and every reading's key has an entry |
| PaiAnalysis.MonthlyMeansKeys | pai_analysis.py:27 | a (plot, month) key has an entry exactly when some reading has it: absent combinations are not filled in |
| PaiAnalysis.MonthlyMeansAscending | pai_analysis.py:27 | entries are strictly ascending by plot, then by month |
| PaiAnalysis.PresentInGroup | pai_analysis.py:27 | a (plot, month) mean is present exactly when some reading with that key has a PAI |
| PaiAnalysis.ObservedMonths | pai_analysis.py:65 | every month in which a plot has a reading is among its observed months |
| PaiAnalysis.ObservedMonthsSound | pai_analysis.py:65 | every observed month of a plot comes from a reading of that plot |
| PaiAnalysis.PlotObserved | pai_analysis.py:65 | a plot that has readings has at least one observed month |
| PaiAnalysis.SpanOrdered | pai_analysis.py:65 | a plot's first observed month is not after its last |
| PaiAnalysis.WithinSpan | pai_analysis.py:65 | every reading's month lies within its plot's first-to-last span |
| PaiAnalysis.SpanEndsObserved | pai_analysis.py:65 | a plot's first and last months are both months of its own readings |
| PaiAnalysis.Bin | pai_analysis.py:65 | a monthly bin is labelled with the last day of its month and holds the mean PAI of that plot's readings in that month |
| PaiAnalysis.SeriesFor | pai_analysis.py:65 | a plot's series has one bin per month from its first to its last observed month, in order |
| PaiAnalysis.ResampleMonthly | pai_analysis.py:64-65 | the resample has one series per plot that has readings, and no other |
| PaiAnalysis.BinMonth | pai_analysis.py:65 | the k-th bin of a plot lies in the k-th month after its first |
| PaiAnalysis.SeriesCoversReading | pai_analysis.py:65 | every reading's month has a bin in its plot's series |
| PaiAnalysis.ResamplePlotsAscending | pai_analysis.py:65 | the resampled series are in strictly ascending plot order |
| PaiAnalysis.ResampleCoversReadings | pai_analysis.py:64-66 | every reading falls into some bin of the resample that carries its plot and its month |
| PaiAnalysis.BinPai | pai_analysis.py:65 | each bin holds the (plot, month) mean of its own month |
| PaiAnalysis.ResampleAgreesWithMonthlyMeans | pai_analysis.py:27-65 | a resampled bin equals the (plot, month) group mean when that key occurs, and is missing for a month with no readings |
| PaiAnalysis.BinMonthName | pai_analysis.py:69-72 | a bin has a month name exactly when its month number is 1..12, and the name maps back to that number |
| PaiAnalysis.ResampleBinsNamed | pai_analysis.py:69-72 | every resampled bin gets a month name |
| PaiAnalysis.RanksBeforeIsTotalPreorder | pai_analysis.py:79 | "larger average first, missing last" is a total preorder |
| PaiAnalysis.PlotAverages | pai_analysis.py:79 | the ranking is a permutation of the plot averages, non-increasing, with missing averages last |
| PaiAnalysis.RankingEntry | pai_analysis.py:79 | every ranked entry is the average of some series |
| PaiAnalysis.RankingListed | pai_analysis.py:79 | every series' average appears in the ranking |
| PaiAnalysis.RankingDistinct | pai_analysis.py:79 | series with distinct plots give a ranking with distinct plots |
| PaiAnalysis.RankedEntry | pai_analysis.py:65-79 | each ranked plot has readings, and its value is the average of its own monthly series |
| PaiAnalysis.RankedListed | pai_analysis.py:65-79 | every plot with readings is ranked |
| PaiAnalysis.RankedPlotsDistinct | pai_analysis.py:65-79 | the ranking has one entry per plot |
| SoilMoisture.DropIncomplete | soil_moisture_analysis.py:18 | the readings kept are exactly those with moisture, date and time all present |
| SoilMoisture.KeptRow | soil_moisture_analysis.py:18 | every kept reading is a complete row of the input |
| SoilMoisture.RowKept | soil_moisture_analysis.py:18 | every complete row of the input is kept |
| SoilMoisture.TimeRows | soil_moisture_analysis.py:21-26 | timestamps are built exactly when every kept reading's date and time parse; each reading keeps its row and gets an in-range timestamp |
| SoilMoisture.TimeRowsRoundTrip | soil_moisture_analysis.py:21-26 | each timed reading keeps its row and has the in-range timestamp its cells convert to, which converts back from its renderings; zero-padded cells with seconds below 60 are those renderings |
| SoilMoisture.Merge | soil_moisture_analysis.py:33 | the merge pairs a location and a reading only when their `ID_LOC`s are equal, both taken from the inputs |
| SoilMoisture.MergePairs | soil_moisture_analysis.py:33 | a matching (location, reading) pair occurs (location count) x (reading count) times; a non-matching pair never does |
| SoilMoisture.MergeSize | soil_moisture_analysis.py:33 | the merged table's size is the sum over shared identifiers of the products of their multiplicities |
| SoilMoisture.MergedPairPresent | soil_moisture_analysis.py:33 | every location and reading with equal `ID_LOC` are paired in the merge |
| SoilMoisture.MergedPairOrigin | soil_moisture_analysis.py:33 | every merged pair comes from a location and a reading with equal `ID_LOC` |
| SoilMoisture.ConvertMoisture | soil_moisture_analysis.py:36 | the conversion succeeds exactly when every merged moisture text is a number after comma replacement, and then converts each in place |
| SoilMoisture.ConversionFailureAt | soil_moisture_analysis.py:36 | a failed conversion names the comma-replaced text of the first merged reading that is not a number |
| SoilMoisture.ConvertedReading | soil_moisture_analysis.py:36 | each converted reading keeps its location, row and timestamp, and its moisture is its text with commas read as dots |
| SoilMoisture.MergedStampsRepresentable | soil_moisture_analysis.py:33-36 | the join and the conversion keep every timestamp in range |
| SoilMoisture.DaysSinceStart | soil_moisture_analysis.py:42 | one day count per reading, none negative |
| SoilMoisture.StartIsEarliest | soil_moisture_analysis.py:54-55 | the earliest reading has day 0, and each reading's day count is the whole number of days elapsed since it |
| SoilMoisture.DaysFollowTime | soil_moisture_analysis.py:55 | a later reading never has a smaller day count, and a smaller day count means an earlier reading |
| SoilMoisture.MeanByDay | soil_moisture_analysis.py:57 | the day labels are strictly ascending |
| SoilMoisture.MeanByDayExact | soil_moisture_analysis.py:57 | a (day, mean) entry is present exactly when some reading has that day count, with the mean of those readings; every entry has a mean |
| SoilMoisture.MeanByDayWithin | soil_moisture_analysis.py:57 | every day's mean lies within bounds that hold for all readings |
| SoilMoisture.HighMoisture | soil_moisture_analysis.py:65 | the high selection is exactly the readings strictly above the 0.9 quantile |
| SoilMoisture.LowMoisture | soil_moisture_analysis.py:66 | the low selection is exactly the readings strictly below the 0.1 quantile |
| SoilMoisture.HighPlots | soil_moisture_analysis.py:67 | the high-moisture plots are listed without repetition |
| SoilMoisture.LowPlots | soil_moisture_analysis.py:68 | the low-moisture plots are listed without repetition |
| SoilMoisture.PlotsInFirstAppearanceOrder | soil_moisture_analysis.py:67-68 | both plot lists are in the order in which each plot first appears in its selection |
| SoilMoisture.HighAboveLow | soil_moisture_analysis.py:65-66 | every high reading is wetter than every low reading, so the selections are disjoint |
| SoilMoisture.HighPlotHasReading | soil_moisture_analysis.py:65-67 | every listed high plot has a reading above the 0.9 quantile |
| SoilMoisture.HighReadingListed | soil_moisture_analysis.py:65-67 | the plot of every reading above the 0.9 quantile is listed |
| SoilMoisture.LowPlotHasReading | soil_moisture_analysis.py:66-68 | every listed low plot has a reading below the 0.1 quantile |
| SoilMoisture.LowReadingListed | soil_moisture_analysis.py:66-68 | the plot of every reading below the 0.1 quantile is listed |
| SoilMoisture.UniformMoistureSelectsNothing | soil_moisture_analysis.py:65-68 | when every reading has the same moisture, neither selection lists a plot |
| SoilMoisture.Temperature | soil_moisture_analysis.py:147 | a temperature is present only for a present cell, and on comma-free text it is plain coercion's value |
| SoilMoisture.WithTemperature | soil_moisture_analysis.py:147-148 | after the NaN drop exactly the readings whose temperature converts remain |
| SoilMoisture.DailyTable | soil_moisture_analysis.py:151-154 | the daily table has one row per distinct date text, strictly ascending, and no other |
| SoilMoisture.DailyEntryMeans | soil_moisture_analysis.py:151-154 | each daily row holds the mean moisture and the mean temperature of exactly the readings with that date text |
| SoilMoisture.DailyMeansWithin | soil_moisture_analysis.py:151-154 | with every temperature present, each daily row has both means, within bounds that hold for all readings |
| SoilMoisture.DailyDates | soil_moisture_analysis.py:157 | the date column converts exactly when every date text does, each to its own date; an eight-digit text is the rendering of its date |
| SoilMoisture.DailyDatesChronological | soil_moisture_analysis.py:151-157 | two eight-digit date texts in table order convert to strictly chronological dates |
| SoilMoisture.UnpaddedTextsOutOfOrder | soil_moisture_analysis.py:151-157 | unpadded texts break that: `20210401` sorts before `2021315`, which is the earlier day |
| SoilMoisture.MergedReadings | soil_moisture_analysis.py:18-36 | preparation fails only on a timestamp or a moisture conversion; its readings all have in-range timestamps |
| SoilMoisture.UnparsedReadingFails | soil_moisture_analysis.py:18-26 | a complete row whose date and time do not parse makes the script fail on timestamps |
| SoilMoisture.TimestampFailureRow | soil_moisture_analysis.py:18-26 | a timestamp failure is the error of some complete input row |
| SoilMoisture.MatchedBadMoistureFails | soil_moisture_analysis.py:18-36 | a complete row that matches a location and whose moisture is not a number makes the conversion fail |
| SoilMoisture.ConversionFailureRow | soil_moisture_analysis.py:18-36 | a conversion failure names the comma-replaced moisture text of a complete row that matches some location |
| SoilMoisture.ReadingRow | soil_moisture_analysis.py:18-36 | every prepared reading comes from a complete input row whose date and time cells convert to its timestamp |
| SoilMoisture.MergedReadingsStamped | soil_moisture_analysis.py:21-36 | every prepared reading's timestamp is the one its date and time cells convert to |
| SoilMoisture.Analyse | soil_moisture_analysis.py:42-157 | the analysis of prepared readings fails only in the daily date parse; on success it keeps the readings, has one day count per reading and one date per daily row |
| SoilMoisture.DailyDatesFailOnFirstDay | soil_moisture_analysis.py:151-157 | when the daily date parse fails, some reading's date text is rejected by `%Y%m%d`; if it has eight digits it is `16770921` |
| SoilMoisture.SoilScript | soil_moisture_analysis.py:18-157 | the script fails on timestamps or moisture exactly when preparation does, with the same error; on success its readings are the prepared ones |
| SoilMoisture.DailyTextsNotNat | soil_moisture_analysis.py:23-157 | no date text of the daily table is a NaT text, so the line 157 conversion of each one is the format's own result |
| SoilMoisture.DailyDateFailureDay | soil_moisture_analysis.py:18-157 | the script's daily-date failure points to a complete input row whose cells convert together while its date cell alone does not; an eight-digit such cell is `16770921` |

## Left out

- Charts, colour maps, axis formatting and `print`: presentation only.
- `read_csv` and `gpd.read_file`: the tables are given as sequences of records. A file that does not split into columns is not modelled.
- The unused columns of the tables: the records carry only the cells the scripts read.
- The CRS assignment and reprojection at `soil_moisture_analysis.py:97-99`: geodesy inside geopandas. The point geometry is carried along unchanged.
- `describe()` (`pai_analysis.py:44`, `soil_moisture_analysis.py:49`): printed summaries with no decision logic.
- The percentage `value_counts` of `fire_risk.py:105` and 117: reporting only.
- The day-of-month regrouping of `fire_risk.py:124`: a printed summary. It also averages the `Date` column itself, which has no numeric meaning.
- The second merge, sort and conversion at `soil_moisture_analysis.py:115-132`: they feed one chart only.
  - The merge is the same inner join as line 33, so `SoilMoisture.Merge` describes it.
  - The conversion at line 120 goes through `astype(str)`, which makes every cell text. Once line 36 has succeeded on the same rows, line 120 cannot fail.
- `fire_risk.py:12` and `fire_risk.py:24`: the plot identifier computed there is never read again.
- Floating point: measurements are exact reals. Rounding in means and in the quantile interpolation is not modelled.
- `SoilMoisture.TimeRows`: `soil_moisture_analysis.py:23`, 26 and 54 call `to_datetime` without a format, so pandas infers one from the first cell. The model parses them with `%Y%m%d %H:%M:%S`. Tables from whose first cell pandas would infer another format are not modelled.
- `TimeParse.ParseTimestamp`: for this format pandas first tries its ISO 8601 parser and uses the regex only when that fails. The model takes the regex route for every text. Text that only the ISO parser reads is not modelled. The NaT check is not applied to this text: the model parses only a date and a time cell joined by a blank, which is never a NaT text (`TimeParse.JoinedNotNat`).
- `TimeParse.ParseDate`: this is the format alone; the NaT texts are handled by `TimeParse.ConvertDate`, which is what the scripts call. The regex's `\d` also matches non-ASCII digits; the model reads ASCII digits only. The error kinds stand for pandas' messages (no match or unconverted text, a field out of range, out of bounds).
- `SoilMoisture.DailyDatesChronological`: the order holds only for eight-digit date texts. Sorted as text, unpadded dates can be out of order (`SoilMoisture.UnpaddedTextsOutOfOrder`).
- `SoilMoisture.DailyDatesFailOnFirstDay`: for date texts other than eight digits, the model does not say which ones convert inside their timestamp but not alone.
- `Decimal.ParseDecimal`: accepts the subset `[+-]digits[.digits]` and `[+-].digits`. Exponents, surrounding whitespace, `inf`, `nan` and digit-group underscores, which Python's `float()` also reads, are rejected by the model.
- `SoilMoisture.ConvertMoisture`: the merged moisture column is taken to hold text. If every moisture cell of the file has no comma, pandas loads the column as numbers, and `.str` at line 36 raises an AttributeError. That failure is not modelled.
- `SoilMoisture.WithTemperature`: the temperature column is likewise taken to hold text. A column pandas loads as numbers makes `.str` at line 147 raise an AttributeError, which is not modelled.
- `TimeParse.ConvertDate`: pandas converts the texts `now` and `today` to the current clock time before it tries the format. The model has no clock and rejects both texts with the format's error. The date texts re-parsed at `soil_moisture_analysis.py:157` come from rows that converted with a time, so they are never these texts.
- `PaiAnalysis.PreparePai`: the date cells are taken as text, with an empty cell as the text `nan`. pandas loads a `MEAS_DATE` column of digits as numbers, and `to_datetime` treats numbers under this format on a path of its own. The model gives such a cell as its digit text, and does not model how pandas converts a float cell or a NaN among numbers.
- `Records.PlotKey`: `SITE` and `SITE_PLOT` are modelled as text. A numeric `SITE_PLOT` column would make the string concatenation raise.
- `SoilMoisture.SoilScript`: the date and time cells are taken to be the text `astype(str)` makes at line 21. The model does not derive that text from the loaded column. An integer `MEAS_DATE` column with an empty cell loads as floats, so line 21 makes texts such as `20210315.0`. Both formats reject such text (`TimeParse.FloatDateRejected`), so the script then raises at line 23.
- `SoilMoisture.MergedReadings`: `SITE_PLOT` is taken from the reading table. The point layer is assumed to carry only `ID_LOC` and the geometry.
- `FireRisk.CheckBins`: the uniqueness check is skipped for exactly two edges, as pandas does. The PAI cut always has four edges, so that case never arises here.
- `PaiAnalysis.PlotAverages`: ties between equal averages are broken by a stable insertion sort. pandas' default sort is not stable, so its order among ties may differ. The contract states only the permutation and the non-increasing order.
- Pandas' nanosecond timestamp range is modelled at second granularity: 1677-09-21 00:12:44 to 2262-04-11 23:47:16.

=== FILE: calendar.dfy ===
/** The proleptic Gregorian calendar underneath pandas' datetime64 values:
    dates, clock times, timestamps, calendar months, and a day count that turns
    chronological order into integer order. */
module Calendar {
  import opened Wrappers

  datatype Date = Date(year: int, month: int, day: int)
  datatype Time = Time(hour: int, minute: int, second: int)
  datatype Timestamp = Timestamp(date: Date, time: Time)

  /** A calendar month, the key of `to_period('M')` and of monthly resampling. */
  datatype YearMonth = YearMonth(year: int, month: int)

  predicate IsLeapYear(y: int) {
    y % 4 == 0 && (y % 100 != 0 || y % 400 == 0)
  }

  function DaysInMonth(y: int, m: int): (n: int)
    requires 1 <= m <= 12
    ensures 28 <= n <= 31
    ensures n == 29 <==> m == 2 && IsLeapYear(y)
  {
    if m == 2 then (if IsLeapYear(y) then 29 else 28)
    else if m == 4 || m == 6 || m == 9 || m == 11 then 30
    else 31
  }

  function DaysInYear(y: int): int {
    if IsLeapYear(y) then 366 else 365
  }

  predicate ValidDate(d: Date) {
    1 <= d.month <= 12 && 1 <= d.day <= DaysInMonth(d.year, d.month)
  }

  predicate ValidTime(t: Time) {
    0 <= t.hour < 24 && 0 <= t.minute < 60 && 0 <= t.second < 60
  }

  predicate ValidTimestamp(ts: Timestamp) {
    ValidDate(ts.date) && ValidTime(ts.time)
  }

  /** Chronological order on dates: lexicographic on (year, month, day). */
  predicate DateBefore(a: Date, b: Date) {
    || a.year < b.year
    || (a.year == b.year && a.month < b.month)
    || (a.year == b.year && a.month == b.month && a.day < b.day)
  }

  /** Chronological order on timestamps: by date, then by clock time. */
  predicate Before(a: Timestamp, b: Timestamp) {
    || DateBefore(a.date, b.date)
    || (a.date == b.date && a.time.hour < b.time.hour)
    || (a.date == b.date && a.time.hour == b.time.hour && a.time.minute < b.time.minute)
    || (a.date == b.date && a.time.hour == b.time.hour && a.time.minute == b.time.minute
        && a.time.second < b.time.second)
  }

  /** Days from 0001-01-01 to the first day of year `y`. */
  function DaysBeforeYear(y: int): int {
    365 * (y - 1) + (y - 1) / 4 - (y - 1) / 100 + (y - 1) / 400
  }

  /** Days from the first of January to the first day of month `m` of year `y`. */
  function DaysBeforeMonth(y: int, m: int): int
    requires 1 <= m <= 12
  {
    var common := [0, 31, 59, 90, 120, 151, 181, 212, 243, 273, 304, 334][m - 1];
    if m > 2 && IsLeapYear(y) then common + 1 else common
  }

  /** Day count since 0001-01-01 (which is day 0). */
  function DayNumber(d: Date): int
    requires ValidDate(d)
  {
    DaysBeforeYear(d.year) + DaysBeforeMonth(d.year, d.month) + d.day - 1
  }

  /** Seconds since 0001-01-01 00:00:00. */
  function Seconds(ts: Timestamp): int
    requires ValidTimestamp(ts)
  {
    DayNumber(ts.date) * 86400 + ts.time.hour * 3600 + ts.time.minute * 60 + ts.time.second
  }

  lemma MonthStep(y: int, m: int)
    requires 1 <= m <= 12
    ensures m < 12 ==> DaysBeforeMonth(y, m + 1) == DaysBeforeMonth(y, m) + DaysInMonth(y, m)
    ensures m == 12 ==> DaysBeforeMonth(y, m) + DaysInMonth(y, m) == DaysInYear(y)
  {
  }

  lemma DivStep(y: int)
    ensures y / 4 - (y - 1) / 4 == (if y % 4 == 0 then 1 else 0)
    ensures y / 100 - (y - 1) / 100 == (if y % 100 == 0 then 1 else 0)
    ensures y / 400 - (y - 1) / 400 == (if y % 400 == 0 then 1 else 0)
  {
  }

  /** Consecutive years are exactly one year length apart. */
  lemma YearStep(y: int)
    ensures DaysBeforeYear(y + 1) == DaysBeforeYear(y) + DaysInYear(y)
  {
    DivStep(y);
  }

  lemma {:induction false} YearsAscend(y1: int, y2: int)
    requires y1 < y2
    ensures DaysBeforeYear(y1) + DaysInYear(y1) <= DaysBeforeYear(y2)
    decreases y2 - y1
  {
    YearStep(y1);
    if y1 + 1 < y2 {
      YearsAscend(y1 + 1, y2);
    }
  }

  lemma MonthsAscend(y: int, m1: int, m2: int)
    requires 1 <= m1 < m2 <= 12
    ensures DaysBeforeMonth(y, m1) + DaysInMonth(y, m1) <= DaysBeforeMonth(y, m2)
  {
  }

  lemma DayWithinYear(d: Date)
    requires ValidDate(d)
    ensures 0 <= DaysBeforeMonth(d.year, d.month) + d.day - 1 < DaysInYear(d.year)
  {
    if d.month < 12 {
      MonthsAscend(d.year, d.month, 12);
    }
  }

  /** The day count is strictly increasing in chronological order. */
  lemma DayNumberAscends(a: Date, b: Date)
    requires ValidDate(a) && ValidDate(b) && DateBefore(a, b)
    ensures DayNumber(a) < DayNumber(b)
  {
    DayWithinYear(a);
    DayWithinYear(b);
    if a.year < b.year {
      YearsAscend(a.year, b.year);
    } else if a.month < b.month {
      MonthsAscend(a.year, a.month, b.month);
    }
  }

  /** Seconds since the epoch embed chronological order: comparing two valid timestamps
      by `Before` and by their second counts always agrees. */
  lemma SecondsOrder(a: Timestamp, b: Timestamp)
    requires ValidTimestamp(a) && ValidTimestamp(b)
    ensures Before(a, b) <==> Seconds(a) < Seconds(b)
    ensures a == b <==> Seconds(a) == Seconds(b)
  {
    if DateBefore(a.date, b.date) {
      DayNumberAscends(a.date, b.date);
    } else if DateBefore(b.date, a.date) {
      DayNumberAscends(b.date, a.date);
    } else {
      assert a.date == b.date;
    }
  }

  /** The calendar day after `d`: the day count steps by exactly one. */
  function NextDay(d: Date): (n: Date)
    requires ValidDate(d)
    ensures ValidDate(n) && DateBefore(d, n)
    ensures DayNumber(n) == DayNumber(d) + 1
  {
    MonthStep(d.year, d.month);
    YearStep(d.year);
    if d.day < DaysInMonth(d.year, d.month) then Date(d.year, d.month, d.day + 1)
    else if d.month < 12 then Date(d.year, d.month + 1, 1)
    else Date(d.year + 1, 1, 1)
  }

  /** The same second of the next minute, carrying into the hour and the day. */
  function NextMinute(ts: Timestamp): (n: Timestamp)
    requires ValidTimestamp(ts)
    ensures ValidTimestamp(n)
    ensures Seconds(n) == Seconds(ts) + 60
  {
    var t := ts.time;
    if t.minute < 59 then Timestamp(ts.date, Time(t.hour, t.minute + 1, t.second))
    else if t.hour < 23 then Timestamp(ts.date, Time(t.hour + 1, 0, t.second))
    else Timestamp(NextDay(ts.date), Time(0, 0, t.second))
  }

  /** The index of a calendar month on a single axis, one step per month. */
  function MonthIndex(ym: YearMonth): int {
    ym.year * 12 + (ym.month - 1)
  }

  function MonthAt(i: int): (ym: YearMonth)
    ensures 1 <= ym.month <= 12
    ensures MonthIndex(ym) == i
  {
    YearMonth(i / 12, i % 12 + 1)
  }

  lemma MonthIndexInjective(a: YearMonth, b: YearMonth)
    requires 1 <= a.month <= 12 && 1 <= b.month <= 12
    ensures MonthIndex(a) == MonthIndex(b) <==> a == b
  {
  }

  function MonthOf(d: Date): YearMonth {
    YearMonth(d.year, d.month)
  }

  /** The label pandas gives a monthly resample bin: the last day of the month. */
  function MonthEnd(ym: YearMonth): (d: Date)
    requires 1 <= ym.month <= 12
    ensures ValidDate(d) && MonthOf(d) == ym
    ensures forall day :: 1 <= day <= 31 && ValidDate(Date(ym.year, ym.month, day)) ==> day <= d.day
  {
    Date(ym.year, ym.month, DaysInMonth(ym.year, ym.month))
  }

  /** `month_map` (pai_analysis.py): month number to English month name; any other
      number maps to the missing marker. */
  function MonthName(m: int): (r: Option<string>)
    ensures r.Some? <==> 1 <= m <= 12
    ensures r.Some? ==> MonthNumber(r.value) == Some(m)
  {
    if 1 <= m <= 12 then
      Some(["January", "February", "March", "April", "May", "June",
            "July", "August", "September", "October", "November", "December"][m - 1])
    else None
  }

  /** The inverse of `MonthName`. */
  function MonthNumber(name: string): Option<int> {
    if name == "January" then Some(1)
    else if name == "February" then Some(2)
    else if name == "March" then Some(3)
    else if name == "April" then Some(4)
    else if name == "May" then Some(5)
    else if name == "June" then Some(6)
    else if name == "July" then Some(7)
    else if name == "August" then Some(8)
    else if name == "September" then Some(9)
    else if name == "October" then Some(10)
    else if name == "November" then Some(11)
    else if name == "December" then Some(12)
    else None
  }

  /** The month-name map is injective on 1..12. */
  lemma MonthNameInjective(m1: int, m2: int)
    requires 1 <= m1 <= 12 && 1 <= m2 <= 12
    ensures MonthName(m1) == MonthName(m2) <==> m1 == m2
  {
    var n1 := MonthName(m1);
    var n2 := MonthName(m2);
    assert MonthNumber(n1.value) == Some(m1);
    assert MonthNumber(n2.value) == Some(m2);
  }
}

=== FILE: decimal.dfy ===
/** Conversion of measurement text to numbers. The soil files write decimals with a comma
    ("12,5"); the scripts either coerce the raw text (non-numbers become missing) or first
    replace every comma with a dot and then convert, strictly or by coercion. */
module Decimal {
  import opened Wrappers
  import opened TimeParse

  /** `astype(float)` refused the text. */
  datatype ConversionError = NotANumber(text: string)

  /** `Series.str.replace(',', '.')`: every comma becomes a dot, nothing else changes. */
  function ReplaceCommas(s: string): (r: string)
    ensures |r| == |s|
    ensures forall i :: 0 <= i < |s| ==> r[i] == (if s[i] == ',' then '.' else s[i])
  {
    seq(|s|, i requires 0 <= i < |s| => if s[i] == ',' then '.' else s[i])
  }

  function IndexOfDot(s: string): (r: Option<nat>)
    ensures r.Some? ==> r.value < |s| && s[r.value] == '.' && '.' !in s[..r.value]
    ensures r.None? ==> '.' !in s
  {
    if |s| == 0 then None
    else if s[0] == '.' then Some(0)
    else
      match IndexOfDot(s[1..])
      case None => None
      case Some(k) => assert s[..k + 1] == [s[0]] + s[1..][..k]; Some(k + 1)
  }

  /** The value of an unsigned decimal: digits, optionally a dot and more digits, with at
      least one digit in all ("7", "12.5", "12.", ".5"). */
  function UnsignedValue(s: string): Option<real> {
    match IndexOfDot(s)
    case None =>
      if |s| > 0 && AllDigits(s) then Some(ParseNat(s) as real) else None
    case Some(k) =>
      var whole := s[..k];
      var frac := s[k + 1..];
      if AllDigits(whole) && AllDigits(frac) && |whole| + |frac| > 0
      then Some(ParseNat(whole) as real + ParseNat(frac) as real / Pow10(|frac|) as real)
      else None
  }

  /** Python's float() / pandas' number parser on plain decimal notation with an optional
      sign. A comma is never accepted, which is why `pd.to_numeric(..., errors='coerce')`
      on a decimal-comma column yields missing values. */
  function ParseDecimal(s: string): (r: Option<real>)
    ensures r.Some? ==> |s| > 0 && ',' !in s
  {
    var signed := |s| > 0 && (s[0] == '-' || s[0] == '+');
    var u := UnsignedValue(if signed then s[1..] else s);
    assert u.Some? ==> |s| > 0 && ',' !in s by {
      if u.Some? {
        if signed {
          UnsignedHasNoComma(s[1..]);
          assert s == [s[0]] + s[1..];
        } else {
          UnsignedHasNoComma(s);
        }
      }
    }
    if signed && s[0] == '-' then
      match u
      case None => None
      case Some(v) => Some(-v)
    else u
  }

  /** `pd.to_numeric(column, errors='coerce')`: a missing cell stays missing and text that is
      not a number becomes missing instead of raising (fire_risk.py). Commas are not
      replaced, so a decimal comma is missing too. */
  function CoerceNumeric(cell: Option<string>): (r: Option<real>)
    ensures cell.None? ==> r.None?
    ensures cell.Some? ==> r == ParseDecimal(cell.value)
    ensures cell.Some? && ',' in cell.value ==> r.None?
    ensures r.Some? ==> cell.Some? && ',' !in cell.value
  {
    match cell
    case None => None
    case Some(s) => ParseDecimal(s)
  }

  /** `pd.to_numeric(column.str.replace(',', '.'), errors='coerce')` (soil temperature). On
      text without a comma it is the plain coercion; a comma is read as a dot. */
  function CoerceCommaDecimal(cell: Option<string>): (r: Option<real>)
    ensures cell.None? ==> r.None?
    ensures cell.Some? ==> r == ParseDecimal(ReplaceCommas(cell.value))
    ensures cell.Some? && ',' !in cell.value ==> r == CoerceNumeric(cell)
  {
    match cell
    case None => None
    case Some(s) =>
      ReplaceCommasIdempotent(s);
      CoerceNumeric(Some(ReplaceCommas(s)))
  }

  /** `column.str.replace(',', '.').astype(float)` (soil moisture): raises on text that is
      not a number even after the comma is replaced. `astype` sees only the replaced text,
      so that is the text its error names. */
  function StrictCommaDecimal(s: string): (r: Result<real, ConversionError>)
    ensures r.Ok? <==> ParseDecimal(ReplaceCommas(s)).Some?
    ensures r.Ok? ==> Some(r.value) == CoerceCommaDecimal(Some(s))
    ensures r.Err? ==> r.error == NotANumber(ReplaceCommas(s))
  {
    match ParseDecimal(ReplaceCommas(s))
    case None => Err(NotANumber(ReplaceCommas(s)))
    case Some(v) => Ok(v)
  }

  lemma UnsignedHasNoComma(s: string)
    requires UnsignedValue(s).Some?
    ensures ',' !in s
  {
    match IndexOfDot(s)
    case None =>
    case Some(k) =>
      assert s == s[..k] + ['.'] + s[k + 1..];
      assert ',' !in s[..k] && ',' !in s[k + 1..];
  }

  /** Replacing commas is idempotent and leaves comma-free text untouched. */
  lemma ReplaceCommasIdempotent(s: string)
    ensures ReplaceCommas(ReplaceCommas(s)) == ReplaceCommas(s)
    ensures ',' !in s ==> ReplaceCommas(s) == s
  {
  }

  /** After normalisation, a decimal comma and a decimal dot are interchangeable: two texts
      that differ only by ',' versus '.' at some positions convert to the same value, or both
      fail with the same error. */
  lemma SeparatorInsensitive(s: string, t: string)
    requires |s| == |t|
    requires forall i :: 0 <= i < |s| ==> s[i] == t[i] || (s[i] in ",." && t[i] in ",.")
    ensures CoerceCommaDecimal(Some(s)) == CoerceCommaDecimal(Some(t))
    ensures StrictCommaDecimal(s) == StrictCommaDecimal(t)
  {
    assert ReplaceCommas(s) == ReplaceCommas(t);
  }

  lemma {:induction false} DotAfterDigits(whole: string, rest: string)
    requires '.' !in whole
    ensures IndexOfDot(whole + "." + rest) == Some(|whole|)
  {
    if |whole| > 0 {
      assert (whole + "." + rest)[1..] == whole[1..] + "." + rest;
      DotAfterDigits(whole[1..], rest);
    }
  }

  /** The decimal value written by the digits `whole` '.' `frac`. */
  function DecimalValue(whole: string, frac: string): real
    requires AllDigits(whole) && AllDigits(frac)
  {
    ParseNat(whole) as real + ParseNat(frac) as real / Pow10(|frac|) as real
  }

  lemma UnsignedDotForm(whole: string, frac: string)
    requires AllDigits(whole) && AllDigits(frac) && |whole| + |frac| > 0
    ensures UnsignedValue(whole + "." + frac) == Some(DecimalValue(whole, frac))
  {
    var s := whole + "." + frac;
    assert '.' !in whole;
    DotAfterDigits(whole, frac);
    assert s[..|whole|] == whole;
    assert s[|whole| + 1..] == frac;
  }

  /** A decimal written with a comma: raw coercion gives missing, while normalising first
      gives the same value as the dotted spelling, under both the strict and the coercing
      conversion. */
  lemma DecimalCommaForm(whole: string, frac: string)
    requires AllDigits(whole) && AllDigits(frac) && |whole| + |frac| > 0
    ensures var v := DecimalValue(whole, frac);
      && CoerceNumeric(Some(whole + "," + frac)) == None
      && CoerceNumeric(Some(whole + "." + frac)) == Some(v)
      && CoerceCommaDecimal(Some(whole + "," + frac)) == Some(v)
      && StrictCommaDecimal(whole + "," + frac) == Ok(v)
  {
    var comma := whole + "," + frac;
    var dot := whole + "." + frac;
    assert comma[|whole|] == ',';
    UnsignedDotForm(whole, frac);
    assert ReplaceCommas(comma) == dot;
    if |whole| > 0 {
      assert dot[0] == whole[0] && IsDigit(whole[0]);
    } else {
      assert dot[0] == '.';
    }
  }

  /** The soil files' "12,5" is missing to `pd.to_numeric(..., errors='coerce')` but 12.5
      once commas are replaced; "12.5" is 12.5 either way. */
  lemma TwelveAndAHalf()
    ensures CoerceNumeric(Some("12,5")) == None
    ensures CoerceNumeric(Some("12.5")) == Some(12.5)
    ensures CoerceCommaDecimal(Some("12,5")) == Some(12.5)
    ensures StrictCommaDecimal("12,5") == Ok(12.5)
  {
    assert "12,5" == "12" + "," + "5";
    assert "12.5" == "12" + "." + "5";
    assert ParseNat("12") == 12 by {
      assert "12"[..1] == "1";
      assert "1"[..0] == "";
    }
    assert ParseNat("5") == 5 by {
      assert "5"[..0] == "";
    }
    assert Pow10(1) == 10;
    assert DecimalValue("12", "5") == 12.5;
    DecimalCommaForm("12", "5");
  }
}

=== FILE: firerisk.dfy ===
/** fire_risk.py: the fixed-format timestamp parse, the ERROR mask, the daily means of PAI
    and soil moisture, the quantile binning of PAI with `pd.cut`, and the PAI/moisture
    risk rule applied with one dataset-wide mean moisture. */
module FireRisk {
  import opened Wrappers
  import opened Seqs
  import opened Calendar
  import opened TimeParse
  import opened Decimal
  import opened Stats
  import opened Grouping
  import opened Orders
  import opened Records

  // ----- Lines 10 and 20: `%Y%m%d %H:%M:%S` over every row -----

  /** `to_datetime(MEAS_DATE.astype(str) + ' ' + MEAS_TIME.astype(str), format=...)` over
      a whole table: the first row that does not match raises. */
  function ParseAll<T>(rows: seq<T>, date: T -> string, time: T -> string): (r: Result<seq<Timestamp>, ParseError>)
    ensures r.Ok? <==> forall i :: 0 <= i < |rows| ==> ParseDateTime(date(rows[i]), time(rows[i])).Ok?
    ensures r.Ok? ==> |r.value| == |rows|
                      && forall i :: 0 <= i < |rows| ==> r.value[i] == ParseDateTime(date(rows[i]), time(rows[i])).value
    ensures r.Err? ==> exists i :: 0 <= i < |rows| && ParseDateTime(date(rows[i]), time(rows[i])) == Err(r.error)
  {
    Traverse(rows, (x: T) => ParseDateTime(date(x), time(x)))
  }

  /** Every parsed row's timestamp lies in pandas' timestamp range, and its own `YYYYMMDD`
      and `HH:MM:SS` renderings convert back to it; a row whose cells are already
      zero-padded, with seconds below 60, holds exactly those renderings. */
  lemma ParsedCellsRoundTrip<T>(rows: seq<T>, date: T -> string, time: T -> string, i: nat)
    requires ParseAll(rows, date, time).Ok? && i < |rows|
    ensures var ts := ParseAll(rows, date, time).value[i];
            && Representable(ts)
            && ParseDateTime(RenderDate(ts.date), RenderTime(ts.time)) == Ok(ts)
    ensures var ts := ParseAll(rows, date, time).value[i];
            EightDigits(date(rows[i])) && TimeShape(time(rows[i])) && TimeFields(time(rows[i])).second < 60
            ==> date(rows[i]) == RenderDate(ts.date) && time(rows[i]) == RenderTime(ts.time)
  {
    var ts := ParseAll(rows, date, time).value[i];
    ParseRenderedTimestamp(ts);
    if EightDigits(date(rows[i])) && TimeShape(time(rows[i])) {
      FixedCellsRender(date(rows[i]), time(rows[i]));
    }
  }

  function PaiDate(r: PaiRaw): string {
    r.measDate
  }

  function PaiTime(r: PaiRaw): string {
    r.measTime
  }

  function SoilDate(r: SoilRaw): string {
    CellText(r.measDate)
  }

  function SoilTime(r: SoilRaw): string {
    CellText(r.measTime)
  }

  /** A soil row with an empty date or time cell is parsed as the text `nan` and makes
      line 20 raise. */
  lemma MissingSoilCellRaises(soil: seq<SoilRaw>, i: nat)
    requires i < |soil| && (soil[i].measDate.None? || soil[i].measTime.None?)
    ensures ParseAll(soil, SoilDate, SoilTime).Err?
  {
    var d, t := SoilDate(soil[i]), SoilTime(soil[i]);
    NanRejected(d, t);
  }

  // ----- Lines 29-30: daily means -----

  /** `groupby('Date')[column].mean()`: one entry per calendar day that occurs, in
      ascending day order, holding the NaN-skipping mean of exactly that day's values. */
  function DailyMeans(keyed: seq<(Date, Option<real>)>): (r: seq<(Date, Option<real>)>)
    ensures forall i, j :: 0 <= i < j < |r| ==> DateBefore(r[i].0, r[j].0)
    ensures ListsGroups(keyed, r)
  {
    DateLeIsTotalOrder();
    SortedGroupMean(keyed, DateLe)
  }

  /** A day has an entry exactly when some row falls on it, and that entry is the mean of
      the day's present values; no day absent from the input appears. */
  lemma DailyMeansExact(keyed: seq<(Date, Option<real>)>, d: Date, v: Option<real>)
    ensures (d, v) in DailyMeans(keyed) <==> (exists j :: 0 <= j < |keyed| && keyed[j].0 == d)
                                             && v == MeanPresent(ValuesFor(keyed, d))
  {
    DateLeIsTotalOrder();
    SortedGroupMeanExact(keyed, DateLe, d, v);
  }

  /** The (day, PAI) pairs of the rows that survive the ERROR mask of line 11, using the
      timestamps parsed at line 10 for all rows. */
  function PaiByDay(pai: seq<PaiRaw>, ts: seq<Timestamp>): (keyed: seq<(Date, Option<real>)>)
    requires |ts| == |pai|
    ensures |keyed| <= |pai|
    ensures forall j :: 0 <= j < |keyed| ==>
              exists i :: 0 <= i < |pai| && NotError(pai[i]) && keyed[j] == (ts[i].date, pai[i].pai)
    decreases |pai|
  {
    if |pai| == 0 then []
    else
      assert forall i :: 0 <= i < |pai| - 1 ==> Init(pai)[i] == pai[i] && Init(ts)[i] == ts[i];
      PaiByDay(Init(pai), Init(ts))
      + (if NotError(Last(pai)) then [(Last(ts).date, Last(pai).pai)] else [])
  }

  /** A day occurs among the keyed PAI rows exactly when a reading that survives the ERROR
      mask was taken on it. */
  lemma {:induction false} PaiByDayKeys(pai: seq<PaiRaw>, ts: seq<Timestamp>, d: Date)
    requires |ts| == |pai|
    ensures (exists j :: 0 <= j < |PaiByDay(pai, ts)| && PaiByDay(pai, ts)[j].0 == d)
        <==> (exists i :: 0 <= i < |pai| && NotError(pai[i]) && ts[i].date == d)
  {
    var keyed := PaiByDay(pai, ts);
    if exists j :: 0 <= j < |keyed| && keyed[j].0 == d {
      var j :| 0 <= j < |keyed| && keyed[j].0 == d;
      var i :| 0 <= i < |pai| && NotError(pai[i]) && keyed[j] == (ts[i].date, pai[i].pai);
    }
    if exists i :: 0 <= i < |pai| && NotError(pai[i]) && ts[i].date == d {
      var i :| 0 <= i < |pai| && NotError(pai[i]) && ts[i].date == d;
      var j := PaiByDayHas(pai, ts, i);
    }
  }

  /** A reading that survives the ERROR mask is keyed by its day (at position `j`). */
  lemma {:induction false} PaiByDayHas(pai: seq<PaiRaw>, ts: seq<Timestamp>, i: nat) returns (j: nat)
    requires |ts| == |pai| && i < |pai| && NotError(pai[i])
    ensures j < |PaiByDay(pai, ts)| && PaiByDay(pai, ts)[j] == (ts[i].date, pai[i].pai)
    decreases |pai|
  {
    var front := PaiByDay(Init(pai), Init(ts));
    var keyed := PaiByDay(pai, ts);
    assert forall t :: 0 <= t < |front| ==> keyed[t] == front[t];
    if i < |pai| - 1 {
      assert Init(pai)[i] == pai[i] && Init(ts)[i] == ts[i];
      j := PaiByDayHas(Init(pai), Init(ts), i);
    } else {
      j := |front|;
    }
  }

  /** Line 29: the daily PAI means of the rows that survive the ERROR mask. */
  function DailyPai(pai: seq<PaiRaw>, ts: seq<Timestamp>): (r: seq<(Date, Option<real>)>)
    requires |ts| == |pai|
    ensures forall i, j :: 0 <= i < j < |r| ==> DateBefore(r[i].0, r[j].0)
  {
    DailyMeans(PaiByDay(pai, ts))
  }

  /** The daily PAI table has an entry for a day exactly when a non-ERROR reading was taken
      on it, and the entry is the mean of that day's non-ERROR readings. */
  lemma DailyPaiExact(pai: seq<PaiRaw>, ts: seq<Timestamp>, d: Date, v: Option<real>)
    requires |ts| == |pai|
    ensures (d, v) in DailyPai(pai, ts)
        <==> (exists i :: 0 <= i < |pai| && NotError(pai[i]) && ts[i].date == d)
             && v == MeanPresent(ValuesFor(PaiByDay(pai, ts), d))
  {
    DailyMeansExact(PaiByDay(pai, ts), d, v);
    PaiByDayKeys(pai, ts, d);
  }

  /** The (day, moisture) pairs of all soil rows; the moisture text is coerced with
      `to_numeric(errors='coerce')` (line 23), so text that is not a number is missing. */
  function SoilByDay(soil: seq<SoilRaw>, ts: seq<Timestamp>): (keyed: seq<(Date, Option<real>)>)
    requires |ts| == |soil|
    ensures |keyed| == |soil|
    ensures forall i :: 0 <= i < |soil| ==> keyed[i] == (ts[i].date, CoerceNumeric(soil[i].moisture))
  {
    seq(|soil|, i requires 0 <= i < |soil| => (ts[i].date, CoerceNumeric(soil[i].moisture)))
  }

  /** The values of one day are exactly that day's coerced moistures. */
  lemma SoilDayValues(soil: seq<SoilRaw>, ts: seq<Timestamp>, d: Date)
    requires |ts| == |soil|
    ensures forall k :: 0 <= k < |ValuesFor(SoilByDay(soil, ts), d)| ==>
              exists i :: 0 <= i < |soil| && ts[i].date == d
                          && ValuesFor(SoilByDay(soil, ts), d)[k] == CoerceNumeric(soil[i].moisture)
    ensures forall i :: 0 <= i < |soil| && ts[i].date == d ==> CoerceNumeric(soil[i].moisture) in ValuesFor(SoilByDay(soil, ts), d)
  {
    var keyed := SoilByDay(soil, ts);
    var vs := ValuesFor(keyed, d);
    ValuesForMembers(keyed, d);
    forall k | 0 <= k < |vs|
      ensures exists i :: 0 <= i < |soil| && ts[i].date == d && vs[k] == CoerceNumeric(soil[i].moisture)
    {
      assert (d, vs[k]) in keyed;
      var i :| 0 <= i < |keyed| && keyed[i] == (d, vs[k]);
      assert keyed[i] == (ts[i].date, CoerceNumeric(soil[i].moisture));
      assert ts[i].date == d && vs[k] == CoerceNumeric(soil[i].moisture);
    }
    forall i | 0 <= i < |soil| && ts[i].date == d
      ensures CoerceNumeric(soil[i].moisture) in vs
    {
      assert keyed[i].0 == d && keyed[i].1 == CoerceNumeric(soil[i].moisture);
    }
  }

  /** The daily moisture table has an entry for a day exactly when a soil reading was taken
      on it, holding the mean of that day's values; `SoilDayValues` says those are exactly
      the day's coerced moistures, so a decimal comma among them is missing and skipped. */
  lemma DailySoilExact(soil: seq<SoilRaw>, ts: seq<Timestamp>, d: Date, v: Option<real>)
    requires |ts| == |soil|
    ensures (d, v) in DailyMeans(SoilByDay(soil, ts))
        <==> (exists i :: 0 <= i < |soil| && ts[i].date == d)
             && v == MeanPresent(ValuesFor(SoilByDay(soil, ts), d))
  {
    var keyed := SoilByDay(soil, ts);
    DailyMeansExact(keyed, d, v);
    if exists j :: 0 <= j < |keyed| && keyed[j].0 == d {
      var j :| 0 <= j < |keyed| && keyed[j].0 == d;
      assert ts[j].date == d;
    }
    if exists i :: 0 <= i < |soil| && ts[i].date == d {
      var i :| 0 <= i < |soil| && ts[i].date == d;
      assert keyed[i].0 == d;
    }
  }

  // ----- Lines 68-71: `pd.cut` of PAI at [0, q25, q75, max] -----

  datatype CutError =
    | BinsNotIncreasing  // "bins must increase monotonically"
    | BinEdgesNotUnique  // "Bin edges must be unique"

  predicate AllPresent(xs: seq<Option<real>>) {
    forall i :: 0 <= i < |xs| ==> xs[i].Some?
  }

  predicate StrictlyIncreasing(e: seq<real>) {
    forall i, j :: 0 <= i < j < |e| ==> e[i] < e[j]
  }

  predicate NonDecreasing(e: seq<real>) {
    forall i, j :: 0 <= i < j < |e| ==> e[i] <= e[j]
  }

  /** Some adjacent pair of edges is missing or descends: pandas' monotonicity test of the
      edge index fails (an index holding NaN is not monotonic). */
  predicate Descends(bins: seq<Option<real>>) {
    || (exists i :: 0 <= i < |bins| && bins[i].None?)
    || (exists i :: 0 < i < |bins| && bins[i - 1].Some? && bins[i].Some? && bins[i].value < bins[i - 1].value)
  }

  /** Some adjacent pair of edges is equal. */
  predicate Repeats(bins: seq<Option<real>>) {
    exists i :: 0 < i < |bins| && bins[i - 1] == bins[i]
  }

  function EdgeValues(bins: seq<Option<real>>): (e: seq<real>)
    requires AllPresent(bins)
    ensures |e| == |bins| && forall i :: 0 <= i < |bins| ==> bins[i] == Some(e[i])
  {
    seq(|bins|, i requires 0 <= i < |bins| => bins[i].value)
  }

  /** Edges whose adjacent pairs ascend ascend throughout. */
  lemma {:induction false} AdjacentAscending(e: seq<real>, strict: bool)
    requires forall i :: 0 < i < |e| ==> (if strict then e[i - 1] < e[i] else e[i - 1] <= e[i])
    ensures strict ==> StrictlyIncreasing(e)
    ensures NonDecreasing(e)
  {
    if |e| > 1 {
      AdjacentAscending(Init(e), strict);
      forall i | 0 <= i < |e| - 1
        ensures (if strict then e[i] < Last(e) else e[i] <= Last(e))
      {
        assert Init(e)[i] == e[i];
        if i < |e| - 2 {
          assert Init(e)[i] <= Init(e)[|e| - 2];
          assert strict ==> Init(e)[i] < Init(e)[|e| - 2];
        }
      }
    }
  }

  /** The edge checks of `pd.cut` with explicit bins: the monotonicity test first, then the
      uniqueness test, which pandas skips for exactly two edges. */
  function CheckBins(bins: seq<Option<real>>): (r: Result<seq<real>, CutError>)
    ensures r == Err(BinsNotIncreasing) <==> Descends(bins)
    ensures r == Err(BinEdgesNotUnique) <==> !Descends(bins) && |bins| != 2 && Repeats(bins)
    ensures r.Ok? ==> |r.value| == |bins| && forall i :: 0 <= i < |bins| ==> bins[i] == Some(r.value[i])
    ensures r.Ok? ==> NonDecreasing(r.value) && (|bins| != 2 ==> StrictlyIncreasing(r.value))
  {
    if Descends(bins) then Err(BinsNotIncreasing)
    else if |bins| != 2 && Repeats(bins) then Err(BinEdgesNotUnique)
    else
      var e := EdgeValues(bins);
      AdjacentAscending(e, |bins| != 2);
      Ok(e)
  }

  /** `searchsorted(edges, x, side='left')`: how many edges lie strictly below `x`. */
  function CountBelow(e: seq<real>, x: real): (n: nat)
    ensures n <= |e|
  {
    if |e| == 0 then 0
    else
      assert forall i :: 0 <= i < |e| - 1 ==> Init(e)[i] == e[i];
      CountBelow(Init(e), x) + (if Last(e) < x then 1 else 0)
  }

  /** On ascending edges the edges below `x` are a prefix: exactly those before position
      `CountBelow(e, x)`. */
  lemma {:induction false} CountBelowSplits(e: seq<real>, x: real)
    requires NonDecreasing(e)
    ensures forall i :: 0 <= i < CountBelow(e, x) ==> e[i] < x
    ensures forall i :: CountBelow(e, x) <= i < |e| ==> x <= e[i]
  {
    if |e| > 0 {
      CountBelowSplits(Init(e), x);
      assert forall i :: 0 <= i < |e| - 1 ==> Init(e)[i] == e[i];
      if Last(e) < x {
        assert CountBelow(Init(e), x) == |e| - 1;
      }
    }
  }

  /** The bin of `x` under right-closed intervals: bin `k` is (e[k], e[k+1]]; a missing
      value, a value at or below the first edge and a value above the last get none. */
  function CutIndex(e: seq<real>, x: Option<real>): (k: Option<nat>)
    ensures k.Some? ==> x.Some? && k.value + 1 < |e|
  {
    if x.None? then None
    else
      var n := CountBelow(e, x.value);
      if n == 0 || n == |e| then None else Some(n - 1)
  }

  /** Right-closed binning: `x` lands in bin `k` exactly when e[k] < x <= e[k+1]. */
  lemma CutIndexRightClosed(e: seq<real>, x: real, k: nat)
    requires StrictlyIncreasing(e)
    ensures CutIndex(e, Some(x)) == Some(k) <==> k + 1 < |e| && e[k] < x <= e[k + 1]
  {
    CountBelowSplits(e, x);
    var n := CountBelow(e, x);
  }

  datatype PaiBin = Low | Medium | High

  /** `labels=['Low', 'Medium', 'High']` applied to a bin number. */
  function Label(k: Option<nat>): (b: Option<PaiBin>)
    requires k.Some? ==> k.value < 3
    ensures b.None? <==> k.None?
    ensures b == Some(Low) <==> k == Some(0)
    ensures b == Some(High) <==> k == Some(2)
  {
    match k
    case None => None
    case Some(n) => Some(if n == 0 then Low else if n == 1 then Medium else High)
  }

  /** `[0, quantile(0.25), quantile(0.75), max()]` of the PAI column. */
  function PaiEdges(pai: seq<Option<real>>): (bins: seq<Option<real>>)
    ensures |bins| == 4 && bins[0] == Some(0.0)
    ensures bins[1].None? <==> forall i :: 0 <= i < |pai| ==> pai[i].None?
    ensures bins[1].Some? ==> bins[2].Some? && bins[3].Some? && bins[1].value <= bins[2].value <= bins[3].value
  {
    QuantilePresentMonotone(pai, 0.25, 0.75);
    QuantilePresentAtMostMax(pai, 0.75);
    [Some(0.0), QuantilePresent(pai, 0.25), QuantilePresent(pai, 0.75), MaxPresent(pai)]
  }

  /** `pd.cut(pai, bins=[0, q25, q75, max], labels=['Low', 'Medium', 'High'])`. */
  function PaiCut(pai: seq<Option<real>>): (r: Result<seq<Option<PaiBin>>, CutError>)
    ensures r.Ok? ==> |r.value| == |pai|
  {
    var e :- CheckBins(PaiEdges(pai));
    Ok(seq(|pai|, i requires 0 <= i < |pai| => Label(CutIndex(e, pai[i]))))
  }
  /** The checks on edges [0, a, b, c] with a <= b <= c. */
  lemma CheckFourEdges(a: real, b: real, c: real)
    requires a <= b <= c
    ensures var r := CheckBins([Some(0.0), Some(a), Some(b), Some(c)]);
            && (r == Err(BinsNotIncreasing) <==> a < 0.0)
            && (r == Err(BinEdgesNotUnique) <==> 0.0 <= a && (a == 0.0 || a == b || b == c))
            && (r.Ok? ==> r.value == [0.0, a, b, c])
  {
    var bins := [Some(0.0), Some(a), Some(b), Some(c)];
    if a < 0.0 {
      assert bins[0].value > bins[1].value;
    } else {
      assert !Descends(bins) by {
        assert forall i :: 0 <= i < 4 ==> bins[i].Some?;
        assert forall i :: 0 < i < 4 ==> bins[i - 1].value <= bins[i].value;
      }
      assert Repeats(bins) <==> bins[0] == bins[1] || bins[1] == bins[2] || bins[2] == bins[3] by {
        if Repeats(bins) {
          var i :| 0 < i < 4 && bins[i - 1] == bins[i];
          assert i == 1 || i == 2 || i == 3;
        }
      }
    }
  }

  /** The outcome of the cut in terms of the present PAI values' quartiles and maximum: no
      present value, or a negative lower quartile, fails the monotonicity test; otherwise a
      lower quartile of 0 or two equal edges fail the uniqueness test; otherwise the cut
      succeeds, with edges 0 < q25 < q75 < max. */
  lemma PaiCutOutcome(pai: seq<Option<real>>)
    ensures var q25, q75, top := QuantilePresent(pai, 0.25), QuantilePresent(pai, 0.75), MaxPresent(pai);
            && (PaiCut(pai) == Err(BinsNotIncreasing) <==> q25.None? || q25.value < 0.0)
            && (PaiCut(pai) == Err(BinEdgesNotUnique)
                <==> q25.Some? && 0.0 <= q25.value && (q25.value == 0.0 || q25 == q75 || q75 == top))
            && (PaiCut(pai).Ok? <==> q25.Some? && q75.Some? && top.Some? && 0.0 < q25.value < q75.value < top.value)
            && (PaiCut(pai).Ok? ==> CheckBins(PaiEdges(pai)) == Ok([0.0, q25.value, q75.value, top.value]))
  {
    var bins := PaiEdges(pai);
    var q25, q75, top := bins[1], bins[2], bins[3];
    if q25.None? {
      assert Descends(bins) by {
        assert bins[1].None?;
      }
    } else {
      QuantilePresentMonotone(pai, 0.25, 0.75);
      QuantilePresentAtMostMax(pai, 0.75);
      assert bins == [Some(0.0), Some(q25.value), Some(q75.value), Some(top.value)];
      CheckFourEdges(q25.value, q75.value, top.value);
    }
  }

  /** Labels on four strictly increasing edges: (e0, e1] Low, (e1, e2] Medium, (e2, e3]
      High, anything else none. */
  lemma LabelRightClosed(e: seq<real>, x: Option<real>)
    requires |e| == 4 && StrictlyIncreasing(e)
    ensures var b := Label(CutIndex(e, x));
            && (b == Some(Low) <==> x.Some? && e[0] < x.value <= e[1])
            && (b == Some(Medium) <==> x.Some? && e[1] < x.value <= e[2])
            && (b == Some(High) <==> x.Some? && e[2] < x.value <= e[3])
            && (b.None? <==> x.None? || x.value <= e[0] || e[3] < x.value)
  {
    if x.Some? {
      CutIndexRightClosed(e, x.value, 0);
      CutIndexRightClosed(e, x.value, 1);
      CutIndexRightClosed(e, x.value, 2);
    }
  }

  /** On success the labels are right-closed: (0, q25] is Low, (q25, q75] Medium,
      (q75, max] High; a missing PAI and a PAI at or below 0 get no label. */
  lemma PaiCutRightClosed(pai: seq<Option<real>>, i: nat)
    requires PaiCut(pai).Ok? && i < |pai|
    ensures var q25, q75, top := QuantilePresent(pai, 0.25), QuantilePresent(pai, 0.75), MaxPresent(pai);
            var b, x := PaiCut(pai).value[i], pai[i];
            && q25.Some? && q75.Some? && top.Some?
            && (b == Some(Low) <==> x.Some? && 0.0 < x.value <= q25.value)
            && (b == Some(Medium) <==> x.Some? && q25.value < x.value <= q75.value)
            && (b == Some(High) <==> x.Some? && q75.value < x.value <= top.value)
            && (b.None? <==> x.None? || x.value <= 0.0)
  {
    PaiCutOutcome(pai);
    var e := CheckBins(PaiEdges(pai)).value;
    assert PaiCut(pai).value[i] == Label(CutIndex(e, pai[i]));
    LabelRightClosed(e, pai[i]);
    if pai[i].Some? {
      assert pai[i] in pai;
    }
  }

  /** A cut point goes to the lower bin, and the largest PAI is labelled High. */
  lemma PaiCutEdgeValues(pai: seq<Option<real>>, i: nat)
    requires PaiCut(pai).Ok? && i < |pai| && pai[i].Some?
    ensures pai[i] == QuantilePresent(pai, 0.25) ==> PaiCut(pai).value[i] == Some(Low)
    ensures pai[i] == QuantilePresent(pai, 0.75) ==> PaiCut(pai).value[i] == Some(Medium)
    ensures pai[i] == MaxPresent(pai) ==> PaiCut(pai).value[i] == Some(High)
  {
    PaiCutOutcome(pai);
    PaiCutRightClosed(pai, i);
  }

  /** A column whose present PAI values are all the same positive number cannot be cut: its
      quartiles coincide, so the edges repeat. */
  lemma ConstantPaiRaises(pai: seq<Option<real>>, c: real, j: nat)
    requires j < |pai| && pai[j] == Some(c) && c > 0.0
    requires forall i :: 0 <= i < |pai| && pai[i].Some? ==> pai[i].value == c
    ensures PaiCut(pai) == Err(BinEdgesNotUnique)
  {
    QuantilePresentWithin(pai, 0.25, c, c);
    QuantilePresentWithin(pai, 0.75, c, c);
    PaiCutOutcome(pai);
  }
  // ----- Lines 86-102: the PAI / soil-moisture risk rule -----

  datatype Risk = LowRisk | ModerateRisk | HighRisk

  /** Low < Moderate < High. */
  function Severity(r: Risk): nat {
    match r
    case LowRisk => 0
    case ModerateRisk => 1
    case HighRisk => 2
  }

  /** The comparisons of the rule; a comparison with a missing operand is false. */
  predicate AtLeast(a: Option<real>, b: Option<real>) {
    a.Some? && b.Some? && a.value >= b.value
  }

  predicate Below(a: Option<real>, b: Option<real>) {
    a.Some? && b.Some? && a.value < b.value
  }

  predicate AtMost(a: Option<real>, t: real) {
    a.Some? && a.value <= t
  }

  predicate Above(a: Option<real>, t: real) {
    a.Some? && a.value > t
  }

  /** `determine_fire_risk(pai, soil_moisture, pai_threshold, moisture_threshold)`. */
  function DetermineFireRisk(pai: Option<real>, moisture: Option<real>, paiThreshold: Option<real>, moistureThreshold: real): (r: Risk)
    ensures r == HighRisk <==> AtLeast(pai, paiThreshold) && AtMost(moisture, moistureThreshold)
    ensures r == LowRisk <==> Below(pai, paiThreshold) && Above(moisture, moistureThreshold)
  {
    if AtLeast(pai, paiThreshold) && AtMost(moisture, moistureThreshold) then HighRisk
    else if Below(pai, paiThreshold) && Above(moisture, moistureThreshold) then LowRisk
    else ModerateRisk
  }

  /** With every operand present the rule splits the plane into quadrants: High exactly
      for dense canopy on dry soil, Low exactly for sparse canopy on wet soil, Moderate in
      the two mixed quadrants. */
  lemma RiskQuadrants(pai: real, moisture: real, paiThreshold: real, moistureThreshold: real)
    ensures var r := DetermineFireRisk(Some(pai), Some(moisture), Some(paiThreshold), moistureThreshold);
            && (r == HighRisk <==> pai >= paiThreshold && moisture <= moistureThreshold)
            && (r == LowRisk <==> pai < paiThreshold && moisture > moistureThreshold)
            && (r == ModerateRisk <==> (pai >= paiThreshold) == (moisture > moistureThreshold))
  {
  }

  /** A missing PAI, moisture or threshold makes both tests false: Moderate. */
  lemma MissingOperandIsModerate(pai: Option<real>, moisture: Option<real>, paiThreshold: Option<real>, moistureThreshold: real)
    requires pai.None? || moisture.None? || paiThreshold.None?
    ensures DetermineFireRisk(pai, moisture, paiThreshold, moistureThreshold) == ModerateRisk
  {
  }

  /** More canopy or drier soil never lowers the risk. */
  lemma RiskMonotone(pai1: real, pai2: real, m1: real, m2: real, paiThreshold: real, moistureThreshold: real)
    requires pai1 <= pai2 && m2 <= m1
    ensures Severity(DetermineFireRisk(Some(pai1), Some(m1), Some(paiThreshold), moistureThreshold))
         <= Severity(DetermineFireRisk(Some(pai2), Some(m2), Some(paiThreshold), moistureThreshold))
  {
  }

  /** Line 87: the placeholder dry-soil threshold. */
  const MoistureThreshold: real := 5.0

  /** Lines 99-102: every PAI row classified against the 0.75 quantile of PAI and the one
      dataset-wide mean soil moisture. */
  function AssessFireRisk(pai: seq<Option<real>>, moisture: seq<Option<real>>): (r: seq<Risk>)
    ensures |r| == |pai|
  {
    var m := MeanPresent(moisture);
    var t := QuantilePresent(pai, 0.75);
    seq(|pai|, i requires 0 <= i < |pai| => DetermineFireRisk(pai[i], m, t, MoistureThreshold))
  }

  /** Wet on average (mean above 5.0): no row is High, and a row is Low exactly when its PAI
      is below the 0.75 quantile. */
  lemma WetSoilNeverHigh(pai: seq<Option<real>>, moisture: seq<Option<real>>, i: nat)
    requires i < |pai| && MeanPresent(moisture).Some? && MeanPresent(moisture).value > MoistureThreshold
    ensures AssessFireRisk(pai, moisture)[i] != HighRisk
    ensures AssessFireRisk(pai, moisture)[i] == LowRisk <==> Below(pai[i], QuantilePresent(pai, 0.75))
  {
  }

  /** Dry on average (mean at most 5.0): no row is Low, and a row is High exactly when its
      PAI reaches the 0.75 quantile. */
  lemma DrySoilNeverLow(pai: seq<Option<real>>, moisture: seq<Option<real>>, i: nat)
    requires i < |pai| && MeanPresent(moisture).Some? && MeanPresent(moisture).value <= MoistureThreshold
    ensures AssessFireRisk(pai, moisture)[i] != LowRisk
    ensures AssessFireRisk(pai, moisture)[i] == HighRisk <==> AtLeast(pai[i], QuantilePresent(pai, 0.75))
  {
  }

  /** With no numeric moisture at all the mean is missing and every row is Moderate. */
  lemma NoMoistureAllModerate(pai: seq<Option<real>>, moisture: seq<Option<real>>, i: nat)
    requires i < |pai| && forall j :: 0 <= j < |moisture| ==> moisture[j].None?
    ensures AssessFireRisk(pai, moisture)[i] == ModerateRisk
  {
  }

  /** At most two of the three labels occur in one assessment. */
  lemma AtMostTwoLabels(pai: seq<Option<real>>, moisture: seq<Option<real>>)
    ensures var r := AssessFireRisk(pai, moisture);
            !((exists i :: 0 <= i < |r| && r[i] == HighRisk) && (exists j :: 0 <= j < |r| && r[j] == LowRisk))
  {
    var r := AssessFireRisk(pai, moisture);
    var m := MeanPresent(moisture);
    if m.Some? && m.value > MoistureThreshold {
      forall i | 0 <= i < |r|
        ensures r[i] != HighRisk
      {
        WetSoilNeverHigh(pai, moisture, i);
      }
    } else if m.Some? {
      forall j | 0 <= j < |r|
        ensures r[j] != LowRisk
      {
        DrySoilNeverLow(pai, moisture, j);
      }
    }
  }
  // ----- The script as a whole -----

  datatype ScriptError =
    | TimestampError(parse: ParseError)
    | CutFailed(cut: CutError)

  datatype FireReport = FireReport(
    paiDaily: seq<(Date, Option<real>)>,
    soilDaily: seq<(Date, Option<real>)>,
    bins: seq<Option<PaiBin>>,
    risks: seq<Risk>)

  function PaiColumn(rows: seq<PaiRaw>): (col: seq<Option<real>>)
    ensures |col| == |rows| && forall i :: 0 <= i < |rows| ==> col[i] == rows[i].pai
  {
    seq(|rows|, i requires 0 <= i < |rows| => rows[i].pai)
  }

  /** Line 23 over the whole column. */
  function MoistureColumn(soil: seq<SoilRaw>): (col: seq<Option<real>>)
    ensures |col| == |soil| && forall i :: 0 <= i < |soil| ==> col[i] == CoerceNumeric(soil[i].moisture)
    ensures forall i :: 0 <= i < |soil| && soil[i].moisture.Some? && ',' in soil[i].moisture.value ==> col[i].None?
    ensures forall i :: 0 <= i < |soil| && soil[i].moisture.None? ==> col[i].None?
  {
    seq(|soil|, i requires 0 <= i < |soil| => CoerceNumeric(soil[i].moisture))
  }

  /** fire_risk.py from the two tables to its figures' data: the PAI timestamps (line 10)
      and the soil timestamps (line 20) are parsed first, then the daily means are taken,
      then the ERROR-masked PAI column is cut (lines 64-71) and classified (lines 86-102). */
  function FireRiskScript(pai: seq<PaiRaw>, soil: seq<SoilRaw>): (r: Result<FireReport, ScriptError>)
    ensures r.Ok? ==> |r.value.bins| == |r.value.risks| == |DropErrors(pai)|
  {
    match ParseAll(pai, PaiDate, PaiTime)
    case Err(e) => Err(TimestampError(e))
    case Ok(paiTs) =>
      match ParseAll(soil, SoilDate, SoilTime)
      case Err(e) => Err(TimestampError(e))
      case Ok(soilTs) =>
        var values := PaiColumn(DropErrors(pai));
        match PaiCut(values)
        case Err(e) => Err(CutFailed(e))
        case Ok(bins) =>
          Ok(FireReport(DailyPai(pai, paiTs), DailyMeans(SoilByDay(soil, soilTs)), bins,
                        AssessFireRisk(values, MoistureColumn(soil))))
  }

  /** The order in which the script can fail: any PAI row, ERROR-flagged or not, whose date
      and time do not match the format stops it before anything else; then any soil row;
      only then can the cut fail. It completes exactly when all rows parse and the cut
      succeeds. */
  lemma ScriptOutcome(pai: seq<PaiRaw>, soil: seq<SoilRaw>)
    ensures var r := FireRiskScript(pai, soil);
            && ((exists i :: 0 <= i < |pai| && ParseDateTime(pai[i].measDate, pai[i].measTime).Err?)
                ==> r.Err? && r.error.TimestampError?
                    && exists i :: 0 <= i < |pai| && ParseDateTime(pai[i].measDate, pai[i].measTime) == Err(r.error.parse))
            && (r.Err? && r.error.CutFailed? ==> r.error.cut == PaiCut(PaiColumn(DropErrors(pai))).error)
            && (r.Ok? <==> ParseAll(pai, PaiDate, PaiTime).Ok? && ParseAll(soil, SoilDate, SoilTime).Ok?
                           && PaiCut(PaiColumn(DropErrors(pai))).Ok?)
  {
  }

  /** The bin and the risk label of one PAI value agree where they can: a Low value is
      never High risk, a Medium value is High risk only at the 0.75 quantile itself, and a
      High value is High risk whenever the mean moisture is at most 5.0. */
  lemma CutAndRiskAgree(values: seq<Option<real>>, moisture: seq<Option<real>>, k: nat)
    requires PaiCut(values).Ok? && k < |values|
    ensures var b, risk := PaiCut(values).value[k], AssessFireRisk(values, moisture)[k];
            && (b == Some(Low) ==> risk != HighRisk)
            && (b == Some(Medium) && risk == HighRisk ==> values[k] == QuantilePresent(values, 0.75))
            && (b == Some(High) && AtMost(MeanPresent(moisture), MoistureThreshold) ==> risk == HighRisk)
  {
    PaiCutRightClosed(values, k);
    var b := PaiCut(values).value[k];
    var q25, q75 := QuantilePresent(values, 0.25).value, QuantilePresent(values, 0.75).value;
    assert q25 < q75 by {
      PaiCutOutcome(values);
    }
    var risk := DetermineFireRisk(values[k], MeanPresent(moisture), QuantilePresent(values, 0.75), MoistureThreshold);
    assert AssessFireRisk(values, moisture)[k] == risk;
    if b == Some(Low) || b == Some(Medium) {
      assert values[k].value <= q75;
    }
  }

  /** The same agreement between the script's two outputs for each ERROR-masked row. */
  lemma BinsAndRisksAgree(pai: seq<PaiRaw>, soil: seq<SoilRaw>, k: nat)
    requires FireRiskScript(pai, soil).Ok? && k < |DropErrors(pai)|
    ensures var rep, values := FireRiskScript(pai, soil).value, PaiColumn(DropErrors(pai));
            && (rep.bins[k] == Some(Low) ==> rep.risks[k] != HighRisk)
            && (rep.bins[k] == Some(Medium) && rep.risks[k] == HighRisk ==> values[k] == QuantilePresent(values, 0.75))
            && (rep.bins[k] == Some(High) && AtMost(MeanPresent(MoistureColumn(soil)), MoistureThreshold)
                ==> rep.risks[k] == HighRisk)
  {
    var values := PaiColumn(DropErrors(pai));
    CutAndRiskAgree(values, MoistureColumn(soil), k);
  }
}

=== FILE: grouping.dfy ===
/** `df.groupby(key)[column].mean()`: one row per distinct key that occurs, holding the
    NaN-skipping mean of exactly the rows with that key. A reference definition and a
    one-pass accumulation proved equal to it. */
module Grouping {
  import opened Wrappers
  import opened Seqs
  import opened Stats

  function KeysOf<K>(rows: seq<(K, Option<real>)>): (ks: seq<K>)
    ensures |ks| == |rows|
    ensures forall i :: 0 <= i < |rows| ==> ks[i] == rows[i].0
  {
    seq(|rows|, i requires 0 <= i < |rows| => rows[i].0)
  }

  /** The values of the rows whose key is `k`, in row order. */
  function ValuesFor<K(==)>(rows: seq<(K, Option<real>)>, k: K): (vs: seq<Option<real>>)
    ensures |vs| <= |rows|
  {
    if |rows| == 0 then []
    else ValuesFor(Init(rows), k) + (if Last(rows).0 == k then [Last(rows).1] else [])
  }

  /** A group's values are exactly the values of the rows carrying its key. */
  lemma {:induction false} ValuesForMembers<K>(rows: seq<(K, Option<real>)>, k: K)
    ensures forall i :: 0 <= i < |ValuesFor(rows, k)| ==> (k, ValuesFor(rows, k)[i]) in rows
    ensures forall j :: 0 <= j < |rows| && rows[j].0 == k ==> rows[j].1 in ValuesFor(rows, k)
  {
    if |rows| > 0 {
      ValuesForMembers(Init(rows), k);
      assert rows == Init(rows) + [Last(rows)];
    }
  }

  /** The grouped means: groups listed in order of first appearance. */
  function GroupMean<K(==)>(rows: seq<(K, Option<real>)>): (r: seq<(K, Option<real>)>)
    ensures NoDuplicates(KeysOf(r))
    ensures forall i :: 0 <= i < |r| ==> r[i].0 in KeysOf(rows)
    ensures forall j :: 0 <= j < |rows| ==> rows[j].0 in KeysOf(r)
    ensures forall i :: 0 <= i < |r| ==> r[i].1 == MeanPresent(ValuesFor(rows, r[i].0))
  {
    var ks := Distinct(KeysOf(rows));
    var r := seq(|ks|, i requires 0 <= i < |ks| => (ks[i], MeanPresent(ValuesFor(rows, ks[i]))));
    assert KeysOf(r) == ks;
    r
  }

  /** A group's mean lies within any bounds of the values in the input. */
  lemma GroupMeanBetween<K>(rows: seq<(K, Option<real>)>, lo: real, hi: real)
    requires forall j :: 0 <= j < |rows| && rows[j].1.Some? ==> lo <= rows[j].1.value <= hi
    ensures forall i :: 0 <= i < |GroupMean(rows)| && GroupMean(rows)[i].1.Some? ==>
              lo <= GroupMean(rows)[i].1.value <= hi
  {
    var g := GroupMean(rows);
    forall i | 0 <= i < |g| && g[i].1.Some?
      ensures lo <= g[i].1.value <= hi
    {
      var vs := ValuesFor(rows, g[i].0);
      ValuesForMembers(rows, g[i].0);
      forall t | 0 <= t < |vs| && vs[t].Some?
        ensures lo <= vs[t].value <= hi
      {
        assert (g[i].0, vs[t]) in rows;
      }
      MeanPresentBetween(vs, lo, hi);
    }
  }

  /** A group whose rows are all present has a present mean. */
  lemma GroupMeanPresent<K>(rows: seq<(K, Option<real>)>)
    requires forall j :: 0 <= j < |rows| ==> rows[j].1.Some?
    ensures forall i :: 0 <= i < |GroupMean(rows)| ==> GroupMean(rows)[i].1.Some?
  {
    var g := GroupMean(rows);
    forall i | 0 <= i < |g|
      ensures g[i].1.Some?
    {
      var j :| 0 <= j < |rows| && KeysOf(rows)[j] == g[i].0;
      ValuesForMembers(rows, g[i].0);
      assert rows[j].1 in ValuesFor(rows, g[i].0);
    }
  }

  /** `k` inserted at its place in the strictly ascending `s`, unless `s` already holds it. */
  function InsertKey<K(==,!new)>(k: K, s: seq<K>, le: (K, K) -> bool): (r: seq<K>)
    requires TotalOrder(le)
    requires forall i, j :: 0 <= i < j < |s| ==> le(s[i], s[j]) && s[i] != s[j]
    ensures forall i, j :: 0 <= i < j < |r| ==> le(r[i], r[j]) && r[i] != r[j]
    ensures forall x :: x in r <==> x in s || x == k
  {
    if |s| == 0 then [k]
    else if s[0] == k then s
    else if le(k, s[0]) then [k] + s
    else
      var t := InsertKey(k, s[1..], le);
      assert forall x :: x in s <==> x == s[0] || x in s[1..];
      assert forall j :: 0 <= j < |t| ==> le(s[0], t[j]) && s[0] != t[j] by {
        forall j | 0 <= j < |t|
          ensures le(s[0], t[j]) && s[0] != t[j]
        {
          assert t[j] in t;
          if t[j] != k {
            var m :| 1 <= m < |s| && s[m] == t[j];
          }
        }
      }
      [s[0]] + t
  }

  /** The distinct keys in ascending order: the group labels of `groupby(..., sort=True)`. */
  function SortedKeys<K(==,!new)>(ks: seq<K>, le: (K, K) -> bool): (r: seq<K>)
    requires TotalOrder(le)
    ensures forall i, j :: 0 <= i < j < |r| ==> le(r[i], r[j]) && r[i] != r[j]
    ensures forall x :: x in r <==> x in ks
  {
    if |ks| == 0 then []
    else
      assert ks == Init(ks) + [Last(ks)];
      InsertKey(Last(ks), SortedKeys(Init(ks), le), le)
  }

  /** `groupby(key)[value].mean()` as pandas returns it: one entry per key in ascending key
      order, holding the mean of that key's present values. */
  function SortedGroupMean<K(==,!new)>(rows: seq<(K, Option<real>)>, le: (K, K) -> bool): (r: seq<(K, Option<real>)>)
    requires TotalOrder(le)
    ensures forall i, j :: 0 <= i < j < |r| ==> le(r[i].0, r[j].0) && r[i].0 != r[j].0
    ensures forall i :: 0 <= i < |r| ==> r[i].0 in KeysOf(rows)
    ensures forall j :: 0 <= j < |rows| ==> rows[j].0 in KeysOf(r)
    ensures forall i :: 0 <= i < |r| ==> r[i].1 == MeanPresent(ValuesFor(rows, r[i].0))
  {
    var ks := SortedKeys(KeysOf(rows), le);
    var r := MeansFor(rows, ks);
    assert forall j :: 0 <= j < |rows| ==> rows[j].0 in KeysOf(r) by {
      forall j | 0 <= j < |rows|
        ensures rows[j].0 in KeysOf(r)
      {
        assert KeysOf(rows)[j] in KeysOf(rows);
      }
    }
    assert forall i :: 0 <= i < |r| ==> r[i].0 in KeysOf(rows) by {
      forall i | 0 <= i < |r|
        ensures r[i].0 in KeysOf(rows)
      {
        assert ks[i] in ks;
      }
    }
    r
  }

  /** One entry per key of `ks`, in that order, holding the key's mean. */
  function MeansFor<K(==)>(rows: seq<(K, Option<real>)>, ks: seq<K>): (r: seq<(K, Option<real>)>)
    ensures KeysOf(r) == ks
    ensures forall i :: 0 <= i < |r| ==> r[i].1 == MeanPresent(ValuesFor(rows, r[i].0))
  {
    seq(|ks|, i requires 0 <= i < |ks| => (ks[i], MeanPresent(ValuesFor(rows, ks[i]))))
  }

  /** `r` lists the key groups of `rows`: every key of either occurs in the other, and each
      entry holds its key's mean. */
  ghost predicate ListsGroups<K>(rows: seq<(K, Option<real>)>, r: seq<(K, Option<real>)>) {
    && (forall i :: 0 <= i < |r| ==> r[i].0 in KeysOf(rows))
    && (forall j :: 0 <= j < |rows| ==> rows[j].0 in KeysOf(r))
    && (forall i :: 0 <= i < |r| ==> r[i].1 == MeanPresent(ValuesFor(rows, r[i].0)))
  }

  lemma ListedEntries<K>(rows: seq<(K, Option<real>)>, r: seq<(K, Option<real>)>, e: (K, Option<real>))
    requires ListsGroups(rows, r)
    ensures e in r <==> e.0 in KeysOf(rows) && e.1 == MeanPresent(ValuesFor(rows, e.0))
  {
    if e.0 in KeysOf(rows) && e.1 == MeanPresent(ValuesFor(rows, e.0)) {
      var j :| 0 <= j < |rows| && KeysOf(rows)[j] == e.0;
      assert rows[j].0 in KeysOf(r);
      var k :| 0 <= k < |r| && KeysOf(r)[k] == e.0;
      assert r[k] == e;
    }
  }

  /** Sorting the groups changes their order only: the same (key, mean) entries as the
      first-appearance grouping. */
  lemma SortedGroupMeanSameEntries<K(!new)>(rows: seq<(K, Option<real>)>, le: (K, K) -> bool, e: (K, Option<real>))
    requires TotalOrder(le)
    ensures e in SortedGroupMean(rows, le) <==> e in GroupMean(rows)
  {
    ListedEntries(rows, SortedGroupMean(rows, le), e);
    ListedEntries(rows, GroupMean(rows), e);
  }

  /** The sorted grouping has an entry for a key exactly when some row carries the key, and
      the entry holds the mean of that key's present values. */
  lemma SortedGroupMeanExact<K(!new)>(rows: seq<(K, Option<real>)>, le: (K, K) -> bool, k: K, v: Option<real>)
    requires TotalOrder(le)
    ensures (k, v) in SortedGroupMean(rows, le)
        <==> (exists j :: 0 <= j < |rows| && rows[j].0 == k) && v == MeanPresent(ValuesFor(rows, k))
  {
    ListedEntries(rows, SortedGroupMean(rows, le), (k, v));
    if exists j :: 0 <= j < |rows| && rows[j].0 == k {
      var j :| 0 <= j < |rows| && rows[j].0 == k;
      assert KeysOf(rows)[j] == k;
    }
  }

  /** Running totals of one group: its key, the sum and the count of its present values. */
  datatype Bucket<K> = Bucket(key: K, sum: real, count: nat)

  function BucketOf<K(==)>(rows: seq<(K, Option<real>)>, k: K): Bucket<K> {
    var p := Present(ValuesFor(rows, k));
    Bucket(k, Sum(p), |p|)
  }

  function Add<K>(b: Bucket<K>, v: Option<real>): Bucket<K> {
    match v
    case None => b
    case Some(x) => Bucket(b.key, b.sum + x, b.count + 1)
  }

  function Finish<K>(b: Bucket<K>): (K, Option<real>) {
    (b.key, if b.count == 0 then None else Some(b.sum / b.count as real))
  }

  lemma StepKeys<K>(rows: seq<(K, Option<real>)>, i: nat)
    requires i < |rows|
    ensures var d := Distinct(KeysOf(rows[..i]));
            Distinct(KeysOf(rows[..i + 1])) == if rows[i].0 in d then d else d + [rows[i].0]
  {
    var ks := KeysOf(rows[..i + 1]);
    assert Init(ks) == KeysOf(rows[..i]);
    assert Last(ks) == rows[i].0;
  }

  lemma StepBucket<K>(rows: seq<(K, Option<real>)>, i: nat, k: K)
    requires i < |rows|
    ensures BucketOf(rows[..i + 1], k)
            == if rows[i].0 == k then Add(BucketOf(rows[..i], k), rows[i].1) else BucketOf(rows[..i], k)
  {
    var pre := rows[..i + 1];
    assert Init(pre) == rows[..i] && Last(pre) == rows[i];
    var vs := ValuesFor(rows[..i], k);
    if rows[i].0 == k {
      assert ValuesFor(pre, k) == vs + [rows[i].1];
      assert Init(vs + [rows[i].1]) == vs;
      match rows[i].1
      case None =>
        assert Present(vs + [rows[i].1]) == Present(vs);
      case Some(x) =>
        var p := Present(vs);
        assert Present(vs + [rows[i].1]) == p + [x];
        assert Init(p + [x]) == p;
    } else {
      assert ValuesFor(pre, k) == vs;
    }
  }

  function FindKey<K(==)>(bs: seq<Bucket<K>>, k: K): (r: int)
    ensures -1 <= r < |bs|
    ensures r >= 0 ==> bs[r].key == k
    ensures r == -1 ==> forall j :: 0 <= j < |bs| ==> bs[j].key != k
  {
    if |bs| == 0 then -1
    else if Last(bs).key == k then |bs| - 1
    else FindKey(Init(bs), k)
  }

  lemma AbsentKeyBucket<K>(rows: seq<(K, Option<real>)>, k: K)
    requires k !in KeysOf(rows)
    ensures BucketOf(rows, k) == Bucket(k, 0.0, 0)
  {
    ValuesForMembers(rows, k);
    if ValuesFor(rows, k) != [] {
      assert (k, ValuesFor(rows, k)[0]) in rows;
    }
  }

  lemma FinishIsMean<K>(rows: seq<(K, Option<real>)>, k: K)
    ensures Finish(BucketOf(rows, k)) == (k, MeanPresent(ValuesFor(rows, k)))
  {
  }

  /** The running totals after reading `prefix`: one bucket per group, in group order. */
  ghost function Totals<K>(prefix: seq<(K, Option<real>)>): seq<Bucket<K>> {
    var d := Distinct(KeysOf(prefix));
    seq(|d|, j requires 0 <= j < |d| => BucketOf(prefix, d[j]))
  }

  lemma TotalsStart<K>(rows: seq<(K, Option<real>)>)
    ensures Totals(rows[..0]) == []
  {
    assert KeysOf(rows[..0]) == [];
  }

  lemma TotalsStepFound<K>(rows: seq<(K, Option<real>)>, i: nat, at: nat)
    requires i < |rows|
    requires at < |Totals(rows[..i])| && Totals(rows[..i])[at].key == rows[i].0
    ensures var bs := Totals(rows[..i]);
            Totals(rows[..i + 1]) == bs[at := Add(bs[at], rows[i].1)]
  {
    var bs := Totals(rows[..i]);
    var d := Distinct(KeysOf(rows[..i]));
    var after := Totals(rows[..i + 1]);
    StepKeys(rows, i);
    assert d[at] == rows[i].0;
    var next := bs[at := Add(bs[at], rows[i].1)];
    assert |next| == |after|;
    forall j | 0 <= j < |next|
      ensures next[j] == after[j]
    {
      StepBucket(rows, i, d[j]);
    }
  }

  lemma TotalsStepNew<K>(rows: seq<(K, Option<real>)>, i: nat)
    requires i < |rows|
    requires forall j :: 0 <= j < |Totals(rows[..i])| ==> Totals(rows[..i])[j].key != rows[i].0
    ensures Totals(rows[..i + 1]) == Totals(rows[..i]) + [Add(Bucket(rows[i].0, 0.0, 0), rows[i].1)]
  {
    var k := rows[i].0;
    var bs := Totals(rows[..i]);
    var d := Distinct(KeysOf(rows[..i]));
    var d' := Distinct(KeysOf(rows[..i + 1]));
    var after := Totals(rows[..i + 1]);
    StepKeys(rows, i);
    assert k !in d by {
      forall j | 0 <= j < |d|
        ensures d[j] != k
      {
        assert bs[j].key == d[j];
      }
    }
    assert d' == d + [k];
    AbsentKeyBucket(rows[..i], k);
    var next := bs + [Add(Bucket(k, 0.0, 0), rows[i].1)];
    assert |next| == |after|;
    forall j | 0 <= j < |next|
      ensures next[j] == after[j]
    {
      StepBucket(rows, i, d'[j]);
    }
  }

  function FinishAll<K>(buckets: seq<Bucket<K>>): (out: seq<(K, Option<real>)>)
    ensures |out| == |buckets|
    ensures forall j :: 0 <= j < |buckets| ==> out[j] == Finish(buckets[j])
  {
    seq(|buckets|, j requires 0 <= j < |buckets| => Finish(buckets[j]))
  }

  lemma TotalsFinish<K>(rows: seq<(K, Option<real>)>)
    ensures FinishAll(Totals(rows)) == GroupMean(rows)
  {
    forall j | 0 <= j < |Totals(rows)|
      ensures FinishAll(Totals(rows))[j] == GroupMean(rows)[j]
    {
      FinishIsMean(rows, Distinct(KeysOf(rows))[j]);
    }
  }

  /** One pass over the rows keeping a running sum and count per key, as a groupby
      implementation does; turned into means, the totals are exactly the grouped means. */
  method GroupMeanOnePass<K(==)>(rows: seq<(K, Option<real>)>) returns (out: seq<(K, Option<real>)>)
    ensures out == GroupMean(rows)
  {
    var buckets: seq<Bucket<K>> := [];
    var i := 0;
    TotalsStart(rows);
    while i < |rows|
      invariant 0 <= i <= |rows|
      invariant buckets == Totals(rows[..i])
    {
      var at := FindKey(buckets, rows[i].0);
      if at >= 0 {
        TotalsStepFound(rows, i, at);
        buckets := buckets[at := Add(buckets[at], rows[i].1)];
      } else {
        TotalsStepNew(rows, i);
        buckets := buckets + [Add(Bucket(rows[i].0, 0.0, 0), rows[i].1)];
      }
      i := i + 1;
    }
    assert rows[..i] == rows;
    TotalsFinish(rows);
    out := FinishAll(buckets);
  }
}

=== FILE: join.dfy ===
/** `a.merge(b, on=key)` with pandas' default `how='inner'`: every pair of a left row and a
    right row with equal keys, left rows in order and, for each, its matches in right order. */
module Join {
  import opened Seqs

  /** `l` paired with every right row carrying the same key, in right order. */
  function Matches<L, R, K(==)>(l: L, right: seq<R>, lk: L -> K, rk: R -> K): seq<(L, R)> {
    if |right| == 0 then []
    else Matches(l, Init(right), lk, rk) + (if rk(Last(right)) == lk(l) then [(l, Last(right))] else [])
  }

  /** The inner join on a key column. */
  function InnerJoin<L, R, K(==)>(left: seq<L>, right: seq<R>, lk: L -> K, rk: R -> K): (j: seq<(L, R)>)
    ensures forall i :: 0 <= i < |j| ==> lk(j[i].0) == rk(j[i].1)
    ensures forall i :: 0 <= i < |j| ==> j[i].0 in left && j[i].1 in right
  {
    if |left| == 0 then []
    else
      assert left == Init(left) + [Last(left)];
      var m := Matches(Last(left), right, lk, rk);
      MatchesMembers(Last(left), right, lk, rk);
      InnerJoin(Init(left), right, lk, rk) + m
  }

  lemma {:induction false} MatchesMembers<L, R, K>(l: L, right: seq<R>, lk: L -> K, rk: R -> K)
    ensures forall i :: 0 <= i < |Matches(l, right, lk, rk)| ==>
              Matches(l, right, lk, rk)[i].0 == l && Matches(l, right, lk, rk)[i].1 in right
              && lk(l) == rk(Matches(l, right, lk, rk)[i].1)
  {
    if |right| > 0 {
      MatchesMembers(l, Init(right), lk, rk);
      assert right == Init(right) + [Last(right)];
    }
  }

  /** How often the pair (a, b) occurs among the matches of `l`. */
  lemma {:induction false} MatchesMultiplicity<L, R, K>(l: L, right: seq<R>, lk: L -> K, rk: R -> K, a: L, b: R)
    ensures multiset(Matches(l, right, lk, rk))[(a, b)]
            == if a == l && lk(a) == rk(b) then multiset(right)[b] else 0
  {
    if |right| > 0 {
      MatchesMultiplicity(l, Init(right), lk, rk, a, b);
      assert right == Init(right) + [Last(right)];
      assert multiset(right) == multiset(Init(right)) + multiset{Last(right)};
    }
  }

  lemma AddOneTimes(m: nat, n: nat)
    ensures (m + 1) * n == m * n + n
  {
  }

  /** The inner join holds every pair of rows with equal keys exactly (multiplicity on the
      left) times (multiplicity on the right) times, and no pair with different keys. */
  lemma {:induction false} JoinMultiplicity<L, R, K>(left: seq<L>, right: seq<R>, lk: L -> K, rk: R -> K, a: L, b: R)
    ensures multiset(InnerJoin(left, right, lk, rk))[(a, b)]
            == if lk(a) == rk(b) then multiset(left)[a] * multiset(right)[b] else 0
  {
    if |left| > 0 {
      var init, last := Init(left), Last(left);
      var front, m := InnerJoin(init, right, lk, rk), Matches(last, right, lk, rk);
      JoinMultiplicity(init, right, lk, rk, a, b);
      MatchesMultiplicity(last, right, lk, rk, a, b);
      JoinStep(left, right, lk, rk);
      assert multiset(front + m)[(a, b)] == multiset(front)[(a, b)] + multiset(m)[(a, b)];
      LeftCount(left, a);
      if a == last && lk(a) == rk(b) {
        AddOneTimes(multiset(init)[a], multiset(right)[b]);
      }
    }
  }

  lemma JoinStep<L, R, K>(left: seq<L>, right: seq<R>, lk: L -> K, rk: R -> K)
    requires |left| > 0
    ensures InnerJoin(left, right, lk, rk) == InnerJoin(Init(left), right, lk, rk) + Matches(Last(left), right, lk, rk)
  {
  }

  lemma LeftCount<L>(left: seq<L>, a: L)
    requires |left| > 0
    ensures multiset(left)[a] == multiset(Init(left))[a] + (if a == Last(left) then 1 else 0)
  {
    assert left == Init(left) + [Last(left)];
    assert multiset(left) == multiset(Init(left)) + multiset{Last(left)};
  }

  /** Any left row and right row with equal keys do meet in the join. */
  lemma JoinKeepsMatches<L, R, K>(left: seq<L>, right: seq<R>, lk: L -> K, rk: R -> K, a: L, b: R)
    requires a in left && b in right && lk(a) == rk(b)
    ensures (a, b) in InnerJoin(left, right, lk, rk)
  {
    JoinMultiplicity(left, right, lk, rk, a, b);
    assert multiset(left)[a] >= 1 && multiset(right)[b] >= 1;
    AtLeastOne(multiset(left)[a], multiset(right)[b]);
  }

  lemma AtLeastOne(m: nat, n: nat)
    requires m >= 1 && n >= 1
    ensures m * n >= 1
  {
  }

  /** A key on one side only never reaches the output; a key on both sides always does. */
  lemma JoinKeys<L, R, K>(left: seq<L>, right: seq<R>, lk: L -> K, rk: R -> K, k: K)
    ensures (exists i :: 0 <= i < |InnerJoin(left, right, lk, rk)| && lk(InnerJoin(left, right, lk, rk)[i].0) == k)
        <==> (exists a, b :: a in left && b in right && lk(a) == k && rk(b) == k)
  {
    var j := InnerJoin(left, right, lk, rk);
    if exists a, b :: a in left && b in right && lk(a) == k && rk(b) == k {
      var a, b :| a in left && b in right && lk(a) == k && rk(b) == k;
      JoinKeepsMatches(left, right, lk, rk, a, b);
      var i :| 0 <= i < |j| && j[i] == (a, b);
      assert lk(j[i].0) == k;
    }
    if exists i :: 0 <= i < |j| && lk(j[i].0) == k {
      var i :| 0 <= i < |j| && lk(j[i].0) == k;
      assert j[i].0 in left && j[i].1 in right && rk(j[i].1) == k;
    }
  }

  function KeyColumn<T, K>(rows: seq<T>, key: T -> K): (ks: seq<K>)
    ensures |ks| == |rows|
    ensures forall i :: 0 <= i < |rows| ==> ks[i] == key(rows[i])
  {
    seq(|rows|, i requires 0 <= i < |rows| => key(rows[i]))
  }

  /** Sum over the keys `ks` of (occurrences in `a`) times (occurrences in `b`). */
  function PairsPerKey<K(==)>(ks: seq<K>, a: seq<K>, b: seq<K>): nat {
    if |ks| == 0 then 0
    else PairsPerKey(Init(ks), a, b) + multiset(a)[Last(ks)] * multiset(b)[Last(ks)]
  }

  lemma {:induction false} MatchesSize<L, R, K>(l: L, right: seq<R>, lk: L -> K, rk: R -> K)
    ensures |Matches(l, right, lk, rk)| == multiset(KeyColumn(right, rk))[lk(l)]
  {
    if |right| > 0 {
      MatchesSize(l, Init(right), lk, rk);
      var ks := KeyColumn(right, rk);
      assert ks == KeyColumn(Init(right), rk) + [rk(Last(right))];
    }
  }

  lemma {:induction false} PairsPerKeyGrow<K>(ks: seq<K>, a: seq<K>, b: seq<K>, k: K)
    requires NoDuplicates(ks)
    ensures PairsPerKey(ks, a + [k], b) == PairsPerKey(ks, a, b) + (if k in ks then multiset(b)[k] else 0)
  {
    if |ks| > 0 {
      var init, last := Init(ks), Last(ks);
      assert ks == init + [last];
      PairsPerKeyGrow(init, a, b, k);
      assert multiset(a + [k]) == multiset(a) + multiset{k};
      if last == k {
        AddOneTimes(multiset(a)[k], multiset(b)[k]);
        assert k !in init;
      }
    }
  }

  lemma PairsPerKeyAbsent<K>(ks: seq<K>, a: seq<K>, b: seq<K>, k: K)
    requires NoDuplicates(ks) && k !in ks && k !in a
    ensures PairsPerKey(ks + [k], a + [k], b) == PairsPerKey(ks, a, b) + multiset(b)[k]
  {
    PairsPerKeyGrow(ks, a, b, k);
    assert Init(ks + [k]) == ks && Last(ks + [k]) == k;
    assert multiset(a + [k])[k] == 1;
  }

  /** The join's size: over the identifiers occurring on the left (a key absent on the right
      adds nothing), the product of the identifier's multiplicities on the two sides. */
  lemma {:induction false} JoinSize<L, R, K>(left: seq<L>, right: seq<R>, lk: L -> K, rk: R -> K)
    ensures var ka := KeyColumn(left, lk);
            |InnerJoin(left, right, lk, rk)| == PairsPerKey(Distinct(ka), ka, KeyColumn(right, rk))
  {
    if |left| > 0 {
      var init, last := Init(left), Last(left);
      var kb := KeyColumn(right, rk);
      var ki := KeyColumn(init, lk);
      var k := lk(last);
      JoinSize(init, right, lk, rk);
      MatchesSize(last, right, lk, rk);
      JoinStep(left, right, lk, rk);
      KeyColumnStep(left, lk);
      var d := Distinct(ki);
      DistinctStep(ki, k);
      if k in d {
        PairsPerKeyGrow(d, ki, kb, k);
      } else {
        assert k !in ki;
        PairsPerKeyAbsent(d, ki, kb, k);
      }
    }
  }

  lemma KeyColumnStep<T, K>(rows: seq<T>, key: T -> K)
    requires |rows| > 0
    ensures KeyColumn(rows, key) == KeyColumn(Init(rows), key) + [key(Last(rows))]
  {
  }

  lemma DistinctStep<K>(ks: seq<K>, k: K)
    ensures Distinct(ks + [k]) == if k in Distinct(ks) then Distinct(ks) else Distinct(ks) + [k]
  {
    assert Init(ks + [k]) == ks && Last(ks + [k]) == k;
  }
}

=== FILE: orders.dfy ===
/** The key orders pandas sorts group labels by (`groupby(..., sort=True)` is the default):
    strings by code point, integers and calendar periods chronologically, tuples lexicographically. */
module Orders {
  import opened Calendar
  import opened Stats
  import opened TimeParse

  /** Python's string comparison: lexicographic by code point, a proper prefix first. */
  function StringLe(a: string, b: string): bool {
    if |a| == 0 then true
    else if |b| == 0 then false
    else if a[0] != b[0] then a[0] < b[0]
    else StringLe(a[1..], b[1..])
  }

  lemma {:induction false} StringLeTotal(a: string, b: string)
    ensures StringLe(a, b) || StringLe(b, a)
  {
    if |a| > 0 && |b| > 0 && a[0] == b[0] {
      StringLeTotal(a[1..], b[1..]);
    }
  }

  lemma {:induction false} StringLeTransitive(a: string, b: string, c: string)
    requires StringLe(a, b) && StringLe(b, c)
    ensures StringLe(a, c)
  {
    if |a| > 0 && |b| > 0 && |c| > 0 && a[0] == b[0] && b[0] == c[0] {
      StringLeTransitive(a[1..], b[1..], c[1..]);
    }
  }

  lemma {:induction false} StringLeAntisymmetric(a: string, b: string)
    requires StringLe(a, b) && StringLe(b, a)
    ensures a == b
  {
    if |a| > 0 && |b| > 0 {
      StringLeAntisymmetric(a[1..], b[1..]);
      assert a == [a[0]] + a[1..] && b == [b[0]] + b[1..];
    }
  }

  lemma StringLeIsTotalOrder()
    ensures TotalOrder(StringLe)
  {
    forall a, b
      ensures StringLe(a, b) || StringLe(b, a)
    {
      StringLeTotal(a, b);
    }
    forall a, b, c | StringLe(a, b) && StringLe(b, c)
      ensures StringLe(a, c)
    {
      StringLeTransitive(a, b, c);
    }
    forall a, b | StringLe(a, b) && StringLe(b, a)
      ensures a == b
    {
      StringLeAntisymmetric(a, b);
    }
  }

  function IntLe(a: int, b: int): bool {
    a <= b
  }

  lemma IntLeIsTotalOrder()
    ensures TotalOrder(IntLe)
  {
  }

  /** Chronological order on days (a daily `Period`). */
  function DateLe(a: Date, b: Date): bool {
    a == b || DateBefore(a, b)
  }

  lemma DateLeIsTotalOrder()
    ensures TotalOrder(DateLe)
  {
  }

  /** Chronological order on calendar months (a monthly `Period`). */
  function YearMonthLe(a: YearMonth, b: YearMonth): bool {
    a.year < b.year || (a.year == b.year && a.month <= b.month)
  }

  /** The order of (plot, month) group labels: by plot name, then by month. */
  function PlotMonthLe(a: (string, YearMonth), b: (string, YearMonth)): bool {
    if a.0 != b.0 then StringLe(a.0, b.0) else YearMonthLe(a.1, b.1)
  }

  lemma PlotMonthLeIsTotalOrder()
    ensures TotalOrder(PlotMonthLe)
  {
    StringLeIsTotalOrder();
  }

  /** A digit string read from the front: the first digit is worth the power of ten of
      the number of digits after it. */
  lemma {:induction false} ParseNatFront(s: string)
    requires AllDigits(s) && |s| > 0
    ensures ParseNat(s) == DigitValue(s[0]) * Pow10(|s| - 1) + ParseNat(s[1..])
  {
    if |s| == 1 {
      assert s[..0] == [] && s[1..] == [];
    } else {
      var init := s[..|s| - 1];
      ParseNatFront(init);
      assert init[0] == s[0];
      assert init[1..] == s[1..][..|s| - 2];
      Regroup(DigitValue(s[0]), Pow10(|s| - 2), ParseNat(init[1..]), DigitValue(s[|s| - 1]));
    }
  }

  lemma Regroup(d: int, p: int, a: int, l: int)
    ensures (d * p + a) * 10 + l == d * (10 * p) + (a * 10 + l)
  {
  }

  /** A smaller leading digit makes a smaller number, whatever follows it. */
  lemma LeadingDigitDecides(ds: int, dt: int, rs: int, rt: int, p: int)
    requires ds < dt && 0 <= rs < p && 0 <= rt
    ensures ds * p + rs < dt * p + rt
  {
    var k := dt - ds;
    assert dt * p == ds * p + k * p;
    assert (k - 1) * p >= 0;
    assert k * p == (k - 1) * p + p;
  }

  /** Among digit strings of one width, code-point order is numeric order. */
  lemma {:induction false} DigitsOrder(s: string, t: string)
    requires AllDigits(s) && AllDigits(t) && |s| == |t|
    ensures StringLe(s, t) <==> ParseNat(s) <= ParseNat(t)
  {
    if |s| > 0 {
      ParseNatFront(s);
      ParseNatFront(t);
      RenderParse(s[1..]);
      RenderParse(t[1..]);
      DigitsOrder(s[1..], t[1..]);
      var p := Pow10(|s| - 1);
      var ds, dt := DigitValue(s[0]), DigitValue(t[0]);
      var rs, rt := ParseNat(s[1..]), ParseNat(t[1..]);
      assert ParseNat(s) == ds * p + rs && ParseNat(t) == dt * p + rt;
      if ds < dt {
        LeadingDigitDecides(ds, dt, rs, rt, p);
      } else if dt < ds {
        LeadingDigitDecides(dt, ds, rt, rs, p);
      } else {
        assert s[0] == t[0];
      }
    }
  }

  /** Strings made of two parts compare by their first parts when these have one width
      and differ, and by their second parts otherwise. */
  lemma {:induction false} StringLeConcat(a: string, b: string, c: string, d: string)
    requires |a| == |c|
    ensures StringLe(a + b, c + d) <==> if a == c then StringLe(b, d) else StringLe(a, c)
  {
    if |a| == 0 {
      assert a + b == b && c + d == d;
    } else {
      assert (a + b)[0] == a[0] && (c + d)[0] == c[0];
      assert (a + b)[1..] == a[1..] + b && (c + d)[1..] == c[1..] + d;
      if a[0] == c[0] {
        StringLeConcat(a[1..], b, c[1..], d);
        assert a == [a[0]] + a[1..] && c == [c[0]] + c[1..];
      }
    }
  }

  lemma RenderOrder(m: nat, n: nat, width: nat)
    requires m < Pow10(width) && n < Pow10(width)
    ensures StringLe(Render(m, width), Render(n, width)) <==> m <= n
    ensures Render(m, width) == Render(n, width) <==> m == n
  {
    ParseRender(m, width);
    ParseRender(n, width);
    DigitsOrder(Render(m, width), Render(n, width));
  }

  /** The `YYYYMMDD` texts of two dates compare as strings the way the dates compare in
      time, so grouping on the date text lists days chronologically. */
  lemma RenderDateOrder(a: Date, b: Date)
    requires 0 <= a.year < 10000 && 1 <= a.month <= 12 && 1 <= a.day <= 31
    requires 0 <= b.year < 10000 && 1 <= b.month <= 12 && 1 <= b.day <= 31
    ensures StringLe(RenderDate(a), RenderDate(b)) <==> a == b || DateBefore(a, b)
  {
    Pow10Small();
    var ya, ma, da := Render(a.year, 4), Render(a.month, 2), Render(a.day, 2);
    var yb, mb, db := Render(b.year, 4), Render(b.month, 2), Render(b.day, 2);
    RenderOrder(a.year, b.year, 4);
    RenderOrder(a.month, b.month, 2);
    RenderOrder(a.day, b.day, 2);
    assert RenderDate(a) == ya + (ma + da);
    assert RenderDate(b) == yb + (mb + db);
    StringLeConcat(ya, ma + da, yb, mb + db);
    StringLeConcat(ma, da, mb, db);
  }
}

=== FILE: pai.dfy ===
/** pai_analysis.py: the two bad-reading masks, the `%Y%m%d` date parse, the plot key, the
    per-(plot, month) means, the per-plot monthly resample with its month names, and the
    plots ranked by average PAI. */
module PaiAnalysis {
  import opened Wrappers
  import opened Seqs
  import opened Calendar
  import opened TimeParse
  import opened Stats
  import opened Grouping
  import opened Orders
  import opened Records

  /** A cleaned reading: plot key, measurement day, PAI. */
  datatype PaiRow = PaiRow(plot: string, date: Date, pai: Option<real>)

  /** The plot key line 21 gives a reading. */
  function RawPlot(r: PaiRaw): string {
    PlotKey(r.site, r.sitePlot)
  }

  function Prepared(r: PaiRaw): PaiRow
    requires ParseDate(r.measDate).Ok?
  {
    PaiRow(RawPlot(r), ParseDate(r.measDate).value, r.pai)
  }

  /** A reading whose date converts to a day rather than to NaT. */
  predicate Dated(r: PaiRaw) {
    !NatText(r.measDate)
  }

  /** The converted date of a reading: a day, NaT, or the error the format raises. */
  function CellDate(r: PaiRaw): Result<Option<Date>, ParseError> {
    ConvertDate(r.measDate)
  }

  /** An unflagged reading whose date is not a NaT text, with its date converted. */
  lemma CleanDateConverts(raw: seq<PaiRaw>, x: PaiRaw)
    requires forall j :: 0 <= j < |raw| && NotError(raw[j]) ==> CellDate(raw[j]).Ok?
    requires x in KeepUnflagged(raw) && Dated(x)
    ensures ParseDate(x.measDate).Ok?
  {
    var unflagged := KeepUnflagged(raw);
    var k :| 0 <= k < |unflagged| && unflagged[k] == x;
    var j :| 0 <= j < |raw| && raw[j] == x;
    assert NotError(raw[j]);
  }

  /** The prepared rows of the unflagged readings whose date is a day. */
  function DatedRows(raw: seq<PaiRaw>): (rows: seq<PaiRow>)
    requires forall j :: 0 <= j < |raw| && NotError(raw[j]) ==> CellDate(raw[j]).Ok?
    ensures var clean := Filter(KeepUnflagged(raw), Dated);
            && |rows| == |clean|
            && forall i :: 0 <= i < |clean| ==> ParseDate(clean[i].measDate).Ok? && rows[i] == Prepared(clean[i])
  {
    var clean := Filter(KeepUnflagged(raw), Dated);
    assert forall i :: 0 <= i < |clean| ==> ParseDate(clean[i].measDate).Ok? by {
      forall i | 0 <= i < |clean|
        ensures ParseDate(clean[i].measDate).Ok?
      {
        CleanDateConverts(raw, clean[i]);
      }
    }
    seq(|clean|, i requires 0 <= i < |clean| => Prepared(clean[i]))
  }

  /** Lines 12-21: drop ERROR rows, convert every remaining `MEAS_DATE` (a row flagged with
      anything else is converted too, and can make the script fail, before the null mask
      removes it), keep unflagged rows, add the plot key. A NaT date (an empty cell, or the
      text of NaT or NaN) does not fail. Its row stays in the table, but the groupby of
      line 27 drops its NaT key and the resample of line 65 puts it in no bin, so the
      prepared rows that feed both leave it out. A plot left with no dated reading at all
      makes the resample raise instead (`PaiScript`). */
  function PreparePai(raw: seq<PaiRaw>): (r: Result<seq<PaiRow>, ParseError>)
    ensures r.Ok? <==> forall j :: 0 <= j < |raw| && NotError(raw[j]) ==> ConvertDate(raw[j].measDate).Ok?
    ensures r.Err? ==> exists j :: 0 <= j < |raw| && NotError(raw[j]) && ConvertDate(raw[j].measDate) == Err(r.error)
    ensures r.Ok? ==> var clean := Filter(KeepUnflagged(raw), Dated);
              && |r.value| == |clean|
              && forall i :: 0 <= i < |clean| ==> ParseDate(clean[i].measDate).Ok? && r.value[i] == Prepared(clean[i])
  {
    var kept := DropErrors(raw);
    var dates :- Traverse(kept, CellDate);
    assert forall j :: 0 <= j < |raw| && NotError(raw[j]) ==> CellDate(raw[j]).Ok? by {
      forall j | 0 <= j < |raw| && NotError(raw[j])
        ensures CellDate(raw[j]).Ok?
      {
        assert raw[j] in kept;
        var i :| 0 <= i < |kept| && kept[i] == raw[j];
        assert CellDate(kept[i]).Ok?;
      }
    }
    Ok(DatedRows(raw))
  }

  /** A reading whose date cell is empty, NaT or NaN neither stops the preparation nor
      reaches the groupings, flagged or not. */
  lemma NatDateLeftOut(r: PaiRaw)
    requires NatText(r.measDate)
    ensures PreparePai([r]) == Ok([])
  {
    assert forall j :: 0 <= j < |[r]| ==> [r][j] == r;
    assert PreparePai([r]).Ok?;
  }

  /** Every prepared row carries a real calendar day. */
  lemma PreparedDatesValid(raw: seq<PaiRaw>)
    requires PreparePai(raw).Ok?
    ensures forall i :: 0 <= i < |PreparePai(raw).value| ==> ValidDate(PreparePai(raw).value[i].date)
  {
  }

  // ----- Line 27: mean PAI per (plot, calendar month) -----

  function PlotMonth(r: PaiRow): (string, YearMonth) {
    (r.plot, MonthOf(r.date))
  }

  function ByPlotMonth(rows: seq<PaiRow>): (keyed: seq<((string, YearMonth), Option<real>)>)
    ensures |keyed| == |rows|
    ensures forall j :: 0 <= j < |rows| ==> keyed[j] == (PlotMonth(rows[j]), rows[j].pai)
  {
    seq(|rows|, j requires 0 <= j < |rows| => (PlotMonth(rows[j]), rows[j].pai))
  }

  /** `groupby(['PLOT', month])['PAI'].mean()`: one entry per (plot, month) that occurs,
      each the mean of the present PAI values of exactly the
      rows with that plot and month; combinations that do not occur get no entry. */
  function MonthlyMeans(rows: seq<PaiRow>): (r: seq<((string, YearMonth), Option<real>)>)
    ensures forall i :: 0 <= i < |r| ==> r[i].0 in KeysOf(ByPlotMonth(rows))
    ensures forall j :: 0 <= j < |rows| ==> PlotMonth(rows[j]) in KeysOf(r)
    ensures forall i :: 0 <= i < |r| ==> r[i].1 == MeanPresent(ValuesFor(ByPlotMonth(rows), r[i].0))
  {
    PlotMonthLeIsTotalOrder();
    var keyed := ByPlotMonth(rows);
    var r := SortedGroupMean(keyed, PlotMonthLe);
    assert forall j :: 0 <= j < |rows| ==> PlotMonth(rows[j]) == keyed[j].0;
    r
  }

  /** The grouping has an entry for a (plot, month) exactly when some row has that plot
      and month. */
  lemma MonthlyMeansKeys(rows: seq<PaiRow>, key: (string, YearMonth))
    ensures key in KeysOf(MonthlyMeans(rows)) <==> exists j :: 0 <= j < |rows| && PlotMonth(rows[j]) == key
  {
    var means := MonthlyMeans(rows);
    var keyed := ByPlotMonth(rows);
    if key in KeysOf(means) {
      var m :| 0 <= m < |means| && KeysOf(means)[m] == key;
      assert means[m].0 in KeysOf(keyed);
      var j :| 0 <= j < |keyed| && KeysOf(keyed)[j] == key;
      assert PlotMonth(rows[j]) == key;
    }
  }

  /** The entries come in ascending (plot, month) order, no key twice. */
  lemma MonthlyMeansAscending(rows: seq<PaiRow>)
    ensures var r := MonthlyMeans(rows);
            forall i, j :: 0 <= i < j < |r| ==> PlotMonthLe(r[i].0, r[j].0) && r[i].0 != r[j].0
  {
  }

  // ----- Lines 64-65: per-plot monthly resample -----

  /** One month-end bin of a plot's resampled series. */
  datatype MonthlyPoint = MonthlyPoint(monthEnd: Date, pai: Option<real>)

  datatype PlotSeries = PlotSeries(plot: string, points: seq<MonthlyPoint>)

  function PlotsOf(rows: seq<PaiRow>): (ps: seq<string>)
    ensures |ps| == |rows|
    ensures forall j :: 0 <= j < |rows| ==> ps[j] == rows[j].plot
  {
    seq(|rows|, j requires 0 <= j < |rows| => rows[j].plot)
  }

  function MonthNumberOf(r: PaiRow): int {
    MonthIndex(MonthOf(r.date))
  }

  /** The month indices at which plot `p` has readings: every reading of the plot
      contributes its month. */
  function ObservedMonths(rows: seq<PaiRow>, p: string): (ms: seq<int>)
    ensures forall j :: 0 <= j < |rows| && rows[j].plot == p ==> MonthNumberOf(rows[j]) in ms
  {
    var own := Filter(rows, (x: PaiRow) => x.plot == p);
    var ms := seq(|own|, i requires 0 <= i < |own| => MonthNumberOf(own[i]));
    forall j | 0 <= j < |rows| && rows[j].plot == p
      ensures MonthNumberOf(rows[j]) in ms
    {
      assert rows[j] in own;
      var i :| 0 <= i < |own| && own[i] == rows[j];
      assert ms[i] == MonthNumberOf(rows[j]);
    }
    ms
  }

  /** ... and nothing else. */
  lemma ObservedMonthsSound(rows: seq<PaiRow>, p: string, m: int)
    requires m in ObservedMonths(rows, p)
    ensures exists j :: 0 <= j < |rows| && rows[j].plot == p && MonthNumberOf(rows[j]) == m
  {
    var own := Filter(rows, (x: PaiRow) => x.plot == p);
    var ms := ObservedMonths(rows, p);
    var i :| 0 <= i < |ms| && ms[i] == m;
    assert own[i] in rows;
    var j :| 0 <= j < |rows| && rows[j] == own[i];
    assert rows[j].plot == p;
  }

  lemma PlotObserved(rows: seq<PaiRow>, p: string)
    requires p in PlotsOf(rows)
    ensures |ObservedMonths(rows, p)| > 0
  {
    var j :| 0 <= j < |rows| && PlotsOf(rows)[j] == p;
    assert MonthNumberOf(rows[j]) in ObservedMonths(rows, p);
  }

  function FirstMonth(rows: seq<PaiRow>, p: string): int
    requires p in PlotsOf(rows)
  {
    PlotObserved(rows, p);
    Least(ObservedMonths(rows, p))
  }

  function LastMonth(rows: seq<PaiRow>, p: string): int
    requires p in PlotsOf(rows)
  {
    PlotObserved(rows, p);
    Greatest(ObservedMonths(rows, p))
  }

  lemma SpanOrdered(rows: seq<PaiRow>, p: string)
    requires p in PlotsOf(rows)
    ensures FirstMonth(rows, p) <= LastMonth(rows, p)
  {
    var j :| 0 <= j < |rows| && PlotsOf(rows)[j] == p;
    assert MonthNumberOf(rows[j]) in ObservedMonths(rows, p);
  }

  /** Every reading of a plot lies between the plot's first and last bins. */
  lemma WithinSpan(rows: seq<PaiRow>, j: nat)
    requires j < |rows|
    ensures rows[j].plot in PlotsOf(rows)
    ensures FirstMonth(rows, rows[j].plot) <= MonthNumberOf(rows[j]) <= LastMonth(rows, rows[j].plot)
  {
    assert MonthNumberOf(rows[j]) in ObservedMonths(rows, rows[j].plot);
  }

  /** The first and last bins are months in which the plot has readings. */
  lemma SpanEndsObserved(rows: seq<PaiRow>, p: string)
    requires p in PlotsOf(rows)
    ensures exists j :: 0 <= j < |rows| && rows[j].plot == p && MonthNumberOf(rows[j]) == FirstMonth(rows, p)
    ensures exists j :: 0 <= j < |rows| && rows[j].plot == p && MonthNumberOf(rows[j]) == LastMonth(rows, p)
  {
    var ms := ObservedMonths(rows, p);
    var j :| 0 <= j < |rows| && PlotsOf(rows)[j] == p;
    assert MonthNumberOf(rows[j]) in ms;
    ObservedMonthsSound(rows, p, Least(ms));
    ObservedMonthsSound(rows, p, Greatest(ms));
  }

  /** A (plot, month) group has a present value iff one of its readings has a PAI. */
  lemma PresentInGroup(rows: seq<PaiRow>, key: (string, YearMonth))
    ensures MeanPresent(ValuesFor(ByPlotMonth(rows), key)).Some?
        <==> exists j :: 0 <= j < |rows| && PlotMonth(rows[j]) == key && rows[j].pai.Some?
  {
    var keyed := ByPlotMonth(rows);
    var vs := ValuesFor(keyed, key);
    ValuesForMembers(keyed, key);
    if exists j :: 0 <= j < |rows| && PlotMonth(rows[j]) == key && rows[j].pai.Some? {
      var j :| 0 <= j < |rows| && PlotMonth(rows[j]) == key && rows[j].pai.Some?;
      assert keyed[j].1 in vs;
    }
    if exists i :: 0 <= i < |vs| && vs[i].Some? {
      var i :| 0 <= i < |vs| && vs[i].Some?;
      assert (key, vs[i]) in keyed;
    }
  }

  /** The bin of plot `p` for month `ym`: labelled by the month's last day, holding the mean
      of the plot's present readings in that month, missing if there are none. */
  function Bin(rows: seq<PaiRow>, p: string, ym: YearMonth): (pt: MonthlyPoint)
    requires 1 <= ym.month <= 12
    ensures ValidDate(pt.monthEnd) && MonthOf(pt.monthEnd) == ym
    ensures pt.monthEnd.day == DaysInMonth(ym.year, ym.month)
    ensures pt.pai == MeanPresent(ValuesFor(ByPlotMonth(rows), (p, ym)))
  {
    var vs := ValuesFor(ByPlotMonth(rows), (p, ym));
    MonthlyPoint(MonthEnd(ym), MeanPresent(vs))
  }

  /** The bins of `count` consecutive months starting at month index `first`. */
  function Bins(rows: seq<PaiRow>, p: string, first: int, count: nat): (pts: seq<MonthlyPoint>)
    ensures |pts| == count
    ensures forall k :: 0 <= k < count ==> pts[k] == Bin(rows, p, MonthAt(first + k))
  {
    seq(count, k requires 0 <= k < count => Bin(rows, p, MonthAt(first + k)))
  }

  /** The resampled series of plot `p`: one bin per month from its first observed month to
      its last, consecutive months with no gap. */
  function SeriesFor(rows: seq<PaiRow>, p: string): (s: PlotSeries)
    requires p in PlotsOf(rows)
    ensures s.plot == p
    ensures |s.points| == LastMonth(rows, p) - FirstMonth(rows, p) + 1
    ensures forall k :: 0 <= k < |s.points| ==> s.points[k] == Bin(rows, p, MonthAt(FirstMonth(rows, p) + k))
  {
    SpanOrdered(rows, p);
    PlotSeries(p, Bins(rows, p, FirstMonth(rows, p), LastMonth(rows, p) - FirstMonth(rows, p) + 1))
  }

  function SeriesPlots(series: seq<PlotSeries>): (ps: seq<string>)
    ensures |ps| == |series|
    ensures forall i :: 0 <= i < |series| ==> ps[i] == series[i].plot
  {
    seq(|series|, i requires 0 <= i < |series| => series[i].plot)
  }

  /** `groupby('PLOT').resample('M')['PAI'].mean()`: every plot with its resampled series. */
  function ResampleMonthly(rows: seq<PaiRow>): (r: seq<PlotSeries>)
    ensures forall i :: 0 <= i < |r| ==> r[i].plot in PlotsOf(rows) && r[i] == SeriesFor(rows, r[i].plot)
    ensures forall j :: 0 <= j < |rows| ==> rows[j].plot in SeriesPlots(r)
  {
    StringLeIsTotalOrder();
    var plots := SortedKeys(PlotsOf(rows), StringLe);
    var r := seq(|plots|, i requires 0 <= i < |plots| => SeriesFor(rows, plots[i]));
    assert SeriesPlots(r) == plots;
    r
  }

  /** The `k`-th bin of a plot's series is labelled with the `k`-th month of its span. */
  lemma BinMonth(rows: seq<PaiRow>, p: string, k: nat)
    requires p in PlotsOf(rows) && k < |SeriesFor(rows, p).points|
    ensures MonthOf(SeriesFor(rows, p).points[k].monthEnd) == MonthAt(FirstMonth(rows, p) + k)
  {
  }

  /** A reading's own plot series has a bin for the reading's month: the one at offset `k`. */
  lemma SeriesCoversReading(rows: seq<PaiRow>, j: nat) returns (k: nat)
    requires j < |rows| && ValidDate(rows[j].date)
    ensures rows[j].plot in PlotsOf(rows)
    ensures k < |SeriesFor(rows, rows[j].plot).points|
    ensures MonthOf(SeriesFor(rows, rows[j].plot).points[k].monthEnd) == MonthOf(rows[j].date)
  {
    var p := rows[j].plot;
    WithinSpan(rows, j);
    var ym := MonthOf(rows[j].date);
    k := MonthIndex(ym) - FirstMonth(rows, p);
    BinMonth(rows, p, k);
    MonthIndexInjective(MonthAt(MonthIndex(ym)), ym);
  }

  /** The series come in ascending plot order, no plot twice. */
  lemma ResamplePlotsAscending(rows: seq<PaiRow>)
    ensures var r := ResampleMonthly(rows);
            forall i, j :: 0 <= i < j < |r| ==> StringLe(r[i].plot, r[j].plot) && r[i].plot != r[j].plot
  {
    StringLeIsTotalOrder();
    assert SeriesPlots(ResampleMonthly(rows)) == SortedKeys(PlotsOf(rows), StringLe);
  }

  /** Every reading falls in a bin of its plot's series: bin `k` of series `i`. */
  lemma ResampleCoversReadings(rows: seq<PaiRow>, j: nat) returns (i: nat, k: nat)
    requires j < |rows| && ValidDate(rows[j].date)
    ensures i < |ResampleMonthly(rows)| && k < |ResampleMonthly(rows)[i].points|
    ensures ResampleMonthly(rows)[i].plot == rows[j].plot
    ensures MonthOf(ResampleMonthly(rows)[i].points[k].monthEnd) == MonthOf(rows[j].date)
  {
    var r := ResampleMonthly(rows);
    var p := rows[j].plot;
    assert p in SeriesPlots(r);
    i :| 0 <= i < |r| && SeriesPlots(r)[i] == p;
    k := SeriesCoversReading(rows, j);
    assert r[i] == SeriesFor(rows, p);
  }

  /** A bin holds the mean of its own (plot, month) group. */
  lemma BinPai(rows: seq<PaiRow>, p: string, k: nat)
    requires p in PlotsOf(rows) && k < |SeriesFor(rows, p).points|
    ensures var pt := SeriesFor(rows, p).points[k];
            pt.pai == MeanPresent(ValuesFor(ByPlotMonth(rows), (p, MonthOf(pt.monthEnd))))
  {
  }

  /** The resample agrees with the line-27 grouping: a bin whose (plot, month) has an entry
      there holds that entry's mean, and any other bin is missing. */
  lemma ResampleAgreesWithMonthlyMeans(rows: seq<PaiRow>, i: nat, k: nat)
    requires i < |ResampleMonthly(rows)| && k < |ResampleMonthly(rows)[i].points|
    ensures var s := ResampleMonthly(rows)[i];
            var key := (s.plot, MonthOf(s.points[k].monthEnd));
            var means := MonthlyMeans(rows);
            && (forall m :: 0 <= m < |means| && means[m].0 == key ==> means[m].1 == s.points[k].pai)
            && (key !in KeysOf(means) ==> s.points[k].pai.None?)
  {
    var s := ResampleMonthly(rows)[i];
    var p := s.plot;
    BinPai(rows, p, k);
    var key := (p, MonthOf(s.points[k].monthEnd));
    if key !in KeysOf(MonthlyMeans(rows)) {
      MonthlyMeansKeys(rows, key);
      PresentInGroup(rows, key);
    }
  }

  // ----- Lines 69-72: month names of the bins -----

  /** `grouped_pai['month'].map(month_map)` for one bin: the English name of its month. */
  function BinMonthName(pt: MonthlyPoint): (name: Option<string>)
    ensures name.Some? <==> 1 <= pt.monthEnd.month <= 12
    ensures name.Some? ==> MonthNumber(name.value) == Some(pt.monthEnd.month)
  {
    MonthName(pt.monthEnd.month)
  }

  /** Every bin of the resample gets a name; the map never yields a missing value here. */
  lemma ResampleBinsNamed(rows: seq<PaiRow>, i: nat, k: nat)
    requires i < |ResampleMonthly(rows)| && k < |ResampleMonthly(rows)[i].points|
    ensures BinMonthName(ResampleMonthly(rows)[i].points[k]).Some?
  {
    var s := ResampleMonthly(rows)[i];
    assert s.points[k] == Bin(rows, s.plot, MonthAt(FirstMonth(rows, s.plot) + k));
  }

  // ----- Line 79: plots ranked by average PAI -----

  function SeriesValues(s: PlotSeries): (vs: seq<Option<real>>)
    ensures |vs| == |s.points|
    ensures forall k :: 0 <= k < |vs| ==> vs[k] == s.points[k].pai
  {
    seq(|s.points|, k requires 0 <= k < |s.points| => s.points[k].pai)
  }

  /** A plot and the mean of its present monthly means. */
  function AverageOf(s: PlotSeries): (string, Option<real>) {
    (s.plot, MeanPresent(SeriesValues(s)))
  }

  /** `sort_values(ascending=False)`: larger averages first, missing averages last. */
  function RanksBefore(a: (string, Option<real>), b: (string, Option<real>)): bool {
    if a.1.None? then b.1.None? else b.1.None? || a.1.value >= b.1.value
  }

  lemma RanksBeforeIsTotalPreorder()
    ensures TotalPreorder(RanksBefore)
  {
  }

  function Averages(series: seq<PlotSeries>): (avg: seq<(string, Option<real>)>)
    ensures |avg| == |series|
    ensures forall i :: 0 <= i < |series| ==> avg[i] == AverageOf(series[i])
  {
    seq(|series|, i requires 0 <= i < |series| => AverageOf(series[i]))
  }

  /** `groupby('PLOT')['PAI'].mean().sort_values(ascending=False)` over the resampled
      series: each plot's average, non-increasing, plots without any present value last. */
  function PlotAverages(series: seq<PlotSeries>): (r: seq<(string, Option<real>)>)
    ensures multiset(r) == multiset(Averages(series))
    ensures forall i, j :: 0 <= i < j < |r| && r[j].1.Some? ==> r[i].1.Some? && r[i].1.value >= r[j].1.value
  {
    RanksBeforeIsTotalPreorder();
    var r := SortBy(Averages(series), RanksBefore);
    assert forall i, j :: 0 <= i < j < |r| ==> RanksBefore(r[i], r[j]);
    r
  }

  /** Every ranked entry is the average of one of the series ... */
  lemma RankingEntry(series: seq<PlotSeries>, i: nat) returns (m: nat)
    requires i < |PlotAverages(series)|
    ensures m < |series| && PlotAverages(series)[i] == AverageOf(series[m])
  {
    var r := PlotAverages(series);
    var avg := Averages(series);
    assert r[i] in multiset(avg);
    m :| 0 <= m < |avg| && avg[m] == r[i];
  }

  /** ... and every series' average is ranked. */
  lemma RankingListed(series: seq<PlotSeries>, m: nat) returns (n: nat)
    requires m < |series|
    ensures n < |PlotAverages(series)| && PlotAverages(series)[n] == AverageOf(series[m])
  {
    var r := PlotAverages(series);
    var avg := Averages(series);
    assert avg[m] in multiset(r);
    n :| 0 <= n < |r| && r[n] == avg[m];
  }

  /** For series with distinct plots no plot is ranked twice. */
  lemma RankingDistinct(series: seq<PlotSeries>)
    requires forall i, j :: 0 <= i < j < |series| ==> series[i].plot != series[j].plot
    ensures var r := PlotAverages(series);
            forall i, j :: 0 <= i < j < |r| ==> r[i].0 != r[j].0
  {
    var avg := Averages(series);
    var r := PlotAverages(series);
    assert NoDuplicates(avg) by {
      forall i, j | 0 <= i < j < |avg|
        ensures avg[i] != avg[j]
      {
        assert avg[i].0 == series[i].plot && avg[j].0 == series[j].plot;
      }
    }
    PermutationKeepsDistinct(avg, r);
    forall i, j | 0 <= i < j < |r|
      ensures r[i].0 != r[j].0
    {
      var a := RankingEntry(series, i);
      var b := RankingEntry(series, j);
      assert a != b;
    }
  }

  /** On the resample of cleaned rows each ranked entry is a plot of the rows with the mean
      of that plot's present monthly means ... */
  lemma RankedEntry(rows: seq<PaiRow>, i: nat)
    requires i < |PlotAverages(ResampleMonthly(rows))|
    ensures var r := PlotAverages(ResampleMonthly(rows));
            r[i].0 in PlotsOf(rows) && r[i] == AverageOf(SeriesFor(rows, r[i].0))
  {
    var series := ResampleMonthly(rows);
    var m := RankingEntry(series, i);
    assert series[m] == SeriesFor(rows, series[m].plot);
  }

  /** ... every plot of the rows is ranked ... */
  lemma RankedListed(rows: seq<PaiRow>, j: nat) returns (n: nat)
    requires j < |rows|
    ensures n < |PlotAverages(ResampleMonthly(rows))| && PlotAverages(ResampleMonthly(rows))[n].0 == rows[j].plot
  {
    var series := ResampleMonthly(rows);
    assert rows[j].plot in SeriesPlots(series);
    var m :| 0 <= m < |series| && SeriesPlots(series)[m] == rows[j].plot;
    n := RankingListed(series, m);
  }

  /** ... and no plot twice. */
  lemma RankedPlotsDistinct(rows: seq<PaiRow>)
    ensures var r := PlotAverages(ResampleMonthly(rows));
            forall i, j :: 0 <= i < j < |r| ==> r[i].0 != r[j].0
  {
    ResamplePlotsAscending(rows);
    RankingDistinct(ResampleMonthly(rows));
  }

  // ----- The whole script -----

  /** A plot with unflagged readings none of which has a date: at line 65 its resampler's
      index holds only NaT, and the month range built from a NaT start and end raises. */
  predicate UndatedPlot(raw: seq<PaiRaw>, p: string) {
    && (exists j :: 0 <= j < |raw| && FlagMissing(raw[j]) && RawPlot(raw[j]) == p)
    && forall j :: 0 <= j < |raw| && FlagMissing(raw[j]) && RawPlot(raw[j]) == p ==> !Dated(raw[j])
  }

  datatype PaiError =
    | DateFailed(parse: ParseError)    // line 15
    | UndatedPlotFailed(plot: string)  // line 65

  /** The (plot, month) means of line 27, the monthly series of line 65 and the ranking of
      line 79. */
  datatype PaiReport = PaiReport(monthly: seq<((string, YearMonth), Option<real>)>,
                                 series: seq<PlotSeries>,
                                 ranking: seq<(string, Option<real>)>)

  /** Some unflagged reading of plot `p` has a date. */
  predicate HasDated(raw: seq<PaiRaw>, p: string) {
    exists j :: 0 <= j < |raw| && FlagMissing(raw[j]) && Dated(raw[j]) && RawPlot(raw[j]) == p
  }

  /** `rows` carry the plots of the unflagged, dated readings, in order, as `PreparePai`
      builds them. */
  predicate Cleaned(raw: seq<PaiRaw>, rows: seq<PaiRow>) {
    var clean := Filter(KeepUnflagged(raw), Dated);
    |rows| == |clean| && forall i :: 0 <= i < |rows| ==> rows[i].plot == RawPlot(clean[i])
  }

  lemma CleanIn(raw: seq<PaiRaw>, x: PaiRaw)
    requires x in Filter(KeepUnflagged(raw), Dated)
    ensures exists j :: 0 <= j < |raw| && raw[j] == x && FlagMissing(x) && Dated(x)
  {
    var unflagged := KeepUnflagged(raw);
    var clean := Filter(unflagged, Dated);
    var i :| 0 <= i < |clean| && clean[i] == x;
    var k :| 0 <= k < |unflagged| && unflagged[k] == x;
  }

  lemma InClean(raw: seq<PaiRaw>, j: nat)
    requires j < |raw| && FlagMissing(raw[j]) && Dated(raw[j])
    ensures raw[j] in Filter(KeepUnflagged(raw), Dated)
  {
    var unflagged := KeepUnflagged(raw);
    assert raw[j] in unflagged;
    var k :| 0 <= k < |unflagged| && unflagged[k] == raw[j];
  }

  lemma PlotHasDated(raw: seq<PaiRaw>, rows: seq<PaiRow>, p: string)
    requires Cleaned(raw, rows) && p in PlotsOf(rows)
    ensures HasDated(raw, p)
  {
    var clean := Filter(KeepUnflagged(raw), Dated);
    var i :| 0 <= i < |rows| && PlotsOf(rows)[i] == p;
    assert clean[i] in clean;
    CleanIn(raw, clean[i]);
  }

  lemma PlotAt(raw: seq<PaiRaw>, rows: seq<PaiRow>, i: nat)
    requires Cleaned(raw, rows) && i < |rows|
    ensures RawPlot(Filter(KeepUnflagged(raw), Dated)[i]) in PlotsOf(rows)
  {
    assert PlotsOf(rows)[i] == rows[i].plot;
  }

  lemma DatedHasPlot(raw: seq<PaiRaw>, rows: seq<PaiRow>, p: string)
    requires Cleaned(raw, rows) && HasDated(raw, p)
    ensures p in PlotsOf(rows)
  {
    var clean := Filter(KeepUnflagged(raw), Dated);
    var j :| 0 <= j < |raw| && FlagMissing(raw[j]) && Dated(raw[j]) && RawPlot(raw[j]) == p;
    InClean(raw, j);
    var i :| 0 <= i < |clean| && clean[i] == raw[j];
    PlotAt(raw, rows, i);
  }

  /** A plot has a prepared row exactly when one of its unflagged readings is dated. */
  lemma CleanedPlots(raw: seq<PaiRaw>, rows: seq<PaiRow>, p: string)
    requires Cleaned(raw, rows)
    ensures p in PlotsOf(rows) <==> HasDated(raw, p)
  {
    if p in PlotsOf(rows) {
      PlotHasDated(raw, rows, p);
    }
    if HasDated(raw, p) {
      DatedHasPlot(raw, rows, p);
    }
  }

  /** The prepared rows are `Cleaned`. */
  lemma PreparedCleaned(raw: seq<PaiRaw>)
    requires PreparePai(raw).Ok?
    ensures Cleaned(raw, PreparePai(raw).value)
  {
  }

  /** The unflagged readings whose date is NaT and whose plot has no prepared row. */
  function Undated(raw: seq<PaiRaw>, rows: seq<PaiRow>): seq<PaiRaw> {
    Filter(KeepUnflagged(raw), (x: PaiRaw) => !Dated(x) && RawPlot(x) !in PlotsOf(rows))
  }

  lemma UndatedSound(raw: seq<PaiRaw>, rows: seq<PaiRow>, x: PaiRaw)
    requires Cleaned(raw, rows) && x in Undated(raw, rows)
    ensures UndatedPlot(raw, RawPlot(x))
    ensures exists j :: 0 <= j < |raw| && UndatedPlot(raw, RawPlot(raw[j]))
  {
    var undated := Undated(raw, rows);
    var unflagged := KeepUnflagged(raw);
    var i :| 0 <= i < |undated| && undated[i] == x;
    assert x in unflagged && RawPlot(x) !in PlotsOf(rows);
    var k :| 0 <= k < |unflagged| && unflagged[k] == x;
    var j :| 0 <= j < |raw| && raw[j] == x;
    CleanedPlots(raw, rows, RawPlot(x));
    assert UndatedPlot(raw, RawPlot(raw[j]));
  }

  lemma InUndated(raw: seq<PaiRaw>, rows: seq<PaiRow>, j: nat)
    requires j < |raw| && FlagMissing(raw[j]) && !Dated(raw[j]) && RawPlot(raw[j]) !in PlotsOf(rows)
    ensures raw[j] in Undated(raw, rows)
  {
    var unflagged := KeepUnflagged(raw);
    assert raw[j] in unflagged;
    var m :| 0 <= m < |unflagged| && unflagged[m] == raw[j];
  }

  /** With no undated reading left over, no plot is undated ... */
  lemma NoUndatedPlot(raw: seq<PaiRaw>, rows: seq<PaiRow>, j: nat)
    requires Cleaned(raw, rows) && |Undated(raw, rows)| == 0 && j < |raw|
    ensures !UndatedPlot(raw, RawPlot(raw[j]))
  {
    var p := RawPlot(raw[j]);
    if UndatedPlot(raw, p) {
      var k :| 0 <= k < |raw| && FlagMissing(raw[k]) && RawPlot(raw[k]) == p;
      CleanedPlots(raw, rows, p);
      InUndated(raw, rows, k);
      assert false;
    }
  }

  /** ... and every unflagged reading's plot has a prepared row. */
  lemma UnflaggedPlotPrepared(raw: seq<PaiRaw>, rows: seq<PaiRow>, j: nat)
    requires Cleaned(raw, rows) && |Undated(raw, rows)| == 0
    requires j < |raw| && FlagMissing(raw[j])
    ensures RawPlot(raw[j]) in PlotsOf(rows)
  {
    CleanedPlots(raw, rows, RawPlot(raw[j]));
    if !Dated(raw[j]) && RawPlot(raw[j]) !in PlotsOf(rows) {
      InUndated(raw, rows, j);
      assert false;
    }
  }

  lemma AllPlotsResampled(raw: seq<PaiRaw>, rows: seq<PaiRow>)
    requires Cleaned(raw, rows) && |Undated(raw, rows)| == 0
    ensures forall j :: 0 <= j < |raw| && FlagMissing(raw[j]) ==> RawPlot(raw[j]) in SeriesPlots(ResampleMonthly(rows))
  {
    forall j | 0 <= j < |raw| && FlagMissing(raw[j])
      ensures RawPlot(raw[j]) in SeriesPlots(ResampleMonthly(rows))
    {
      UnflaggedPlotPrepared(raw, rows, j);
      var i :| 0 <= i < |rows| && PlotsOf(rows)[i] == RawPlot(raw[j]);
    }
  }

  /** The resample of line 65 and what follows it, on rows prepared from `raw`. */
  function ResampleChecked(raw: seq<PaiRaw>, rows: seq<PaiRow>): (r: Result<PaiReport, PaiError>)
    requires Cleaned(raw, rows)
    ensures r.Err? ==> r.error.UndatedPlotFailed? && UndatedPlot(raw, r.error.plot)
    ensures r.Err? <==> exists j :: 0 <= j < |raw| && UndatedPlot(raw, RawPlot(raw[j]))
    ensures r.Ok? ==> forall j :: 0 <= j < |raw| && FlagMissing(raw[j]) ==> RawPlot(raw[j]) in SeriesPlots(r.value.series)
    ensures r.Ok? ==> r.value == PaiReport(MonthlyMeans(rows), ResampleMonthly(rows), PlotAverages(ResampleMonthly(rows)))
  {
    var undated := Undated(raw, rows);
    if |undated| > 0 then
      UndatedSound(raw, rows, undated[0]);
      Err(UndatedPlotFailed(RawPlot(undated[0])))
    else
      assert forall j :: 0 <= j < |raw| ==> !UndatedPlot(raw, RawPlot(raw[j])) by {
        forall j | 0 <= j < |raw|
          ensures !UndatedPlot(raw, RawPlot(raw[j]))
        {
          NoUndatedPlot(raw, rows, j);
        }
      }
      AllPlotsResampled(raw, rows);
      var series := ResampleMonthly(rows);
      Ok(PaiReport(MonthlyMeans(rows), series, PlotAverages(series)))
  }

  /** pai_analysis.py from the raw table to its results: the masks and the date conversion
      (lines 12-21), which may raise; the (plot, month) means (line 27); the monthly
      resample (line 65), which raises when some plot has no dated reading; and the
      ranking (line 79). A plot whose every reading has a NaT date thus stops the script,
      while NaT readings of a plot that also has dated ones are left out of its bins. */
  function PaiScript(raw: seq<PaiRaw>): (r: Result<PaiReport, PaiError>)
    ensures (r.Err? && r.error.DateFailed?) <==> PreparePai(raw).Err?
  {
    match PreparePai(raw)
    case Err(e) => Err(DateFailed(e))
    case Ok(rows) =>
      PreparedCleaned(raw);
      ResampleChecked(raw, rows)
  }

  /** When the script fails, and what it yields when it does not. */
  lemma PaiScriptOutcome(raw: seq<PaiRaw>)
    ensures var r := PaiScript(raw);
      r.Err? && r.error.DateFailed? ==>
              exists j :: 0 <= j < |raw| && NotError(raw[j]) && ConvertDate(raw[j].measDate) == Err(r.error.parse)
    ensures var r := PaiScript(raw);
      r.Err? && r.error.UndatedPlotFailed? ==> UndatedPlot(raw, r.error.plot)
    ensures var r := PaiScript(raw);
      PreparePai(raw).Ok? ==> (r.Err? <==> exists j :: 0 <= j < |raw| && UndatedPlot(raw, RawPlot(raw[j])))
    ensures var r := PaiScript(raw);
      r.Ok? ==> forall j :: 0 <= j < |raw| && FlagMissing(raw[j]) ==> RawPlot(raw[j]) in SeriesPlots(r.value.series)
    ensures var r := PaiScript(raw);
      r.Ok? ==> var rows := PreparePai(raw).value;
              r.value == PaiReport(MonthlyMeans(rows), ResampleMonthly(rows), PlotAverages(ResampleMonthly(rows)))
  {
    if PreparePai(raw).Ok? {
      PreparedCleaned(raw);
    }
  }

  /** On a table that prepares, the script is the resample of its prepared rows. */
  lemma ScriptIsResample(raw: seq<PaiRaw>)
    requires PreparePai(raw).Ok?
    ensures Cleaned(raw, PreparePai(raw).value)
    ensures PaiScript(raw) == ResampleChecked(raw, PreparePai(raw).value)
  {
    PreparedCleaned(raw);
  }

  lemma UndatedSingle(r: PaiRaw)
    requires NatText(r.measDate) && FlagMissing(r)
    ensures Undated([r], []) == [r]
  {
    assert Init([r]) == [] && Last([r]) == r;
  }

  /** A lone unflagged reading with a NaT date stops the script at the resample. */
  lemma UndatedPlotRaises(r: PaiRaw)
    requires NatText(r.measDate) && FlagMissing(r)
    ensures PaiScript([r]) == Err(UndatedPlotFailed(RawPlot(r)))
  {
    NatDateLeftOut(r);
    ScriptIsResample([r]);
    UndatedSingle(r);
  }

  /** Two tables that prepare to the same rows and have no undated plot give the same
      results. */
  lemma SamePreparedSameScript(x: seq<PaiRaw>, y: seq<PaiRaw>)
    requires PreparePai(x).Ok? && PreparePai(x) == PreparePai(y)
    requires !exists j :: 0 <= j < |x| && UndatedPlot(x, RawPlot(x[j]))
    requires !exists j :: 0 <= j < |y| && UndatedPlot(y, RawPlot(y[j]))
    ensures PaiScript(x).Ok? && PaiScript(x) == PaiScript(y)
  {
    ScriptIsResample(x);
    ScriptIsResample(y);
  }

  lemma AppendUndatedClean(raw: seq<PaiRaw>, b: PaiRaw)
    requires !Dated(b)
    ensures Filter(KeepUnflagged(raw + [b]), Dated) == Filter(KeepUnflagged(raw), Dated)
  {
    FilterAppend(raw, [b], FlagMissing);
    FilterAppend(KeepUnflagged(raw), KeepUnflagged([b]), Dated);
    assert Filter(KeepUnflagged([b]), Dated) == [];
  }

  lemma AppendNatConverts(raw: seq<PaiRaw>, b: PaiRaw)
    requires PreparePai(raw).Ok? && NatText(b.measDate)
    ensures PreparePai(raw + [b]).Ok?
  {
    var more := raw + [b];
    assert forall j :: 0 <= j < |raw| ==> more[j] == raw[j];
    assert more[|raw|] == b;
  }

  lemma SameCleanSamePrepared(x: seq<PaiRaw>, y: seq<PaiRaw>)
    requires PreparePai(x).Ok? && PreparePai(y).Ok?
    requires Filter(KeepUnflagged(x), Dated) == Filter(KeepUnflagged(y), Dated)
    ensures PreparePai(x) == PreparePai(y)
  {
    var v := PreparePai(x).value;
    var w := PreparePai(y).value;
    assert |v| == |w| && forall i :: 0 <= i < |v| ==> v[i] == w[i];
  }

  /** Appending a reading whose date is NaT leaves the prepared rows as they were. */
  lemma AppendNatPrepares(raw: seq<PaiRaw>, b: PaiRaw)
    requires PreparePai(raw).Ok? && NatText(b.measDate)
    ensures PreparePai(raw + [b]) == PreparePai(raw)
  {
    AppendNatConverts(raw, b);
    AppendUndatedClean(raw, b);
    SameCleanSamePrepared(raw + [b], raw);
  }

  /** ... and, when the reading's plot has a dated reading, adds no undated plot. */
  /** A plot undated after appending `b` was already undated, when `b`'s plot is dated. */
  lemma UndatedBeforeAppend(raw: seq<PaiRaw>, b: PaiRaw, p: string)
    requires UndatedPlot(raw + [b], p) && HasDated(raw, RawPlot(b))
    ensures exists j :: 0 <= j < |raw| && UndatedPlot(raw, RawPlot(raw[j]))
  {
    var more := raw + [b];
    var k :| 0 <= k < |raw| && FlagMissing(raw[k]) && Dated(raw[k]) && RawPlot(raw[k]) == RawPlot(b);
    assert more[k] == raw[k];
    var m :| 0 <= m < |more| && FlagMissing(more[m]) && RawPlot(more[m]) == p;
    assert m < |raw|;
    assert more[m] == raw[m];
    forall i | 0 <= i < |raw| && FlagMissing(raw[i]) && RawPlot(raw[i]) == p
      ensures !Dated(raw[i])
    {
      assert more[i] == raw[i];
    }
    assert UndatedPlot(raw, RawPlot(raw[m]));
  }

  lemma AppendNatNoUndated(raw: seq<PaiRaw>, b: PaiRaw)
    requires !exists j :: 0 <= j < |raw| && UndatedPlot(raw, RawPlot(raw[j]))
    requires HasDated(raw, RawPlot(b))
    ensures !exists j :: 0 <= j < |raw + [b]| && UndatedPlot(raw + [b], RawPlot((raw + [b])[j]))
  {
    var more := raw + [b];
    forall j | 0 <= j < |more|
      ensures !UndatedPlot(more, RawPlot(more[j]))
    {
      if UndatedPlot(more, RawPlot(more[j])) {
        UndatedBeforeAppend(raw, b, RawPlot(more[j]));
        assert false;
      }
    }
  }

  /** A reading with a NaT date, added to a table that completes and that has a dated
      reading of the same plot, changes nothing: it falls into no bin. */
  lemma NatReadingOfDatedPlot(raw: seq<PaiRaw>, b: PaiRaw)
    requires PaiScript(raw).Ok? && NatText(b.measDate) && HasDated(raw, RawPlot(b))
    ensures PaiScript(raw + [b]) == PaiScript(raw)
  {
    AppendNatPrepares(raw, b);
    ScriptIsResample(raw);
    AppendNatNoUndated(raw, b);
    SamePreparedSameScript(raw + [b], raw);
  }
}

=== FILE: records.dfy ===
/** A row of the canopy plant-area-index file as read from disk, the two bad-reading masks
    applied to it, and the composite plot identifier. */
module Records {
  import opened Wrappers
  import opened Seqs

  /** One PAI reading. Dates and times stay text until a script parses them (an empty date
      or time cell is the text `nan`); an empty `BAD_READINGS` cell is `None`. */
  datatype PaiRaw = PaiRaw(
    site: string,
    sitePlot: string,
    measDate: string,
    measTime: string,
    pai: Option<real>,
    badReadings: Option<string>)

  /** One soil-moisture reading of the text file, keyed to a sensor location by `ID_LOC`.
      Numeric cells stay text until a script converts them; an empty cell is `None`. */
  datatype SoilRaw = SoilRaw(
    idLoc: int,
    site: string,
    sitePlot: string,
    measDate: Option<string>,
    measTime: Option<string>,
    moisture: Option<string>,
    temperature: Option<string>)

  /** `astype(str)` of a cell: an empty cell becomes the text `nan`. */
  function CellText(c: Option<string>): string {
    if c.None? then "nan" else c.value
  }

  const ErrorFlag: string := "ERROR"

  /** `df['BAD_READINGS'] != 'ERROR'`: a missing flag compares unequal, so it passes. */
  predicate NotError(r: PaiRaw) {
    r.badReadings != Some(ErrorFlag)
  }

  /** `df['BAD_READINGS'].isnull()`. */
  predicate FlagMissing(r: PaiRaw) {
    r.badReadings.None?
  }

  /** The ERROR mask, as applied in both scripts. */
  function DropErrors(rows: seq<PaiRaw>): (r: seq<PaiRaw>)
    ensures forall i :: 0 <= i < |r| ==> r[i].badReadings != Some(ErrorFlag) && r[i] in rows
    ensures forall j :: 0 <= j < |rows| && rows[j].badReadings != Some(ErrorFlag) ==> rows[j] in r
  {
    Filter(rows, NotError)
  }

  /** The ERROR mask keeps survivors in their original relative order: masking a file read
      in two halves is masking each half. */
  lemma DropErrorsKeepsOrder(a: seq<PaiRaw>, b: seq<PaiRaw>)
    ensures DropErrors(a + b) == DropErrors(a) + DropErrors(b)
  {
    FilterAppend(a, b, NotError);
  }

  /** The null mask. */
  function KeepUnflagged(rows: seq<PaiRaw>): (r: seq<PaiRaw>)
    ensures forall i :: 0 <= i < |r| ==> r[i].badReadings.None? && r[i] in rows
    ensures forall j :: 0 <= j < |rows| && rows[j].badReadings.None? ==> rows[j] in r
  {
    Filter(rows, FlagMissing)
  }

  /** After both masks only rows with no flag at all remain: the ERROR mask is subsumed by
      the null mask, so any non-null flag is dropped, not only ERROR. */
  lemma BothMasksKeepUnflagged(rows: seq<PaiRaw>)
    ensures KeepUnflagged(DropErrors(rows)) == KeepUnflagged(rows)
  {
    FilterStronger(rows, NotError, FlagMissing);
  }

  /** `SITE + '_' + SITE_PLOT`. */
  function PlotKey(site: string, sitePlot: string): (k: string)
    ensures |k| == |site| + 1 + |sitePlot|
    ensures k[..|site|] == site && k[|site|] == '_' && k[|site| + 1..] == sitePlot
  {
    site + "_" + sitePlot
  }

  /** When site codes contain no underscore the plot key determines both parts. */
  lemma PlotKeyInjective(s1: string, p1: string, s2: string, p2: string)
    requires '_' !in s1 && '_' !in s2
    ensures PlotKey(s1, p1) == PlotKey(s2, p2) <==> s1 == s2 && p1 == p2
  {
    var k1, k2 := PlotKey(s1, p1), PlotKey(s2, p2);
    if k1 == k2 && |s1| != |s2| {
      assert false;
    }
  }

  /** Without that condition two different (site, plot) pairs can share a key. */
  lemma PlotKeyAmbiguous()
    ensures PlotKey("A_B", "C") == PlotKey("A", "B_C")
  {
  }
}

=== FILE: seqs.dfy ===
/** Sequence operations that the scripts use in many places: boolean-mask selection,
    element-wise conversion that may raise, and the first-appearance list of distinct values. */
module Seqs {
  import opened Wrappers

  function Init<T>(s: seq<T>): seq<T>
    requires |s| > 0
  {
    s[..|s| - 1]
  }

  function Last<T>(s: seq<T>): T
    requires |s| > 0
  {
    s[|s| - 1]
  }

  lemma InitLast<T>(s: seq<T>)
    requires |s| > 0
    ensures s == Init(s) + [Last(s)]
  {
  }

  predicate NoDuplicates<T(==)>(s: seq<T>) {
    forall i, j :: 0 <= i < j < |s| ==> s[i] != s[j]
  }

  /** Boolean-mask selection `df[mask]`: keeps the rows satisfying `keep`, in their original order. */
  function Filter<T>(xs: seq<T>, keep: T -> bool): (r: seq<T>)
    ensures |r| <= |xs|
    ensures forall i :: 0 <= i < |r| ==> r[i] in xs && keep(r[i])
    ensures forall i :: 0 <= i < |xs| && keep(xs[i]) ==> xs[i] in r
  {
    if |xs| == 0 then []
    else
      assert xs == Init(xs) + [Last(xs)];
      Filter(Init(xs), keep) + (if keep(Last(xs)) then [Last(xs)] else [])
  }

  /** Selection distributes over concatenation, so survivors keep their relative order. */
  lemma {:induction false} FilterAppend<T>(a: seq<T>, b: seq<T>, keep: T -> bool)
    ensures Filter(a + b, keep) == Filter(a, keep) + Filter(b, keep)
  {
    if |b| == 0 {
      assert a + b == a;
    } else {
      assert Init(a + b) == a + Init(b);
      assert Last(a + b) == Last(b);
      FilterAppend(a, Init(b), keep);
    }
  }

  /** Selecting with `p` and then with a stricter `q` is the same as selecting with `q` alone. */
  lemma {:induction false} FilterStronger<T>(xs: seq<T>, p: T -> bool, q: T -> bool)
    requires forall x :: q(x) ==> p(x)
    ensures Filter(Filter(xs, p), q) == Filter(xs, q)
  {
    if |xs| > 0 {
      FilterStronger(Init(xs), p, q);
      FilterAppend(Filter(Init(xs), p), if p(Last(xs)) then [Last(xs)] else [], q);
      if p(Last(xs)) {
        assert Filter([Last(xs)], q) == (if q(Last(xs)) then [Last(xs)] else []) by {
          assert Init([Last(xs)]) == [];
        }
      }
    }
  }

  /** Element-wise conversion that raises on the first element it cannot convert
      (what a column-wide `astype` or `to_datetime` does). */
  function Traverse<A, B, E>(xs: seq<A>, f: A -> Result<B, E>): (r: Result<seq<B>, E>)
    ensures r.Ok? <==> forall i :: 0 <= i < |xs| ==> f(xs[i]).Ok?
    ensures r.Ok? ==> |r.value| == |xs| && forall i :: 0 <= i < |xs| ==> r.value[i] == f(xs[i]).value
    ensures r.Err? ==> exists i :: 0 <= i < |xs| && f(xs[i]) == Err(r.error)
                                   && forall j :: 0 <= j < i ==> f(xs[j]).Ok?
  {
    if |xs| == 0 then Ok([])
    else
      match f(xs[0])
      case Err(e) => Err(e)
      case Ok(b) =>
        match Traverse(xs[1..], f)
        case Err(e) =>
          assert forall j :: 1 <= j < |xs| ==> xs[j] == xs[1..][j - 1];
          Err(e)
        case Ok(bs) =>
          assert forall j :: 1 <= j < |xs| ==> xs[j] == xs[1..][j - 1];
          Ok([b] + bs)
  }

  /** The distinct values of `xs` in order of first appearance (`Series.unique()`). */
  function Distinct<T(==)>(xs: seq<T>): (r: seq<T>)
    ensures forall i :: 0 <= i < |r| ==> r[i] in xs
    ensures forall i :: 0 <= i < |xs| ==> xs[i] in r
    ensures NoDuplicates(r)
    ensures |r| <= |xs|
  {
    if |xs| == 0 then []
    else
      assert xs == Init(xs) + [Last(xs)];
      var d := Distinct(Init(xs));
      if Last(xs) in d then d else d + [Last(xs)]
  }

  /** The position of the first occurrence of `x` in `xs`. */
  function FirstIndex<T(==)>(xs: seq<T>, x: T): (k: nat)
    requires x in xs
    ensures k < |xs| && xs[k] == x && x !in xs[..k]
  {
    assert xs == Init(xs) + [Last(xs)];
    if x in Init(xs) then
      var k := FirstIndex(Init(xs), x);
      assert xs[..k] == Init(xs)[..k];
      k
    else
      |xs| - 1
  }

  /** `unique()` lists the values in the order in which each first appears. */
  lemma {:induction false} DistinctOrder<T>(xs: seq<T>)
    ensures forall i, j :: 0 <= i < j < |Distinct(xs)| ==>
              FirstIndex(xs, Distinct(xs)[i]) < FirstIndex(xs, Distinct(xs)[j])
  {
    if |xs| > 0 {
      var init := Init(xs);
      var d := Distinct(init);
      DistinctOrder(init);
      assert xs == init + [Last(xs)];
      forall y | y in init ensures FirstIndex(xs, y) == FirstIndex(init, y) {
      }
      var r := Distinct(xs);
      if Last(xs) !in d {
        assert Last(xs) !in init;
        assert r == d + [Last(xs)];
        assert FirstIndex(xs, Last(xs)) == |xs| - 1;
        forall i, j | 0 <= i < j < |r| ensures FirstIndex(xs, r[i]) < FirstIndex(xs, r[j]) {
          assert r[i] == d[i] && d[i] in init;
          assert FirstIndex(xs, d[i]) == FirstIndex(init, d[i]) < |init|;
          if j < |d| {
            assert r[j] == d[j] && d[j] in init;
            assert FirstIndex(xs, d[j]) == FirstIndex(init, d[j]);
            assert FirstIndex(init, d[i]) < FirstIndex(init, d[j]);
          } else {
            assert r[j] == Last(xs);
          }
        }
      }
    }
  }

  lemma {:induction false} NoDuplicatesCount<T>(s: seq<T>, x: T)
    requires NoDuplicates(s)
    ensures multiset(s)[x] <= 1
  {
    if |s| > 0 {
      assert s == Init(s) + [Last(s)];
      NoDuplicatesCount(Init(s), x);
      if x == Last(s) {
        assert x !in Init(s);
        assert multiset(Init(s))[x] == 0;
      }
    }
  }

  lemma RepeatCount<T>(s: seq<T>, i: nat, j: nat)
    requires i < j < |s| && s[i] == s[j]
    ensures multiset(s)[s[i]] >= 2
  {
    assert s == s[..i] + [s[i]] + s[i + 1..j] + [s[j]] + s[j + 1..];
  }

  /** Reordering a duplicate-free sequence leaves it duplicate-free. */
  lemma PermutationKeepsDistinct<T>(a: seq<T>, b: seq<T>)
    requires NoDuplicates(a) && multiset(a) == multiset(b)
    ensures NoDuplicates(b)
  {
    forall i, j | 0 <= i < j < |b|
      ensures b[i] != b[j]
    {
      if b[i] == b[j] {
        RepeatCount(b, i, j);
        NoDuplicatesCount(a, b[i]);
        assert false;
      }
    }
  }

  function Least(xs: seq<int>): (m: int)
    requires |xs| > 0
    ensures m in xs
    ensures forall i :: 0 <= i < |xs| ==> m <= xs[i]
  {
    if |xs| == 1 then xs[0]
    else
      var m := Least(Init(xs));
      assert xs == Init(xs) + [Last(xs)];
      if Last(xs) < m then Last(xs) else m
  }

  function Greatest(xs: seq<int>): (m: int)
    requires |xs| > 0
    ensures m in xs
    ensures forall i :: 0 <= i < |xs| ==> xs[i] <= m
  {
    if |xs| == 1 then xs[0]
    else
      var m := Greatest(Init(xs));
      assert xs == Init(xs) + [Last(xs)];
      if Last(xs) > m then Last(xs) else m
  }
}

=== FILE: soil.dfy ===
/** soil_moisture_analysis.py: the drop of incomplete readings, the timestamps, the
    `ID_LOC` merge with the sensor locations, the decimal-comma conversions, days since the
    first reading, the mean per day, the top and bottom 10 % selections, and the daily
    moisture/temperature table. */
module SoilMoisture {
  import opened Wrappers
  import opened Seqs
  import opened Calendar
  import opened TimeParse
  import opened Decimal
  import opened Stats
  import opened Grouping
  import opened Orders
  import opened Join
  import opened Records

  /** A sensor location of the shapefile: its `ID_LOC` and point geometry. */
  datatype GeoPoint = GeoPoint(idLoc: int, x: real, y: real)

  // ----- Line 18: drop readings missing a critical cell -----

  predicate Complete(r: SoilRaw) {
    r.moisture.Some? && r.measDate.Some? && r.measTime.Some?
  }

  /** `dropna(subset=['Volumetric soil moisture', 'MEAS_DATE', 'MEAS_TIME'])`. */
  function DropIncomplete(txt: seq<SoilRaw>): (r: seq<SoilRaw>)
    ensures forall i :: 0 <= i < |r| ==> Complete(r[i]) && r[i] in txt
    ensures forall j :: 0 <= j < |txt| && Complete(txt[j]) ==> txt[j] in r
  {
    Filter(txt, Complete)
  }

  // ----- Lines 21-26: timestamps -----

  /** A reading with its parsed `datetime` column. */
  datatype Timed = Timed(row: SoilRaw, when: Timestamp)

  function Stamp(r: SoilRaw): Result<Timed, ParseError> {
    match ParseDateTime(CellText(r.measDate), CellText(r.measTime))
    case Err(e) => Err(e)
    case Ok(t) => Ok(Timed(r, t))
  }

  /** `to_datetime(MEAS_DATE + ' ' + MEAS_TIME)` over the complete readings: the first that
      does not parse raises. */
  function TimeRows(rows: seq<SoilRaw>): (r: Result<seq<Timed>, ParseError>)
    ensures r.Ok? <==> forall i :: 0 <= i < |rows| ==> ParseDateTime(CellText(rows[i].measDate), CellText(rows[i].measTime)).Ok?
    ensures r.Ok? ==> |r.value| == |rows| && forall i :: 0 <= i < |rows| ==> r.value[i] == Stamp(rows[i]).value
    ensures r.Ok? ==> forall i :: 0 <= i < |rows| ==> r.value[i].row == rows[i] && Representable(r.value[i].when)
  {
    Traverse(rows, Stamp)
  }

  /** Every stamped reading keeps its row and carries the timestamp its cells convert to,
      one pandas can hold and whose own renderings convert back to it; cells already
      zero-padded, with seconds below 60, are exactly those renderings. */
  lemma TimeRowsRoundTrip(rows: seq<SoilRaw>, i: nat)
    requires TimeRows(rows).Ok? && i < |rows|
    ensures var t := TimeRows(rows).value[i];
            && t.row == rows[i]
            && Representable(t.when)
            && ParseDateTime(CellText(rows[i].measDate), CellText(rows[i].measTime)) == Ok(t.when)
            && ParseDateTime(RenderDate(t.when.date), RenderTime(t.when.time)) == Ok(t.when)
    ensures var t := TimeRows(rows).value[i];
            var date, time := CellText(rows[i].measDate), CellText(rows[i].measTime);
            EightDigits(date) && TimeShape(time) && TimeFields(time).second < 60
            ==> date == RenderDate(t.when.date) && time == RenderTime(t.when.time)
  {
    var t := TimeRows(rows).value[i];
    var date, time := CellText(rows[i].measDate), CellText(rows[i].measTime);
    ParseRenderedTimestamp(t.when);
    if EightDigits(date) && TimeShape(time) {
      FixedCellsRender(date, time);
    }
  }

  // ----- Lines 33 and 115: the merge on ID_LOC -----

  function GeoKey(g: GeoPoint): int {
    g.idLoc
  }

  function TimedKey(t: Timed): int {
    t.row.idLoc
  }

  /** `geo.merge(txt, on="ID_LOC")`: an inner join, in the order of the location table. */
  function Merge(geo: seq<GeoPoint>, timed: seq<Timed>): (m: seq<(GeoPoint, Timed)>)
    ensures forall i :: 0 <= i < |m| ==> m[i].0.idLoc == m[i].1.row.idLoc
    ensures forall i :: 0 <= i < |m| ==> m[i].0 in geo && m[i].1 in timed
  {
    InnerJoin(geo, timed, GeoKey, TimedKey)
  }

  /** Each (location, reading) pair with equal `ID_LOC` occurs as often as the product of
      the two rows' multiplicities; an identifier present on one side only vanishes. */
  lemma MergePairs(geo: seq<GeoPoint>, timed: seq<Timed>, g: GeoPoint, t: Timed)
    ensures multiset(Merge(geo, timed))[(g, t)]
         == if g.idLoc == t.row.idLoc then multiset(geo)[g] * multiset(timed)[t] else 0
  {
    JoinMultiplicity(geo, timed, GeoKey, TimedKey, g, t);
  }

  /** The merged table has as many rows as there are matching pairs: per shared identifier,
      the product of its counts on the two sides. */
  lemma MergeSize(geo: seq<GeoPoint>, timed: seq<Timed>)
    ensures var ka := KeyColumn(geo, GeoKey);
            |Merge(geo, timed)| == PairsPerKey(Distinct(ka), ka, KeyColumn(timed, TimedKey))
  {
    JoinSize(geo, timed, GeoKey, TimedKey);
  }

  // ----- Line 36 (and 120): strict decimal-comma conversion of moisture -----

  /** A merged reading with its moisture as a number. */
  datatype Reading = Reading(geo: GeoPoint, row: SoilRaw, when: Timestamp, moisture: real)

  function Convert(m: (GeoPoint, Timed)): Result<Reading, ConversionError> {
    match StrictCommaDecimal(CellText(m.1.row.moisture))
    case Err(e) => Err(e)
    case Ok(v) => Ok(Reading(m.0, m.1.row, m.1.when, v))
  }

  /** `.str.replace(',', '.').astype(float)` over the merged moisture column: one text that
      is not a number, with either separator, makes the script fail. */
  function ConvertMoisture(merged: seq<(GeoPoint, Timed)>): (r: Result<seq<Reading>, ConversionError>)
    ensures r.Ok? <==> forall i :: 0 <= i < |merged| ==> StrictCommaDecimal(CellText(merged[i].1.row.moisture)).Ok?
    ensures r.Ok? ==> |r.value| == |merged| && forall i :: 0 <= i < |merged| ==> r.value[i] == Convert(merged[i]).value
  {
    Traverse(merged, Convert)
  }

  /** A failed conversion reports the comma-replaced text of a merged moisture cell that is
      not a number, the first one (returned as `n`). */
  lemma ConversionFailureAt(merged: seq<(GeoPoint, Timed)>) returns (n: nat)
    requires ConvertMoisture(merged).Err?
    ensures n < |merged| && ConvertMoisture(merged).error == NotANumber(ReplaceCommas(CellText(merged[n].1.row.moisture)))
    ensures StrictCommaDecimal(CellText(merged[n].1.row.moisture)).Err?
    ensures forall i :: 0 <= i < n ==> StrictCommaDecimal(CellText(merged[i].1.row.moisture)).Ok?
  {
    var e := ConvertMoisture(merged).error;
    n :| 0 <= n < |merged| && Convert(merged[n]) == Err(e) && forall j :: 0 <= j < n ==> Convert(merged[j]).Ok?;
  }

  /** Each converted reading is its merged pair with the moisture text read as a number,
      the comma standing for the decimal point. */
  lemma ConvertedReading(merged: seq<(GeoPoint, Timed)>, i: nat)
    requires ConvertMoisture(merged).Ok? && i < |merged|
    ensures var r := ConvertMoisture(merged).value[i];
            && r.geo == merged[i].0 && r.row == merged[i].1.row && r.when == merged[i].1.when
            && Some(r.moisture) == CoerceCommaDecimal(merged[i].1.row.moisture)
  {
    var m := merged[i];
    assert m.1.row.moisture.Some? ==> CellText(m.1.row.moisture) == m.1.row.moisture.value;
  }

  /** The numeric moisture column of the merged table. */
  function Moistures(rs: seq<Reading>): (ms: seq<real>)
    ensures |ms| == |rs| && forall i :: 0 <= i < |rs| ==> ms[i] == rs[i].moisture
  {
    seq(|rs|, i requires 0 <= i < |rs| => rs[i].moisture)
  }

  /** The `datetime` column of the merged table. */
  function Whens(rs: seq<Reading>): (ws: seq<Timestamp>)
    ensures |ws| == |rs| && forall i :: 0 <= i < |rs| ==> ws[i] == rs[i].when
  {
    seq(|rs|, i requires 0 <= i < |rs| => rs[i].when)
  }

  /** Every merged reading carries one of the parsed timestamps, so all of them are
      timestamps pandas can hold. */
  lemma MergedStampsRepresentable(geo: seq<GeoPoint>, timed: seq<Timed>, rs: seq<Reading>)
    requires forall i :: 0 <= i < |timed| ==> Representable(timed[i].when)
    requires ConvertMoisture(Merge(geo, timed)) == Ok(rs)
    ensures forall i :: 0 <= i < |rs| ==> Representable(rs[i].when)
  {
    var m := Merge(geo, timed);
    forall i | 0 <= i < |rs|
      ensures Representable(rs[i].when)
    {
      assert rs[i].when == m[i].1.when;
      assert m[i].1 in timed;
    }
  }

  // ----- Lines 42 and 55: days since the first reading -----

  predicate AllValid(when: seq<Timestamp>) {
    forall i :: 0 <= i < |when| ==> ValidTimestamp(when[i])
  }

  function SecondsOf(when: seq<Timestamp>): (s: seq<int>)
    requires AllValid(when)
    ensures |s| == |when| && forall i :: 0 <= i < |when| ==> s[i] == Seconds(when[i])
  {
    seq(|when|, i requires 0 <= i < |when| => Seconds(when[i]))
  }

  /** `(datetime - datetime.min()).dt.days`: the whole days (rounded down) elapsed between
      the earliest timestamp and each one. */
  function DaysSinceStart(when: seq<Timestamp>): (days: seq<int>)
    requires AllValid(when)
    ensures |days| == |when|
    ensures forall i :: 0 <= i < |days| ==> days[i] >= 0
  {
    if |when| == 0 then []
    else
      var s := SecondsOf(when);
      var start := Least(s);
      seq(|when|, i requires 0 <= i < |when| => (s[i] - start) / 86400)
  }

  /** The start is an earliest reading, which is at day 0, and every other reading is at the
      number of complete 24-hour periods since it. */
  lemma StartIsEarliest(when: seq<Timestamp>) returns (e: nat)
    requires AllValid(when) && |when| > 0
    ensures e < |when| && DaysSinceStart(when)[e] == 0
    ensures forall j :: 0 <= j < |when| ==> !Before(when[j], when[e])
    ensures forall i :: 0 <= i < |when| ==>
              var d, elapsed := DaysSinceStart(when)[i], Seconds(when[i]) - Seconds(when[e]);
              d * 86400 <= elapsed < (d + 1) * 86400
  {
    var s := SecondsOf(when);
    var start := Least(s);
    e :| 0 <= e < |s| && s[e] == start;
    forall j | 0 <= j < |when|
      ensures !Before(when[j], when[e])
    {
      SecondsOrder(when[j], when[e]);
    }
  }

  /** Day numbers follow the clock: a later reading is never on an earlier day, and a
      reading on a later day is strictly later. */
  lemma DaysFollowTime(when: seq<Timestamp>, i: nat, j: nat)
    requires AllValid(when) && i < |when| && j < |when|
    ensures Before(when[i], when[j]) ==> DaysSinceStart(when)[i] <= DaysSinceStart(when)[j]
    ensures DaysSinceStart(when)[i] < DaysSinceStart(when)[j] ==> Before(when[i], when[j])
  {
    SecondsOrder(when[i], when[j]);
    var s := SecondsOf(when);
    var start := Least(s);
    assert DaysSinceStart(when)[i] == (s[i] - start) / 86400;
    assert DaysSinceStart(when)[j] == (s[j] - start) / 86400;
  }

  // ----- Line 57: mean moisture per day -----

  function Keyed<K>(keys: seq<K>, values: seq<real>): (rows: seq<(K, Option<real>)>)
    requires |keys| == |values|
    ensures |rows| == |keys| && forall i :: 0 <= i < |keys| ==> rows[i] == (keys[i], Some(values[i]))
  {
    seq(|keys|, i requires 0 <= i < |keys| => (keys[i], Some(values[i])))
  }

  /** `groupby('days_since_start')[moisture].mean()`: days ascending. */
  function MeanByDay(days: seq<int>, moisture: seq<real>): (r: seq<(int, Option<real>)>)
    requires |days| == |moisture|
    ensures forall i, j :: 0 <= i < j < |r| ==> r[i].0 < r[j].0
  {
    IntLeIsTotalOrder();
    SortedGroupMean(Keyed(days, moisture), IntLe)
  }

  /** A day has an entry exactly when some reading falls on it, and the entry is the mean of
      that day's readings, which is never missing. */
  lemma MeanByDayExact(days: seq<int>, moisture: seq<real>, d: int, v: Option<real>)
    requires |days| == |moisture|
    ensures (d, v) in MeanByDay(days, moisture)
        <==> (exists j :: 0 <= j < |days| && days[j] == d) && v == MeanPresent(ValuesFor(Keyed(days, moisture), d))
    ensures (d, v) in MeanByDay(days, moisture) ==> v.Some?
  {
    var rows := Keyed(days, moisture);
    IntLeIsTotalOrder();
    SortedGroupMeanExact(rows, IntLe, d, v);
    if (d, v) in MeanByDay(days, moisture) {
      var j :| 0 <= j < |days| && days[j] == d;
      ValuesForMembers(rows, d);
      assert rows[j].1 in ValuesFor(rows, d);
    }
  }

  /** Each day's mean lies within any bounds of the moisture readings. */
  lemma MeanByDayWithin(days: seq<int>, moisture: seq<real>, lo: real, hi: real, i: nat)
    requires |days| == |moisture| && i < |MeanByDay(days, moisture)|
    requires forall j :: 0 <= j < |moisture| ==> lo <= moisture[j] <= hi
    ensures var v := MeanByDay(days, moisture)[i].1; v.Some? && lo <= v.value <= hi
  {
    var rows := Keyed(days, moisture);
    var e := MeanByDay(days, moisture)[i];
    MeanByDayExact(days, moisture, e.0, e.1);
    var vs := ValuesFor(rows, e.0);
    ValuesForMembers(rows, e.0);
    forall t | 0 <= t < |vs| && vs[t].Some?
      ensures lo <= vs[t].value <= hi
    {
      var j :| 0 <= j < |rows| && rows[j] == (e.0, vs[t]);
    }
    MeanPresentBetween(vs, lo, hi);
  }

  // ----- Lines 65-68: the top and bottom 10 % -----

  predicate Exceeds(x: real, q: Option<real>) {
    q.Some? && x > q.value
  }

  predicate Undercuts(x: real, q: Option<real>) {
    q.Some? && x < q.value
  }

  /** The readings strictly above the 0.9 quantile of the moisture column. */
  function HighMoisture(rs: seq<Reading>): (h: seq<Reading>)
    ensures forall i :: 0 <= i < |h| ==> h[i] in rs && Exceeds(h[i].moisture, Quantile(Moistures(rs), 0.9))
    ensures forall j :: 0 <= j < |rs| && Exceeds(rs[j].moisture, Quantile(Moistures(rs), 0.9)) ==> rs[j] in h
  {
    var q := Quantile(Moistures(rs), 0.9);
    Filter(rs, (r: Reading) => Exceeds(r.moisture, q))
  }

  /** The readings strictly below the 0.1 quantile of the moisture column. */
  function LowMoisture(rs: seq<Reading>): (l: seq<Reading>)
    ensures forall i :: 0 <= i < |l| ==> l[i] in rs && Undercuts(l[i].moisture, Quantile(Moistures(rs), 0.1))
    ensures forall j :: 0 <= j < |rs| && Undercuts(rs[j].moisture, Quantile(Moistures(rs), 0.1)) ==> rs[j] in l
  {
    var q := Quantile(Moistures(rs), 0.1);
    Filter(rs, (r: Reading) => Undercuts(r.moisture, q))
  }

  function SitePlots(rs: seq<Reading>): (ps: seq<string>)
    ensures |ps| == |rs| && forall i :: 0 <= i < |rs| ==> ps[i] == rs[i].row.sitePlot
  {
    seq(|rs|, i requires 0 <= i < |rs| => rs[i].row.sitePlot)
  }

  /** `high_moisture['SITE_PLOT'].unique()`. */
  function HighPlots(rs: seq<Reading>): (ps: seq<string>)
    ensures NoDuplicates(ps)
  {
    Distinct(SitePlots(HighMoisture(rs)))
  }

  /** `low_moisture['SITE_PLOT'].unique()`. */
  function LowPlots(rs: seq<Reading>): (ps: seq<string>)
    ensures NoDuplicates(ps)
  {
    Distinct(SitePlots(LowMoisture(rs)))
  }

  /** Both plot lists follow `unique()`'s order: a plot listed earlier first appears in its
      selection before a plot listed later. */
  lemma PlotsInFirstAppearanceOrder(rs: seq<Reading>)
    ensures var hs, ps := SitePlots(HighMoisture(rs)), HighPlots(rs);
            forall i, j :: 0 <= i < j < |ps| ==> FirstIndex(hs, ps[i]) < FirstIndex(hs, ps[j])
    ensures var ls, ps := SitePlots(LowMoisture(rs)), LowPlots(rs);
            forall i, j :: 0 <= i < j < |ps| ==> FirstIndex(ls, ps[i]) < FirstIndex(ls, ps[j])
  {
    DistinctOrder(SitePlots(HighMoisture(rs)));
    DistinctOrder(SitePlots(LowMoisture(rs)));
  }

  /** Every reading of the top selection is wetter than every reading of the bottom one, so
      no reading is in both. */
  lemma HighAboveLow(rs: seq<Reading>, i: nat, j: nat)
    requires i < |HighMoisture(rs)| && j < |LowMoisture(rs)|
    ensures HighMoisture(rs)[i].moisture > LowMoisture(rs)[j].moisture
  {
    QuantileMonotone(Moistures(rs), 0.1, 0.9);
  }

  /** A plot is listed as wet exactly when one of its readings is above the 0.9 quantile:
      each listed plot has such a reading (returned as `j`). */
  lemma HighPlotHasReading(rs: seq<Reading>, i: nat) returns (j: nat)
    requires i < |HighPlots(rs)|
    ensures j < |rs| && rs[j].row.sitePlot == HighPlots(rs)[i]
    ensures Exceeds(rs[j].moisture, Quantile(Moistures(rs), 0.9))
  {
    var h := HighMoisture(rs);
    var ps := SitePlots(h);
    assert HighPlots(rs)[i] in ps;
    var k :| 0 <= k < |ps| && ps[k] == HighPlots(rs)[i];
    assert h[k] in rs;
    j :| 0 <= j < |rs| && rs[j] == h[k];
  }

  /** ... and the plot of every reading above the 0.9 quantile is listed. */
  lemma HighReadingListed(rs: seq<Reading>, j: nat)
    requires j < |rs| && Exceeds(rs[j].moisture, Quantile(Moistures(rs), 0.9))
    ensures rs[j].row.sitePlot in HighPlots(rs)
  {
    var h := HighMoisture(rs);
    var k :| 0 <= k < |h| && h[k] == rs[j];
    assert SitePlots(h)[k] == rs[j].row.sitePlot;
  }

  /** A plot is listed as dry exactly when one of its readings is below the 0.1 quantile. */
  lemma LowPlotHasReading(rs: seq<Reading>, i: nat) returns (j: nat)
    requires i < |LowPlots(rs)|
    ensures j < |rs| && rs[j].row.sitePlot == LowPlots(rs)[i]
    ensures Undercuts(rs[j].moisture, Quantile(Moistures(rs), 0.1))
  {
    var l := LowMoisture(rs);
    var ps := SitePlots(l);
    assert LowPlots(rs)[i] in ps;
    var k :| 0 <= k < |ps| && ps[k] == LowPlots(rs)[i];
    assert l[k] in rs;
    j :| 0 <= j < |rs| && rs[j] == l[k];
  }

  lemma LowReadingListed(rs: seq<Reading>, j: nat)
    requires j < |rs| && Undercuts(rs[j].moisture, Quantile(Moistures(rs), 0.1))
    ensures rs[j].row.sitePlot in LowPlots(rs)
  {
    var l := LowMoisture(rs);
    var k :| 0 <= k < |l| && l[k] == rs[j];
    assert SitePlots(l)[k] == rs[j].row.sitePlot;
  }

  /** When every reading has the same moisture, both quantiles equal it and neither
      selection lists any plot. */
  lemma UniformMoistureSelectsNothing(rs: seq<Reading>, c: real)
    requires forall j :: 0 <= j < |rs| ==> rs[j].moisture == c
    ensures HighPlots(rs) == [] && LowPlots(rs) == []
  {
    var ms := Moistures(rs);
    if |rs| > 0 {
      assert Min(ms) == c && Max(ms) == c by {
        assert Min(ms) in ms && Max(ms) in ms;
      }
    }
  }

  // ----- Lines 147-148: soil temperature -----

  /** `pd.to_numeric(temperature.str.replace(',', '.'), errors='coerce')`: missing when the
      cell is empty or not a number. */
  function Temperature(r: Reading): (t: Option<real>)
    ensures t.Some? ==> r.row.temperature.Some?
    ensures r.row.temperature.Some? && ',' !in r.row.temperature.value ==> t == CoerceNumeric(r.row.temperature)
  {
    CoerceCommaDecimal(r.row.temperature)
  }

  /** `dropna(subset=[moisture, temperature])` after the coercion; the moisture is never
      missing by then, so the readings whose temperature converts, in order. */
  function WithTemperature(rs: seq<Reading>): (r: seq<Reading>)
    ensures forall i :: 0 <= i < |r| ==> r[i] in rs && Temperature(r[i]).Some?
    ensures forall j :: 0 <= j < |rs| && Temperature(rs[j]).Some? ==> rs[j] in r
  {
    Filter(rs, (r: Reading) => Temperature(r).Some?)
  }

  // ----- Lines 151-154: daily moisture and temperature -----

  /** One row of `daily_data`: the `MEAS_DATE` text and the two means of that date. */
  datatype DailyEntry = DailyEntry(date: string, moisture: Option<real>, temperature: Option<real>)

  function DateText(r: Reading): string {
    CellText(r.row.measDate)
  }

  function DatesOf(rs: seq<Reading>): (ds: seq<string>)
    ensures |ds| == |rs| && forall i :: 0 <= i < |rs| ==> ds[i] == DateText(rs[i])
  {
    seq(|rs|, i requires 0 <= i < |rs| => DateText(rs[i]))
  }

  function MoistureByDate(rs: seq<Reading>): (rows: seq<(string, Option<real>)>)
    ensures |rows| == |rs| && forall i :: 0 <= i < |rs| ==> rows[i] == (DateText(rs[i]), Some(rs[i].moisture))
  {
    seq(|rs|, i requires 0 <= i < |rs| => (DateText(rs[i]), Some(rs[i].moisture)))
  }

  function TemperatureByDate(rs: seq<Reading>): (rows: seq<(string, Option<real>)>)
    ensures |rows| == |rs| && forall i :: 0 <= i < |rs| ==> rows[i] == (DateText(rs[i]), Temperature(rs[i]))
  {
    seq(|rs|, i requires 0 <= i < |rs| => (DateText(rs[i]), Temperature(rs[i])))
  }

  function EntryDates(t: seq<DailyEntry>): (ds: seq<string>)
    ensures |ds| == |t| && forall i :: 0 <= i < |t| ==> ds[i] == t[i].date
  {
    seq(|t|, i requires 0 <= i < |t| => t[i].date)
  }

  /** `groupby('MEAS_DATE').agg({moisture: 'mean', temperature: 'mean'}).reset_index()`:
      one entry per date text, in ascending string order. */
  function DailyTable(rs: seq<Reading>): (t: seq<DailyEntry>)
    ensures forall i, j :: 0 <= i < j < |t| ==> StringLe(t[i].date, t[j].date) && t[i].date != t[j].date
    ensures forall i :: 0 <= i < |t| ==> t[i].date in DatesOf(rs)
    ensures forall j :: 0 <= j < |rs| ==> DateText(rs[j]) in EntryDates(t)
  {
    StringLeIsTotalOrder();
    var ks := SortedKeys(DatesOf(rs), StringLe);
    var t := seq(|ks|, i requires 0 <= i < |ks| => Entry(rs, ks[i]));
    assert EntryDates(t) == ks;
    assert forall j :: 0 <= j < |rs| ==> DateText(rs[j]) in ks by {
      forall j | 0 <= j < |rs|
        ensures DateText(rs[j]) in ks
      {
        assert DatesOf(rs)[j] in DatesOf(rs);
      }
    }
    t
  }

  /** The entry of date `k`: the means of the readings carrying that date text. */
  function Entry(rs: seq<Reading>, k: string): DailyEntry {
    DailyEntry(k, MeanPresent(ValuesFor(MoistureByDate(rs), k)), MeanPresent(ValuesFor(TemperatureByDate(rs), k)))
  }

  /** The entry of a date that occurs holds the mean moisture and the mean temperature of
      exactly the readings carrying that date text. */
  lemma DailyEntryMeans(rs: seq<Reading>, i: nat)
    requires i < |DailyTable(rs)|
    ensures var e := DailyTable(rs)[i];
            && e.moisture == MeanPresent(ValuesFor(MoistureByDate(rs), e.date))
            && e.temperature == MeanPresent(ValuesFor(TemperatureByDate(rs), e.date))
  {
    StringLeIsTotalOrder();
  }

  /** After the drop of line 148 every entry has both means, and each lies within any
      bounds of the values it averages. */
  lemma DailyMeansWithin(rs: seq<Reading>, i: nat, lo: real, hi: real, tlo: real, thi: real)
    requires i < |DailyTable(rs)|
    requires forall j :: 0 <= j < |rs| ==> Temperature(rs[j]).Some?
    requires forall j :: 0 <= j < |rs| ==> lo <= rs[j].moisture <= hi
    requires forall j :: 0 <= j < |rs| ==> tlo <= Temperature(rs[j]).value <= thi
    ensures var e := DailyTable(rs)[i];
            && e.moisture.Some? && lo <= e.moisture.value <= hi
            && e.temperature.Some? && tlo <= e.temperature.value <= thi
  {
    var e := DailyTable(rs)[i];
    DailyEntryMeans(rs, i);
    EntryWithin(rs, e.date, lo, hi, tlo, thi);
  }

  lemma EntryWithin(rs: seq<Reading>, d: string, lo: real, hi: real, tlo: real, thi: real)
    requires d in DatesOf(rs)
    requires forall j :: 0 <= j < |rs| ==> Temperature(rs[j]).Some?
    requires forall j :: 0 <= j < |rs| ==> lo <= rs[j].moisture <= hi
    requires forall j :: 0 <= j < |rs| ==> tlo <= Temperature(rs[j]).value <= thi
    ensures var e := Entry(rs, d);
            && e.moisture.Some? && lo <= e.moisture.value <= hi
            && e.temperature.Some? && tlo <= e.temperature.value <= thi
  {
    var j := DateWitness(rs, d);
    var mrows, trows := MoistureByDate(rs), TemperatureByDate(rs);
    GroupWithin(mrows, d, j, lo, hi);
    GroupWithin(trows, d, j, tlo, thi);
  }

  /** A row of each date listed in the table. */
  lemma DateWitness(rs: seq<Reading>, d: string) returns (j: nat)
    requires d in DatesOf(rs)
    ensures j < |rs| && DateText(rs[j]) == d
  {
    var ds := DatesOf(rs);
    j :| 0 <= j < |ds| && ds[j] == d;
  }

  /** The mean of one key's values is present when row `j` with that key has a value, and
      lies within any bounds of the present values. */
  lemma GroupWithin(rows: seq<(string, Option<real>)>, k: string, j: nat, lo: real, hi: real)
    requires j < |rows| && rows[j].0 == k && rows[j].1.Some?
    requires forall t :: 0 <= t < |rows| && rows[t].1.Some? ==> lo <= rows[t].1.value <= hi
    ensures var m := MeanPresent(ValuesFor(rows, k)); m.Some? && lo <= m.value <= hi
  {
    var vs := ValuesFor(rows, k);
    ValuesForMembers(rows, k);
    assert rows[j].1 in vs;
    forall t | 0 <= t < |vs| && vs[t].Some?
      ensures lo <= vs[t].value <= hi
    {
      var u :| 0 <= u < |rows| && rows[u] == (k, vs[t]);
    }
    MeanPresentBetween(vs, lo, hi);
  }

  // ----- Line 157: the date texts as dates -----

  function EntryDate(e: DailyEntry): Result<Date, ParseError> {
    ParseDate(e.date)
  }

  /** `pd.to_datetime(daily_data['MEAS_DATE'], format='%Y%m%d')`: every text converts or
      the first that does not raises; an eight-digit text converts to the date it renders. */
  function DailyDates(t: seq<DailyEntry>): (r: Result<seq<Date>, ParseError>)
    ensures r.Ok? <==> forall i :: 0 <= i < |t| ==> ParseDate(t[i].date).Ok?
    ensures r.Ok? ==> |r.value| == |t|
    ensures r.Ok? ==> forall i :: 0 <= i < |t| ==> r.value[i] == ParseDate(t[i].date).value && RepresentableDate(r.value[i])
    ensures r.Ok? ==> forall i :: 0 <= i < |t| && EightDigits(t[i].date) ==> RenderDate(r.value[i]) == t[i].date
  {
    var r := Traverse(t, EntryDate);
    assert r.Ok? ==> forall i :: 0 <= i < |t| && EightDigits(t[i].date) ==> RenderDate(r.value[i]) == t[i].date by {
      if r.Ok? {
        forall i | 0 <= i < |t| && EightDigits(t[i].date)
          ensures RenderDate(r.value[i]) == t[i].date
        {
          FixedDateRenders(t[i].date);
        }
      }
    }
    r
  }

  /** Sorting the date texts sorts the days when the texts are the fixed-width `YYYYMMDD`:
      two such days converted at line 157 are then strictly chronological. */
  lemma DailyDatesChronological(rs: seq<Reading>, i: nat, j: nat)
    requires DailyDates(DailyTable(rs)).Ok?
    requires i < j < |DailyTable(rs)|
    ensures EightDigits(DailyTable(rs)[i].date) && EightDigits(DailyTable(rs)[j].date)
            ==> DateBefore(DailyDates(DailyTable(rs)).value[i], DailyDates(DailyTable(rs)).value[j])
  {
    var t := DailyTable(rs);
    var ds := DailyDates(t).value;
    if EightDigits(t[i].date) && EightDigits(t[j].date) {
      FixedDateRenders(t[i].date);
      FixedDateRenders(t[j].date);
      RenderDateOrder(ds[i], ds[j]);
    }
  }

  /** Without the padding the text order is not the day order: `20210401` sorts before
      `2021315`, which is the earlier day. */
  lemma UnpaddedTextsOutOfOrder()
    ensures StringLe("20210401", "2021315") && "20210401" != "2021315"
    ensures ParseDate("20210401") == Ok(Date(2021, 4, 1)) && ParseDate("2021315") == Ok(Date(2021, 3, 15))
    ensures DateBefore(Date(2021, 3, 15), Date(2021, 4, 1))
  {
    UnpaddedMonth();
    PaddedDate();
  }

  // ----- The script from the two tables to its outputs -----

  datatype SoilError =
    | TimestampFailed(parse: ParseError)        // line 23
    | NotNumeric(conversion: ConversionError)   // line 36
    | DailyDateFailed(date: ParseError)         // line 157

  datatype SoilReport = SoilReport(
    readings: seq<Reading>,
    days: seq<int>,
    meanByDay: seq<(int, Option<real>)>,
    highPlots: seq<string>,
    lowPlots: seq<string>,
    daily: seq<DailyEntry>,
    dailyDates: seq<Date>)

  /** Lines 18-36: the complete readings, timestamped, merged with their locations, with
      the moisture as a number. */
  function MergedReadings(geo: seq<GeoPoint>, txt: seq<SoilRaw>): (r: Result<seq<Reading>, SoilError>)
    ensures r.Ok? ==> forall i :: 0 <= i < |r.value| ==> Representable(r.value[i].when)
    ensures r.Err? ==> r.error.TimestampFailed? || r.error.NotNumeric?
  {
    match TimeRows(DropIncomplete(txt))
    case Err(e) => Err(TimestampFailed(e))
    case Ok(timed) =>
      match ConvertMoisture(Merge(geo, timed))
      case Err(e) => Err(NotNumeric(e))
      case Ok(rs) =>
        MergedStampsRepresentable(geo, timed, rs);
        Ok(rs)
  }

  /** Lines 42-157 on the merged readings. */
  function Analyse(rs: seq<Reading>): (r: Result<SoilReport, SoilError>)
    requires forall i :: 0 <= i < |rs| ==> Representable(rs[i].when)
    ensures r.Err? ==> r.error.DailyDateFailed?
    ensures r.Ok? ==> r.value.readings == rs && |r.value.days| == |rs| && |r.value.dailyDates| == |r.value.daily|
  {
    assert AllValid(Whens(rs)) by {
      forall i | 0 <= i < |rs|
        ensures ValidTimestamp(Whens(rs)[i])
      {
        assert Representable(rs[i].when);
      }
    }
    var days := DaysSinceStart(Whens(rs));
    var table := DailyTable(WithTemperature(rs));
    match DailyDates(table)
    case Err(e) => Err(DailyDateFailed(e))
    case Ok(dates) =>
      Ok(SoilReport(rs, days, MeanByDay(days, Moistures(rs)), HighPlots(rs), LowPlots(rs), table, dates))
  }

  /** soil_moisture_analysis.py from the location table and the reading table: drop
      incomplete readings (line 18), parse timestamps (line 23), merge on `ID_LOC` (line 33),
      convert moisture (line 36), then days since start and the mean per day (lines 55-57),
      the wet and dry plots (lines 65-68), and the daily table (lines 147-157). */
  function SoilScript(geo: seq<GeoPoint>, txt: seq<SoilRaw>): (r: Result<SoilReport, SoilError>)
    ensures r.Err? && !r.error.DailyDateFailed? <==> MergedReadings(geo, txt).Err?
    ensures MergedReadings(geo, txt).Err? ==> r.error == MergedReadings(geo, txt).error
    ensures r.Ok? ==> MergedReadings(geo, txt) == Ok(r.value.readings) && |r.value.days| == |r.value.readings|
  {
    match MergedReadings(geo, txt)
    case Err(e) => Err(e)
    case Ok(rs) => Analyse(rs)
  }

  /** The index in `txt` of a row kept by the drop of line 18. */
  lemma KeptRow(txt: seq<SoilRaw>, k: nat) returns (j: nat)
    requires k < |DropIncomplete(txt)|
    ensures j < |txt| && txt[j] == DropIncomplete(txt)[k] && Complete(txt[j])
  {
    var kept := DropIncomplete(txt);
    assert kept[k] in txt;
    j :| 0 <= j < |txt| && txt[j] == kept[k];
  }

  /** A complete reading whose date and time do not parse stops the script at line 23,
      even when no location carries its `ID_LOC`: the parse precedes the merge. */
  lemma UnparsedReadingFails(geo: seq<GeoPoint>, txt: seq<SoilRaw>, j: nat)
    requires j < |txt| && Complete(txt[j])
    requires ParseDateTime(CellText(txt[j].measDate), CellText(txt[j].measTime)).Err?
    ensures MergedReadings(geo, txt).Err? && MergedReadings(geo, txt).error.TimestampFailed?
  {
    var kept := DropIncomplete(txt);
    assert txt[j] in kept;
    var k :| 0 <= k < |kept| && kept[k] == txt[j];
  }

  /** A timestamp failure names the parse error of a complete reading of `txt`. */
  lemma TimestampFailureRow(geo: seq<GeoPoint>, txt: seq<SoilRaw>) returns (j: nat)
    requires MergedReadings(geo, txt).Err? && MergedReadings(geo, txt).error.TimestampFailed?
    ensures j < |txt| && Complete(txt[j])
    ensures ParseDateTime(CellText(txt[j].measDate), CellText(txt[j].measTime)) == Err(MergedReadings(geo, txt).error.parse)
  {
    var kept := DropIncomplete(txt);
    var k :| 0 <= k < |kept| && Stamp(kept[k]) == Err(MergedReadings(geo, txt).error.parse);
    j := KeptRow(txt, k);
  }

  /** Once every complete reading parses, a reading whose moisture text is not a number
      stops the script at line 36 when a location carries its `ID_LOC`. */
  lemma MatchedBadMoistureFails(geo: seq<GeoPoint>, txt: seq<SoilRaw>, g: nat, j: nat)
    requires TimeRows(DropIncomplete(txt)).Ok?
    requires g < |geo| && j < |txt| && Complete(txt[j]) && geo[g].idLoc == txt[j].idLoc
    requires StrictCommaDecimal(CellText(txt[j].moisture)).Err?
    ensures MergedReadings(geo, txt).Err? && MergedReadings(geo, txt).error.NotNumeric?
  {
    var kept := DropIncomplete(txt);
    var timed := TimeRows(kept).value;
    var k := RowKept(txt, j);
    var n := MergedPairPresent(geo, timed, g, k);
    var m := Merge(geo, timed);
    assert !StrictCommaDecimal(CellText(m[n].1.row.moisture)).Ok?;
    assert ConvertMoisture(m).Err?;
  }

  /** The place in the kept rows of a complete row of `txt`. */
  lemma RowKept(txt: seq<SoilRaw>, j: nat) returns (k: nat)
    requires j < |txt| && Complete(txt[j])
    ensures k < |DropIncomplete(txt)| && DropIncomplete(txt)[k] == txt[j]
  {
    var kept := DropIncomplete(txt);
    assert txt[j] in kept;
    k :| 0 <= k < |kept| && kept[k] == txt[j];
  }

  /** A location and a timestamped reading with the same `ID_LOC` form a merged pair. */
  lemma MergedPairPresent(geo: seq<GeoPoint>, timed: seq<Timed>, g: nat, k: nat) returns (n: nat)
    requires g < |geo| && k < |timed| && geo[g].idLoc == timed[k].row.idLoc
    ensures n < |Merge(geo, timed)| && Merge(geo, timed)[n] == (geo[g], timed[k])
  {
    JoinKeepsMatches(geo, timed, GeoKey, TimedKey, geo[g], timed[k]);
    var m := Merge(geo, timed);
    n :| 0 <= n < |m| && m[n] == (geo[g], timed[k]);
  }

  /** ... and only such a reading can: a conversion failure names the comma-replaced moisture text of a
      complete reading whose `ID_LOC` a location carries. Readings without a location never
      reach the conversion. */
  lemma ConversionFailureRow(geo: seq<GeoPoint>, txt: seq<SoilRaw>) returns (g: nat, j: nat)
    requires MergedReadings(geo, txt).Err? && MergedReadings(geo, txt).error.NotNumeric?
    ensures g < |geo| && j < |txt| && Complete(txt[j]) && geo[g].idLoc == txt[j].idLoc
    ensures MergedReadings(geo, txt).error.conversion == NotANumber(ReplaceCommas(CellText(txt[j].moisture)))
    ensures StrictCommaDecimal(CellText(txt[j].moisture)).Err?
  {
    var kept := DropIncomplete(txt);
    var timed := TimeRows(kept).value;
    var m := Merge(geo, timed);
    assert MergedReadings(geo, txt).error == NotNumeric(ConvertMoisture(m).error);
    var n := ConversionFailureAt(m);
    var k;
    g, k := MergedPairOrigin(geo, timed, n);
    j := KeptRow(txt, k);
  }

  /** The location and the timestamped reading that make up a merged pair. */
  lemma MergedPairOrigin(geo: seq<GeoPoint>, timed: seq<Timed>, n: nat) returns (g: nat, k: nat)
    requires n < |Merge(geo, timed)|
    ensures var m := Merge(geo, timed)[n];
            g < |geo| && k < |timed| && geo[g] == m.0 && timed[k] == m.1 && geo[g].idLoc == timed[k].row.idLoc
  {
    var m := Merge(geo, timed);
    assert m[n].0 in geo && m[n].1 in timed;
    g :| 0 <= g < |geo| && geo[g] == m[n].0;
    k :| 0 <= k < |timed| && timed[k] == m[n].1;
  }

  /** The reading behind a merged reading: a complete row of `txt` whose date and time
      cells convert to its timestamp. */
  lemma ReadingRow(geo: seq<GeoPoint>, txt: seq<SoilRaw>, i: nat) returns (j: nat)
    requires MergedReadings(geo, txt).Ok? && i < |MergedReadings(geo, txt).value|
    ensures var r := MergedReadings(geo, txt).value[i];
            && j < |txt| && txt[j] == r.row && Complete(txt[j]) && Representable(r.when)
            && ParseDateTime(CellText(txt[j].measDate), CellText(txt[j].measTime)) == Ok(r.when)
  {
    var kept := DropIncomplete(txt);
    var timed := TimeRows(kept).value;
    var m := Merge(geo, timed);
    ConvertedReading(m, i);
    assert m[i].1 in timed;
    var k :| 0 <= k < |timed| && timed[k] == m[i].1;
    TimeRowsRoundTrip(kept, k);
    j := KeptRow(txt, k);
  }

  /** Readings whose timestamp is the one their date and time cells convert to. */
  predicate StampedFromCells(rs: seq<Reading>) {
    forall i :: 0 <= i < |rs| ==> ParseDateTime(DateText(rs[i]), CellText(rs[i].row.measTime)) == Ok(rs[i].when)
  }

  lemma MergedReadingsStamped(geo: seq<GeoPoint>, txt: seq<SoilRaw>)
    requires MergedReadings(geo, txt).Ok?
    ensures StampedFromCells(MergedReadings(geo, txt).value)
  {
    var rs := MergedReadings(geo, txt).value;
    forall i | 0 <= i < |rs|
      ensures ParseDateTime(DateText(rs[i]), CellText(rs[i].row.measTime)) == Ok(rs[i].when)
    {
      var j := ReadingRow(geo, txt, i);
    }
  }

  /** When the conversion of line 157 fails, some reading (returned as `i`) has a date text
      that `%Y%m%d` rejects although its row parsed at line 23; an eight-digit such text
      can only be "16770921", whose midnight precedes pandas' first timestamp. */
  lemma DailyDatesFailOnFirstDay(rs: seq<Reading>) returns (i: nat)
    requires StampedFromCells(rs) && DailyDates(DailyTable(WithTemperature(rs))).Err?
    ensures i < |rs| && ParseDate(DateText(rs[i])).Err?
    ensures EightDigits(DateText(rs[i])) ==> DateText(rs[i]) == "16770921"
  {
    var w := WithTemperature(rs);
    var t := DailyTable(w);
    var k :| 0 <= k < |t| && ParseDate(t[k].date).Err?;
    var u := DateWitness(w, t[k].date);
    assert w[u] in rs;
    i :| 0 <= i < |rs| && rs[i] == w[u];
    if EightDigits(DateText(rs[i])) {
      DateCellOfStamp(DateText(rs[i]), CellText(rs[i].row.measTime));
    }
  }

  /** The date texts of line 157 all converted at line 23 inside a timestamp, so none is
      a NaT text: on them `to_datetime` is the `%Y%m%d` format alone, as `DailyDates`
      models it. */
  lemma DailyTextsNotNat(rs: seq<Reading>, k: nat)
    requires StampedFromCells(rs) && k < |DailyTable(WithTemperature(rs))|
    ensures var d := DailyTable(WithTemperature(rs))[k].date;
            && !NatText(d)
            && (ConvertDate(d).Ok? <==> ParseDate(d).Ok?)
            && (ParseDate(d).Ok? ==> ConvertDate(d) == Ok(Some(ParseDate(d).value)))
  {
    var w := WithTemperature(rs);
    var t := DailyTable(w);
    var u := DateWitness(w, t[k].date);
    assert w[u] in rs;
    var i :| 0 <= i < |rs| && rs[i] == w[u];
    JoinedNotNat(DateText(rs[i]), CellText(rs[i].row.measTime));
    NatTextsRejected(t[k].date);
  }

  /** So the script stops at line 157 only for a complete reading whose date cell the
      timestamp format accepts and the date format rejects; with eight digits that cell
      is "16770921". */
  lemma DailyDateFailureDay(geo: seq<GeoPoint>, txt: seq<SoilRaw>) returns (j: nat)
    requires SoilScript(geo, txt).Err? && SoilScript(geo, txt).error.DailyDateFailed?
    ensures j < |txt| && Complete(txt[j])
    ensures ParseDateTime(CellText(txt[j].measDate), CellText(txt[j].measTime)).Ok?
    ensures ParseDate(CellText(txt[j].measDate)).Err?
    ensures EightDigits(CellText(txt[j].measDate)) ==> CellText(txt[j].measDate) == "16770921"
  {
    var rs := MergedReadings(geo, txt).value;
    assert SoilScript(geo, txt) == Analyse(rs);
    assert DailyDates(DailyTable(WithTemperature(rs))).Err?;
    MergedReadingsStamped(geo, txt);
    var i := DailyDatesFailOnFirstDay(rs);
    j := ReadingRow(geo, txt, i);
  }
}

=== FILE: stats.dfy ===
/** The descriptive statistics the scripts compute on numeric columns: NaN-skipping sums and
    means, extrema, and pandas' default (linear-interpolation) quantile. */
module Stats {
  import opened Wrappers
  import opened Seqs

  /** The non-missing values of a column, in order. */
  function Present(xs: seq<Option<real>>): (r: seq<real>)
    ensures |r| <= |xs|
  {
    if |xs| == 0 then []
    else Present(Init(xs)) + (match Last(xs) case None => [] case Some(v) => [v])
  }

  /** The present values are exactly the values of the non-missing cells. */
  lemma {:induction false} PresentMembers(xs: seq<Option<real>>)
    ensures forall i :: 0 <= i < |Present(xs)| ==> Some(Present(xs)[i]) in xs
    ensures forall i :: 0 <= i < |xs| && xs[i].Some? ==> xs[i].value in Present(xs)
  {
    if |xs| > 0 {
      PresentMembers(Init(xs));
      assert xs == Init(xs) + [Last(xs)];
    }
  }

  function Sum(xs: seq<real>): real {
    if |xs| == 0 then 0.0 else Sum(Init(xs)) + Last(xs)
  }

  /** The arithmetic mean; an empty column has no mean (NaN). */
  function Mean(xs: seq<real>): Option<real> {
    if |xs| == 0 then None else Some(Sum(xs) / |xs| as real)
  }

  /** `Series.mean()`: the mean of the non-missing values, missing when there are none. */
  function MeanPresent(xs: seq<Option<real>>): (r: Option<real>)
    ensures r.Some? <==> exists i :: 0 <= i < |xs| && xs[i].Some?
  {
    var p := Present(xs);
    PresentMembers(xs);
    Mean(p)
  }

  lemma {:induction false} SumBetween(xs: seq<real>, lo: real, hi: real)
    requires forall i :: 0 <= i < |xs| ==> lo <= xs[i] <= hi
    ensures |xs| as real * lo <= Sum(xs) <= |xs| as real * hi
  {
    if |xs| > 0 {
      SumBetween(Init(xs), lo, hi);
    }
  }

  /** A mean lies between any lower and upper bound of the values it averages. */
  lemma MeanBetween(xs: seq<real>, lo: real, hi: real)
    requires |xs| > 0
    requires forall i :: 0 <= i < |xs| ==> lo <= xs[i] <= hi
    ensures lo <= Mean(xs).value <= hi
  {
    SumBetween(xs, lo, hi);
    var n := |xs| as real;
    var m := Sum(xs) / n;
    assert m * n == Sum(xs);
    if m < lo {
      assert m * n < lo * n;
    }
    if m > hi {
      assert m * n > hi * n;
    }
  }

  /** The NaN-skipping mean lies between any bounds of the values present, and is missing
      only when every value is. */
  lemma MeanPresentBetween(xs: seq<Option<real>>, lo: real, hi: real)
    requires forall i :: 0 <= i < |xs| && xs[i].Some? ==> lo <= xs[i].value <= hi
    ensures MeanPresent(xs).Some? ==> lo <= MeanPresent(xs).value <= hi
  {
    var p := Present(xs);
    PresentMembers(xs);
    if |p| > 0 {
      forall i | 0 <= i < |p|
        ensures lo <= p[i] <= hi
      {
        assert Some(p[i]) in xs;
      }
      MeanBetween(p, lo, hi);
    }
  }

  /** Missing cells do not move the mean. */
  lemma MeanSkipsMissing(xs: seq<Option<real>>)
    ensures MeanPresent(xs + [None]) == MeanPresent(xs)
  {
    var ys := xs + [None];
    assert Init(ys) == xs && Last(ys) == None;
    assert Present(ys) == Present(xs);
  }

  /** Real-number order, as a function value for the generic sort. */
  function RealLe(a: real, b: real): bool {
    a <= b
  }

  ghost predicate TotalPreorder<T(!new)>(le: (T, T) -> bool) {
    && (forall a, b :: le(a, b) || le(b, a))
    && (forall a, b, c :: le(a, b) && le(b, c) ==> le(a, c))
  }

  /** A total preorder in which only equal values are related both ways. */
  ghost predicate TotalOrder<T(!new)>(le: (T, T) -> bool) {
    TotalPreorder(le) && forall a, b :: le(a, b) && le(b, a) ==> a == b
  }

  predicate SortedBy<T>(s: seq<T>, le: (T, T) -> bool) {
    forall i, j :: 0 <= i < j < |s| ==> le(s[i], s[j])
  }

  function InsertBy<T(!new)>(x: T, s: seq<T>, le: (T, T) -> bool): (r: seq<T>)
    requires TotalPreorder(le) && SortedBy(s, le)
    ensures SortedBy(r, le)
    ensures multiset(r) == multiset(s) + multiset{x}
    ensures |r| == |s| + 1
  {
    if |s| == 0 then [x]
    else if le(x, s[0]) then
      assert s == [s[0]] + s[1..];
      [x] + s
    else
      assert s == [s[0]] + s[1..];
      var rest := InsertBy(x, s[1..], le);
      assert forall k :: 0 <= k < |rest| ==> le(s[0], rest[k]) by {
        forall k | 0 <= k < |rest|
          ensures le(s[0], rest[k])
        {
          assert rest[k] in multiset(rest);
          if rest[k] != x {
            assert rest[k] in multiset(s[1..]);
            var j :| 0 <= j < |s[1..]| && s[1..][j] == rest[k];
            assert s[j + 1] == rest[k];
          }
        }
      }
      [s[0]] + rest
  }

  /** Insertion sort under a total preorder. */
  function SortBy<T(!new)>(s: seq<T>, le: (T, T) -> bool): (r: seq<T>)
    requires TotalPreorder(le)
    ensures SortedBy(r, le)
    ensures multiset(r) == multiset(s)
    ensures |r| == |s|
  {
    if |s| == 0 then []
    else
      assert s == [s[0]] + s[1..];
      InsertBy(s[0], SortBy(s[1..], le), le)
  }

  lemma RealLeIsTotalPreorder()
    ensures TotalPreorder(RealLe)
  {
  }

  /** The values in ascending order. */
  function SortReals(xs: seq<real>): (r: seq<real>)
    ensures multiset(r) == multiset(xs)
    ensures |r| == |xs|
    ensures Ascending(r)
  {
    RealLeIsTotalPreorder();
    var r := SortBy(xs, RealLe);
    assert forall i, j :: 0 <= i < j < |r| ==> RealLe(r[i], r[j]);
    r
  }

  function Max(xs: seq<real>): (m: real)
    requires |xs| > 0
    ensures m in xs
    ensures forall i :: 0 <= i < |xs| ==> xs[i] <= m
  {
    if |xs| == 1 then xs[0]
    else
      assert xs == Init(xs) + [Last(xs)];
      var m := Max(Init(xs));
      if Last(xs) > m then Last(xs) else m
  }

  function Min(xs: seq<real>): (m: real)
    requires |xs| > 0
    ensures m in xs
    ensures forall i :: 0 <= i < |xs| ==> m <= xs[i]
  {
    if |xs| == 1 then xs[0]
    else
      assert xs == Init(xs) + [Last(xs)];
      var m := Min(Init(xs));
      if Last(xs) < m then Last(xs) else m
  }

  /** The ends of the sorted values are the minimum and the maximum. */
  lemma SortedEnds(xs: seq<real>)
    requires |xs| > 0
    ensures var s := SortReals(xs); |s| == |xs| && s[0] == Min(xs) && s[|s| - 1] == Max(xs)
  {
    var s := SortReals(xs);
    var lo, hi := Min(xs), Max(xs);
    assert lo in multiset(xs) && hi in multiset(xs);
    assert lo in s && hi in s;
    assert s[0] in multiset(s) && s[|s| - 1] in multiset(s);
    assert s[0] in xs && s[|s| - 1] in xs;
  }

  lemma MulMonotone(a: real, b: real, d: real)
    requires a <= b && 0.0 <= d
    ensures a * d <= b * d
  {
    assert (b - a) * d >= 0.0;
  }

  lemma ScaleMonotone(n: real, p1: real, p2: real)
    requires 0.0 <= n && p1 <= p2
    ensures n * p1 <= n * p2
  {
    assert n * (p2 - p1) >= 0.0;
  }

  /** A position scaled by a probability stays within [0, n]. */
  lemma ScaleWithin(n: real, p: real)
    requires 0.0 <= n && 0.0 <= p <= 1.0
    ensures 0.0 <= n * p <= n
  {
    MulMonotone(0.0, p, n);
    MulMonotone(p, 1.0, n);
  }

  /** Linear interpolation between the sorted values at the fractional position `h`
      (numpy's and pandas' default 'linear' method). */
  function Interpolate(s: seq<real>, h: real): real
    requires |s| > 0 && 0.0 <= h <= (|s| - 1) as real
  {
    var i := h.Floor;
    if i + 1 < |s| then s[i] + (h - i as real) * (s[i + 1] - s[i]) else s[i]
  }

  predicate Ascending(s: seq<real>) {
    forall i, j :: 0 <= i < j < |s| ==> s[i] <= s[j]
  }

  lemma InterpolateBracket(s: seq<real>, h: real)
    requires |s| > 0 && 0.0 <= h <= (|s| - 1) as real && Ascending(s)
    ensures 0 <= h.Floor < |s| && s[h.Floor] <= Interpolate(s, h)
    ensures h.Floor + 1 < |s| ==> Interpolate(s, h) <= s[h.Floor + 1]
  {
    var i := h.Floor;
    assert i as real <= h < i as real + 1.0;
    if i + 1 < |s| {
      var t := h - i as real;
      var d := s[i + 1] - s[i];
      assert Interpolate(s, h) == s[i] + t * d;
      MulMonotone(0.0, t, d);
      MulMonotone(t, 1.0, d);
      assert s[i] + d == s[i + 1];
    }
  }

  /** Interpolated positions further along never give smaller values. */
  lemma InterpolateMonotone(s: seq<real>, h1: real, h2: real)
    requires |s| > 0 && 0.0 <= h1 <= h2 <= (|s| - 1) as real && Ascending(s)
    ensures Interpolate(s, h1) <= Interpolate(s, h2)
  {
    InterpolateBracket(s, h1);
    InterpolateBracket(s, h2);
    var i1 := h1.Floor;
    var i2 := h2.Floor;
    if i1 == i2 {
      if i1 + 1 < |s| {
        var d := s[i1 + 1] - s[i1];
        assert Interpolate(s, h1) == s[i1] + (h1 - i1 as real) * d;
        assert Interpolate(s, h2) == s[i1] + (h2 - i1 as real) * d;
        MulMonotone(h1 - i1 as real, h2 - i1 as real, d);
      }
    } else {
      assert i1 + 1 <= i2;
      assert s[i1 + 1] <= s[i2];
    }
  }

  /** The fractional index of the p-quantile among `count` sorted values. */
  function Position(count: nat, p: real): (h: real)
    requires count > 0 && 0.0 <= p <= 1.0
    ensures 0.0 <= h <= (count - 1) as real
  {
    ScaleWithin((count - 1) as real, p);
    (count - 1) as real * p
  }

  lemma PositionMonotone(count: nat, p1: real, p2: real)
    requires count > 0 && 0.0 <= p1 <= p2 <= 1.0
    ensures Position(count, p1) <= Position(count, p2)
  {
    ScaleMonotone((count - 1) as real, p1, p2);
  }

  /** `Series.quantile(p)` on the values given; missing when there are no values. */
  function Quantile(xs: seq<real>, p: real): (q: Option<real>)
    requires 0.0 <= p <= 1.0
    ensures q.None? <==> |xs| == 0
    ensures q.Some? ==> Min(xs) <= q.value <= Max(xs)
  {
    if |xs| == 0 then None
    else
      QuantileBetween(xs, Position(|xs|, p));
      Some(Interpolate(SortReals(xs), Position(|xs|, p)))
  }

  lemma QuantileBetween(xs: seq<real>, h: real)
    requires |xs| > 0 && 0.0 <= h <= (|xs| - 1) as real
    ensures Min(xs) <= Interpolate(SortReals(xs), h) <= Max(xs)
  {
    var s := SortReals(xs);
    SortedEnds(xs);
    InterpolateMonotone(s, 0.0, h);
    InterpolateMonotone(s, h, (|s| - 1) as real);
  }

  /** The quantile is monotone in the probability. */
  lemma QuantileMonotone(xs: seq<real>, p1: real, p2: real)
    requires 0.0 <= p1 <= p2 <= 1.0
    ensures Quantile(xs, p1).Some? ==> Quantile(xs, p1).value <= Quantile(xs, p2).value
  {
    if |xs| > 0 {
      PositionMonotone(|xs|, p1, p2);
      InterpolateMonotone(SortReals(xs), Position(|xs|, p1), Position(|xs|, p2));
    }
  }

  /** The 0- and 1-quantiles are the minimum and the maximum. */
  lemma QuantileEnds(xs: seq<real>)
    requires |xs| > 0
    ensures Quantile(xs, 0.0) == Some(Min(xs))
    ensures Quantile(xs, 1.0) == Some(Max(xs))
  {
    SortedEnds(xs);
    var s := SortReals(xs);
    var n := (|s| - 1) as real;
    assert Position(|xs|, 0.0) == 0.0;
    assert Position(|xs|, 1.0) == n;
    assert n.Floor == |s| - 1;
  }

  /** The NaN-skipping quantile `Series.quantile(p)` of a column with missing cells. */
  function QuantilePresent(xs: seq<Option<real>>, p: real): (q: Option<real>)
    requires 0.0 <= p <= 1.0
    ensures q.None? <==> forall i :: 0 <= i < |xs| ==> xs[i].None?
  {
    var v := Present(xs);
    PresentMembers(xs);
    Quantile(v, p)
  }

  /** A NaN-skipping quantile stays within any bounds that hold of every present value. */
  lemma QuantilePresentWithin(xs: seq<Option<real>>, p: real, lo: real, hi: real)
    requires 0.0 <= p <= 1.0
    requires forall i :: 0 <= i < |xs| && xs[i].Some? ==> lo <= xs[i].value <= hi
    ensures QuantilePresent(xs, p).Some? ==> lo <= QuantilePresent(xs, p).value <= hi
  {
    var v := Present(xs);
    PresentMembers(xs);
    if |v| > 0 {
      var a :| 0 <= a < |v| && v[a] == Min(v);
      var b :| 0 <= b < |v| && v[b] == Max(v);
      assert Some(v[a]) in xs;
      assert Some(v[b]) in xs;
    }
  }

  /** A NaN-skipping quantile never exceeds the column's maximum. */
  lemma QuantilePresentAtMostMax(xs: seq<Option<real>>, p: real)
    requires 0.0 <= p <= 1.0
    ensures QuantilePresent(xs, p).Some? ==> QuantilePresent(xs, p).value <= MaxPresent(xs).value
  {
    PresentMembers(xs);
  }

  /** The NaN-skipping quantile is monotone in the probability. */
  lemma QuantilePresentMonotone(xs: seq<Option<real>>, p1: real, p2: real)
    requires 0.0 <= p1 <= p2 <= 1.0
    ensures QuantilePresent(xs, p1).Some? ==> QuantilePresent(xs, p1).value <= QuantilePresent(xs, p2).value
  {
    QuantileMonotone(Present(xs), p1, p2);
  }

  /** `Series.max()`: the largest value present, missing when there is none. */
  function MaxPresent(xs: seq<Option<real>>): (m: Option<real>)
    ensures m.None? <==> forall i :: 0 <= i < |xs| ==> xs[i].None?
    ensures m.Some? ==> Some(m.value) in xs
    ensures m.Some? ==> forall i :: 0 <= i < |xs| && xs[i].Some? ==> xs[i].value <= m.value
  {
    var v := Present(xs);
    PresentMembers(xs);
    if |v| == 0 then None
    else
      var m := Max(v);
      assert forall i :: 0 <= i < |xs| && xs[i].Some? ==> xs[i].value in v;
      Some(m)
  }
}

=== FILE: timeparse.dfy ===
/** Parsing of the measurement files' date and time columns with the formats `%Y%m%d` and
    `%Y%m%d %H:%M:%S`. Pandas turns a format into a regular expression (each directive a
    list of alternatives, white space into `\s+`), takes the first match the regex engine
    finds at the start of the text, and rejects text left over after it. */
module TimeParse {
  import opened Wrappers
  import opened Calendar

  /** Why a value is rejected; pandas raises a ValueError (or OutOfBoundsDatetime) for each. */
  datatype ParseError =
    | FormatMismatch      // the text does not have the shape of the format
    | FieldOutOfRange     // shape fits, but e.g. month 13, 31 April or hour 24
    | OutOfBoundsDatetime // a real date outside the range a nanosecond timestamp can hold

  predicate IsDigit(c: char) {
    '0' <= c <= '9'
  }

  predicate AllDigits(s: string) {
    forall i :: 0 <= i < |s| ==> IsDigit(s[i])
  }

  function DigitValue(c: char): int
    requires IsDigit(c)
  {
    c as int - '0' as int
  }

  function DigitChar(n: int): (c: char)
    requires 0 <= n < 10
    ensures IsDigit(c) && DigitValue(c) == n
  {
    ('0' as int + n) as char
  }

  function Pow10(k: nat): (p: nat)
    ensures p >= 1
  {
    if k == 0 then 1 else 10 * Pow10(k - 1)
  }

  /** The value of a string of decimal digits (most significant first). */
  function ParseNat(s: string): nat
    requires AllDigits(s)
  {
    if |s| == 0 then 0 else ParseNat(s[..|s| - 1]) * 10 + DigitValue(s[|s| - 1])
  }

  /** `n` written with exactly `width` digits, zero-padded on the left. */
  function Render(n: nat, width: nat): (s: string)
    requires n < Pow10(width)
    ensures |s| == width && AllDigits(s)
  {
    if width == 0 then [] else Render(n / 10, width - 1) + [DigitChar(n % 10)]
  }

  lemma {:induction false} ParseRender(n: nat, width: nat)
    requires n < Pow10(width)
    ensures ParseNat(Render(n, width)) == n
  {
    if width > 0 {
      var s := Render(n, width);
      assert s[..|s| - 1] == Render(n / 10, width - 1);
      ParseRender(n / 10, width - 1);
    }
  }

  lemma {:induction false} RenderParse(s: string)
    requires AllDigits(s)
    ensures ParseNat(s) < Pow10(|s|)
    ensures Render(ParseNat(s), |s|) == s
  {
    if |s| > 0 {
      var init := s[..|s| - 1];
      RenderParse(init);
      var n := ParseNat(s);
      assert n / 10 == ParseNat(init) && n % 10 == DigitValue(s[|s| - 1]);
      assert s == init + [s[|s| - 1]];
    }
  }

  lemma Pow10Small()
    ensures Pow10(2) == 100 && Pow10(4) == 10000
  {
    assert Pow10(1) == 10;
    assert Pow10(3) == 1000;
  }

  /** The earliest and latest second a pandas (datetime64[ns]) timestamp can hold. */
  const EarliestTimestamp := Timestamp(Date(1677, 9, 21), Time(0, 12, 44))
  const LatestTimestamp := Timestamp(Date(2262, 4, 11), Time(23, 47, 16))

  predicate InTimestampRange(ts: Timestamp) {
    !Before(ts, EarliestTimestamp) && !Before(LatestTimestamp, ts)
  }

  /** A timestamp the parser can produce. */
  predicate Representable(ts: Timestamp) {
    ValidTimestamp(ts) && InTimestampRange(ts)
  }

  predicate RepresentableDate(d: Date) {
    Representable(Timestamp(d, Time(0, 0, 0)))
  }

  lemma RepresentableYears(ts: Timestamp)
    requires Representable(ts)
    ensures 1677 <= ts.date.year <= 2262
  {
  }

  function RenderDate(d: Date): (s: string)
    requires 0 <= d.year < 10000 && 1 <= d.month <= 12 && 1 <= d.day <= 31
    ensures |s| == 8 && AllDigits(s)
  {
    Render(d.year, 4) + Render(d.month, 2) + Render(d.day, 2)
  }

  function RenderTime(t: Time): (s: string)
    requires ValidTime(t)
    ensures |s| == 8
  {
    Render(t.hour, 2) + ":" + Render(t.minute, 2) + ":" + Render(t.second, 2)
  }

  function RenderTimestamp(ts: Timestamp): (s: string)
    requires Representable(ts)
    ensures |s| == 17
  {
    RenderDate(ts.date) + " " + RenderTime(ts.time)
  }

  // ----- The regular expression of the format -----

  /** What `\s` matches in a Python `str` pattern: the characters `str.isspace` accepts. */
  predicate IsSpace(c: char) {
    var n := c as int;
    || n == 0x20 || 0x09 <= n <= 0x0D || 0x1C <= n <= 0x1F || n == 0x85 || n == 0xA0
    || n == 0x1680 || 0x2000 <= n <= 0x200A || n == 0x2028 || n == 0x2029 || n == 0x202F
    || n == 0x205F || n == 0x3000
  }

  /** `s[i]` exists and lies between `lo` and `hi`. */
  predicate CharIn(s: string, i: nat, lo: char, hi: char) {
    i < |s| && lo <= s[i] <= hi
  }

  /** Python's `int()` of the captured text `s[i..i + n]`, read digit by digit. The one
      leading space `%d` admits reads as a zero; the regex captures no other character. */
  function Field(s: string, i: nat, n: nat): nat {
    if n == 0 || |s| < i + n then 0
    else 10 * Field(s, i, n - 1) + (if IsDigit(s[i + n - 1]) then DigitValue(s[i + n - 1]) else 0)
  }

  /** The value of a one- or two-character span. */
  lemma FieldDigits(s: string, i: nat)
    ensures i < |s| && IsDigit(s[i]) ==> Field(s, i, 1) == DigitValue(s[i])
    ensures i + 1 < |s| && IsDigit(s[i]) && IsDigit(s[i + 1])
            ==> Field(s, i, 2) == 10 * DigitValue(s[i]) + DigitValue(s[i + 1])
    ensures i + 1 < |s| && s[i] == ' ' && IsDigit(s[i + 1]) ==> Field(s, i, 2) == DigitValue(s[i + 1])
  {
  }

  /** A span holding the `w`-digit rendering of `n` reads as `n`. */
  lemma {:induction false} FieldRender(s: string, i: nat, n: nat, w: nat)
    requires n < Pow10(w) && i + w <= |s| && s[i..i + w] == Render(n, w)
    ensures Field(s, i, w) == n
  {
    if w > 0 {
      var r := Render(n, w);
      assert s[i..i + w - 1] == r[..w - 1] == Render(n / 10, w - 1);
      FieldRender(s, i, n / 10, w - 1);
      assert s[i + w - 1] == r[w - 1] == DigitChar(n % 10);
    }
  }

  /** A span of digits reads as a number that renders back to the span. */
  lemma {:induction false} RenderField(s: string, i: nat, w: nat)
    requires i + w <= |s| && AllDigits(s[i..i + w])
    ensures Field(s, i, w) < Pow10(w) && Render(Field(s, i, w), w) == s[i..i + w]
  {
    if w > 0 {
      var t := s[i..i + w];
      assert s[i..i + w - 1] == t[..w - 1];
      RenderField(s, i, w - 1);
      assert t[w - 1] == s[i + w - 1];
      var n := Field(s, i, w);
      assert n / 10 == Field(s, i, w - 1) && n % 10 == DigitValue(s[i + w - 1]);
      assert t == s[i..i + w - 1] + [s[i + w - 1]];
    }
  }

  // Each directive's alternation, as the lengths of the branches that match at `i`
  // listed in the order the regex engine tries them.

  /** `%Y` is `\d\d\d\d`. */
  function YearAlts(s: string, i: nat): seq<nat> {
    if CharIn(s, i, '0', '9') && CharIn(s, i + 1, '0', '9') && CharIn(s, i + 2, '0', '9')
       && CharIn(s, i + 3, '0', '9')
    then [4] else []
  }

  /** `%m` is `1[0-2]|0[1-9]|[1-9]`. */
  function MonthAlts(s: string, i: nat): seq<nat> {
    if CharIn(s, i, '1', '1') && CharIn(s, i + 1, '0', '2') then [2, 1]   // `1[0-2]`, then `[1-9]`
    else if CharIn(s, i, '0', '0') && CharIn(s, i + 1, '1', '9') then [2] // `0[1-9]`
    else if CharIn(s, i, '1', '9') then [1]                               // `[1-9]`
    else []
  }

  /** `%d` is `3[01]|[12]\d|0[1-9]|[1-9]| [1-9]`: a day may be padded with a space. */
  function DayAlts(s: string, i: nat): seq<nat> {
    if CharIn(s, i, '3', '3') && CharIn(s, i + 1, '0', '1') then [2, 1]   // `3[01]`, then `[1-9]`
    else if CharIn(s, i, '1', '2') && CharIn(s, i + 1, '0', '9') then [2, 1] // `[12]\d`, then `[1-9]`
    else if CharIn(s, i, '0', '0') && CharIn(s, i + 1, '1', '9') then [2] // `0[1-9]`
    else if CharIn(s, i, '1', '9') then [1]                               // `[1-9]`
    else if CharIn(s, i, ' ', ' ') && CharIn(s, i + 1, '1', '9') then [2] // ` [1-9]`
    else []
  }

  /** `%H` is `2[0-3]|[0-1]\d|\d`. */
  function HourAlts(s: string, i: nat): seq<nat> {
    if CharIn(s, i, '2', '2') && CharIn(s, i + 1, '0', '3') then [2, 1]   // `2[0-3]`, then `\d`
    else if CharIn(s, i, '0', '1') && CharIn(s, i + 1, '0', '9') then [2, 1] // `[0-1]\d`, then `\d`
    else if CharIn(s, i, '0', '9') then [1]                               // `\d`
    else []
  }

  /** `%M` is `[0-5]\d|\d`. */
  function MinuteAlts(s: string, i: nat): seq<nat> {
    if CharIn(s, i, '0', '5') && CharIn(s, i + 1, '0', '9') then [2, 1]   // `[0-5]\d`, then `\d`
    else if CharIn(s, i, '0', '9') then [1]                               // `\d`
    else []
  }

  /** `%S` is `6[0-1]|[0-5]\d|\d`: the leap seconds 60 and 61 are admitted. */
  function SecondAlts(s: string, i: nat): seq<nat> {
    if CharIn(s, i, '6', '6') && CharIn(s, i + 1, '0', '1') then [2, 1]   // `6[0-1]`, then `\d`
    else if CharIn(s, i, '0', '5') && CharIn(s, i + 1, '0', '9') then [2, 1] // `[0-5]\d`, then `\d`
    else if CharIn(s, i, '0', '9') then [1]                               // `\d`
    else []
  }

  /** A literal `:` of the format. */
  function ColonAlts(s: string, i: nat): seq<nat> {
    if CharIn(s, i, ':', ':') then [1] else []
  }

  /** The length of the run of white space at `i`. */
  function SpaceRun(s: string, i: nat): nat
    decreases |s| - i
  {
    if i < |s| && IsSpace(s[i]) then 1 + SpaceRun(s, i + 1) else 0
  }

  /** The run is white space throughout and ends at the end of `s` or at other text. */
  lemma {:induction false} SpaceRunBounds(s: string, i: nat)
    ensures var n := SpaceRun(s, i);
            && (n == 0 || i + n <= |s|)
            && (forall j :: i <= j < i + n ==> IsSpace(s[j]))
            && (i + n < |s| ==> !IsSpace(s[i + n]))
    decreases |s| - i
  {
    if i < |s| && IsSpace(s[i]) {
      SpaceRunBounds(s, i + 1);
    }
  }

  /** `n, n - 1, …, 1`. */
  function Countdown(n: nat): seq<nat> {
    seq(n, k requires 0 <= k < n => n - k)
  }

  lemma CountdownMembers(n: nat, a: nat)
    requires a in Countdown(n)
    ensures 1 <= a <= n
  {
  }

  /** `\s+` is greedy: the whole run of white space first, then each shorter prefix. */
  function SpaceAlts(s: string, i: nat): seq<nat>
  {
    Countdown(SpaceRun(s, i))
  }

  /** The pieces of the regex pandas builds from a format: one per directive, one per
      literal character, and `\s+` for a blank. */
  datatype Token = Year | Month | Day | Hour | Minute | Second | Spaces | Colon

  /** A regex as the sequence of its tokens. */
  datatype Pattern = Done | Then(head: Token, tail: Pattern)

  /** `%H:%M:%S` */
  const ClockPattern: Pattern := Then(Hour, Then(Colon, Then(Minute, Then(Colon, Then(Second, Done)))))
  /** `%Y%m%d` */
  const DatePattern: Pattern := Then(Year, Then(Month, Then(Day, Done)))
  /** `%Y%m%d %H:%M:%S` */
  const TimestampPattern: Pattern := Then(Year, Then(Month, Then(Day, Then(Spaces, ClockPattern))))

  /** The lengths of the ways token `t` can match at `i`, in the order the regex tries them. */
  function Alts(t: Token, s: string, i: nat): seq<nat> {
    match t
    case Year => YearAlts(s, i)
    case Month => MonthAlts(s, i)
    case Day => DayAlts(s, i)
    case Hour => HourAlts(s, i)
    case Minute => MinuteAlts(s, i)
    case Second => SecondAlts(s, i)
    case Spaces => SpaceAlts(s, i)
    case Colon => ColonAlts(s, i)
  }

  /** The widths of text the tokens of a pattern matched, one per token, in order. */
  datatype Spans = End | Span(width: nat, rest: Spans)

  /** `re.match` of pattern `p` from position `i`: the widths the tokens matched, for the
      first way the regex engine finds, backtracking through the alternatives. */
  function MatchFrom(p: Pattern, s: string, i: nat): (r: Option<Spans>)
    ensures r.Some? ==> (r.value.End? <==> p.Done?)
    decreases p, 1
  {
    if p.Done? then Some(End) else TryAlts(p, s, i, 0)
  }

  /** The first token's alternatives from the `k`-th on, tried in order; the first from
      which the rest of the pattern matches wins. */
  function TryAlts(p: Pattern, s: string, i: nat, k: nat): (r: Option<Spans>)
    requires p.Then?
    ensures r.Some? ==> r.value.Span?
    decreases p, 0, |Alts(p.head, s, i)| - k
  {
    var alts := Alts(p.head, s, i);
    if k >= |alts| then None
    else
      match MatchFrom(p.tail, s, i + alts[k])
      case Some(rest) => Some(Span(alts[k], rest))
      case None => TryAlts(p, s, i, k + 1)
  }

  /** The first token's width is one of its alternatives, and the rest of the match is
      what the engine finds for the rest of the pattern from there. */
  lemma {:induction false} TryAltsStep(p: Pattern, s: string, i: nat, k: nat)
    requires p.Then? && TryAlts(p, s, i, k).Some?
    ensures var ls := TryAlts(p, s, i, k).value;
            && ls.Span? && ls.width in Alts(p.head, s, i)
            && MatchFrom(p.tail, s, i + ls.width) == Some(ls.rest)
    decreases |Alts(p.head, s, i)| - k
  {
    if MatchFrom(p.tail, s, i + Alts(p.head, s, i)[k]).None? {
      TryAltsStep(p, s, i, k + 1);
    }
  }

  /** The first token's width is one of its alternatives, and the rest of the pattern
      matches from the end of it. */
  lemma Step(t: Token, q: Pattern, s: string, i: nat, w: nat, rest: Spans)
    requires MatchFrom(Then(t, q), s, i) == Some(Span(w, rest))
    ensures w in Alts(t, s, i) && MatchFrom(q, s, i + w) == Some(rest)
  {
    TryAltsStep(Then(t, q), s, i, 0);
  }

  // ----- What each token spans -----

  /** `%Y` matches four digits. */
  lemma YearStep(q: Pattern, s: string, i: nat, w: nat, rest: Spans)
    requires MatchFrom(Then(Year, q), s, i) == Some(Span(w, rest))
    ensures w == 4 && i + 4 <= |s|
    ensures IsDigit(s[i]) && IsDigit(s[i + 1]) && IsDigit(s[i + 2]) && IsDigit(s[i + 3])
    ensures MatchFrom(q, s, i + w) == Some(rest)
  {
    Step(Year, q, s, i, w, rest);
  }

  /** `%m` matches one or two digits naming a month. */
  lemma MonthStep(q: Pattern, s: string, i: nat, w: nat, rest: Spans)
    requires MatchFrom(Then(Month, q), s, i) == Some(Span(w, rest))
    ensures 1 <= w <= 2 && i + w <= |s| && IsDigit(s[i]) && (w == 2 ==> IsDigit(s[i + 1]))
    ensures 1 <= Field(s, i, w) <= 12
    ensures MatchFrom(q, s, i + w) == Some(rest)
  {
    Step(Month, q, s, i, w, rest);
    FieldDigits(s, i);
  }

  /** `%d` matches one or two digits, or a space and a digit, naming a day of a month. */
  lemma DayStep(q: Pattern, s: string, i: nat, w: nat, rest: Spans)
    requires MatchFrom(Then(Day, q), s, i) == Some(Span(w, rest))
    ensures 1 <= w <= 2 && i + w <= |s| && (w == 1 ==> IsDigit(s[i]))
    ensures w == 2 ==> (IsDigit(s[i]) || s[i] == ' ') && IsDigit(s[i + 1])
    ensures 1 <= Field(s, i, w) <= 31
    ensures MatchFrom(q, s, i + w) == Some(rest)
  {
    Step(Day, q, s, i, w, rest);
    FieldDigits(s, i);
  }

  /** `%H` matches one or two digits naming an hour of the day. */
  lemma HourStep(q: Pattern, s: string, i: nat, w: nat, rest: Spans)
    requires MatchFrom(Then(Hour, q), s, i) == Some(Span(w, rest))
    ensures 1 <= w <= 2 && i + w <= |s| && IsDigit(s[i]) && (w == 2 ==> IsDigit(s[i + 1]))
    ensures Field(s, i, w) < 24
    ensures MatchFrom(q, s, i + w) == Some(rest)
  {
    Step(Hour, q, s, i, w, rest);
    FieldDigits(s, i);
  }

  /** `%M` matches one or two digits naming a minute of the hour. */
  lemma MinuteStep(q: Pattern, s: string, i: nat, w: nat, rest: Spans)
    requires MatchFrom(Then(Minute, q), s, i) == Some(Span(w, rest))
    ensures 1 <= w <= 2 && i + w <= |s| && IsDigit(s[i]) && (w == 2 ==> IsDigit(s[i + 1]))
    ensures Field(s, i, w) < 60
    ensures MatchFrom(q, s, i + w) == Some(rest)
  {
    Step(Minute, q, s, i, w, rest);
    FieldDigits(s, i);
  }

  /** `%S` matches one or two digits naming a second, leap seconds included. */
  lemma SecondStep(q: Pattern, s: string, i: nat, w: nat, rest: Spans)
    requires MatchFrom(Then(Second, q), s, i) == Some(Span(w, rest))
    ensures 1 <= w <= 2 && i + w <= |s| && IsDigit(s[i]) && (w == 2 ==> IsDigit(s[i + 1]))
    ensures Field(s, i, w) < 62
    ensures MatchFrom(q, s, i + w) == Some(rest)
  {
    Step(Second, q, s, i, w, rest);
    FieldDigits(s, i);
  }

  /** `\s+` matches a non-empty prefix of the run of white space. */
  lemma SpaceStep(q: Pattern, s: string, i: nat, w: nat, rest: Spans)
    requires MatchFrom(Then(Spaces, q), s, i) == Some(Span(w, rest))
    ensures 1 <= w <= SpaceRun(s, i) && i + w <= |s| && IsSpace(s[i])
    ensures MatchFrom(q, s, i + w) == Some(rest)
  {
    Step(Spaces, q, s, i, w, rest);
    SpaceRunBounds(s, i);
  }

  /** The literal `:` matches one colon. */
  lemma ColonStep(q: Pattern, s: string, i: nat, w: nat, rest: Spans)
    requires MatchFrom(Then(Colon, q), s, i) == Some(Span(w, rest))
    ensures w == 1 && i < |s| && s[i] == ':'
    ensures MatchFrom(q, s, i + w) == Some(rest)
  {
    Step(Colon, q, s, i, w, rest);
  }

  // ----- What the patterns span -----

  /** Text `s` starts with four digits, then a month of `mo` and a day of `d` characters,
      one or two each. */
  predicate DateAt(s: string, mo: nat, d: nat) {
    && 1 <= mo <= 2 && 1 <= d <= 2 && 4 + mo + d <= |s|
    && IsDigit(s[0]) && IsDigit(s[1]) && IsDigit(s[2]) && IsDigit(s[3])
  }

  /** From `i`, text `s` holds `sp` characters of a run of white space, then an hour, a
      minute and a second of one or two characters each with a colon between them; the
      second ends in a digit. */
  predicate ClockAt(s: string, i: nat, sp: nat, hh: nat, mi: nat, ss: nat) {
    && 1 <= sp && 1 <= hh <= 2 && 1 <= mi <= 2 && 1 <= ss <= 2
    && i + sp + hh + mi + ss + 2 <= |s|
    && IsSpace(s[i]) && sp <= SpaceRun(s, i)
    && s[i + sp + hh] == ':' && s[i + sp + hh + mi + 1] == ':'
    && IsDigit(s[i + sp + hh + mi + ss + 1])
  }

  /** A match that starts with `%Y%m%d`: four digits, then a month and a day of one or two
      characters that name a month and a day of a month, and the rest of the pattern from
      the end of the day. */
  lemma DatePrefix(q: Pattern, s: string, y: nat, mo: nat, d: nat, rest: Spans)
    requires MatchFrom(Then(Year, Then(Month, Then(Day, q))), s, 0) == Some(Span(y, Span(mo, Span(d, rest))))
    ensures y == 4 && DateAt(s, mo, d)
    ensures 1 <= Field(s, 4, mo) <= 12 && 1 <= Field(s, 4 + mo, d) <= 31
    ensures MatchFrom(q, s, 4 + mo + d) == Some(rest)
  {
    YearStep(Then(Month, Then(Day, q)), s, 0, y, Span(mo, Span(d, rest)));
    MonthStep(Then(Day, q), s, 4, mo, Span(d, rest));
    DayStep(q, s, 4 + mo, d, rest);
  }

  /** A match of `%Y%m%d`: four digits, then a month and a day of one or two characters
      that name a month and a day of a month. */
  lemma DateMatch(s: string, y: nat, mo: nat, d: nat, rest: Spans)
    requires MatchFrom(DatePattern, s, 0) == Some(Span(y, Span(mo, Span(d, rest))))
    ensures y == 4 && rest == End && DateAt(s, mo, d)
    ensures 1 <= Field(s, 4, mo) <= 12 && 1 <= Field(s, 4 + mo, d) <= 31
  {
    DatePrefix(Done, s, y, mo, d, rest);
  }

  /** A match that starts with `\s+%H:%M:%S` from `i`: a non-empty run of white space and
      one or two digits per clock field, which lie within what the directives admit; the
      seconds end in a digit, and the rest of the pattern matches from there. */
  lemma ClockFields(q: Pattern, s: string, i: nat, sp: nat, hh: nat, c1: nat, mi: nat, c2: nat, ss: nat, rest: Spans)
    requires MatchFrom(Then(Spaces, Then(Hour, Then(Colon, Then(Minute, Then(Colon, Then(Second, q)))))), s, i)
             == Some(Span(sp, Span(hh, Span(c1, Span(mi, Span(c2, Span(ss, rest)))))))
    ensures c1 == 1 && c2 == 1 && ClockAt(s, i, sp, hh, mi, ss)
    ensures Field(s, i + sp, hh) < 24 && Field(s, i + sp + hh + 1, mi) < 60
    ensures Field(s, i + sp + hh + mi + 2, ss) < 62
    ensures MatchFrom(q, s, i + sp + hh + mi + ss + 2) == Some(rest)
  {
    SpaceStep(Then(Hour, Then(Colon, Then(Minute, Then(Colon, Then(Second, q))))), s, i, sp,
              Span(hh, Span(c1, Span(mi, Span(c2, Span(ss, rest))))));
    HourStep(Then(Colon, Then(Minute, Then(Colon, Then(Second, q)))), s, i + sp, hh, Span(c1, Span(mi, Span(c2, Span(ss, rest)))));
    ColonStep(Then(Minute, Then(Colon, Then(Second, q))), s, i + sp + hh, c1, Span(mi, Span(c2, Span(ss, rest))));
    MinuteStep(Then(Colon, Then(Second, q)), s, i + sp + hh + 1, mi, Span(c2, Span(ss, rest)));
    ColonStep(Then(Second, q), s, i + sp + hh + 1 + mi, c2, Span(ss, rest));
    SecondStep(q, s, i + sp + hh + mi + 2, ss, rest);
  }

  /** The timestamp a match of `%Y%m%d\s+%H:%M:%S` captured, from the widths of its
      fields: year, month, day, blank, hour, minute and second. The seconds may be 60 or 61. */
  function CapturedStamp(s: string, y: nat, mo: nat, d: nat, sp: nat, hh: nat, mi: nat, ss: nat): Timestamp {
    var h := y + mo + d + sp;
    Timestamp(Date(Field(s, 0, y), Field(s, y, mo), Field(s, y + mo, d)),
              Time(Field(s, h, hh), Field(s, h + hh + 1, mi), Field(s, h + hh + mi + 2, ss)))
  }

  /** The fields a match of the timestamp pattern captures lie within what the directives
      admit: a month, a day of a month, an hour, a minute and a second up to 61. */
  lemma StampMatch(s: string, y: nat, mo: nat, d: nat, sp: nat, hh: nat, c1: nat, mi: nat, c2: nat, ss: nat, rest: Spans)
    requires MatchFrom(TimestampPattern, s, 0)
             == Some(Span(y, Span(mo, Span(d, Span(sp, Span(hh, Span(c1, Span(mi, Span(c2, Span(ss, rest))))))))))
    ensures var t := CapturedStamp(s, y, mo, d, sp, hh, mi, ss);
            && 1 <= t.date.month <= 12 && 1 <= t.date.day <= 31
            && t.time.hour < 24 && t.time.minute < 60 && t.time.second < 62
  {
    DatePrefix(Then(Spaces, ClockPattern), s, y, mo, d, Span(sp, Span(hh, Span(c1, Span(mi, Span(c2, Span(ss, rest)))))));
    ClockFields(Done, s, y + mo + d, sp, hh, c1, mi, c2, ss, rest);
  }

  /** A match of the timestamp pattern is the whole match: four digits, a month and a day
      of one or two characters, white space, and one or two characters per clock field
      with a colon between them. */
  lemma StampShape(s: string, y: nat, mo: nat, d: nat, sp: nat, hh: nat, c1: nat, mi: nat, c2: nat, ss: nat, rest: Spans)
    requires MatchFrom(TimestampPattern, s, 0)
             == Some(Span(y, Span(mo, Span(d, Span(sp, Span(hh, Span(c1, Span(mi, Span(c2, Span(ss, rest))))))))))
    ensures y == 4 && c1 == 1 && c2 == 1 && rest == End
    ensures DateAt(s, mo, d) && ClockAt(s, y + mo + d, sp, hh, mi, ss)
  {
    DatePrefix(Then(Spaces, ClockPattern), s, y, mo, d, Span(sp, Span(hh, Span(c1, Span(mi, Span(c2, Span(ss, rest)))))));
    ClockFields(Done, s, y + mo + d, sp, hh, c1, mi, c2, ss, rest);
  }

  // ----- From the captured fields to a timestamp -----

  /** Pandas adds the captured fields up, so the seconds 60 and 61 that `%S` admits carry
      into the next minute. */
  function CarrySeconds(raw: Timestamp): (ts: Timestamp)
    requires ValidDate(raw.date)
    requires 0 <= raw.time.hour < 24 && 0 <= raw.time.minute < 60 && 0 <= raw.time.second < 62
    ensures ValidTimestamp(ts)
    ensures Seconds(ts) == DayNumber(raw.date) * 86400 + raw.time.hour * 3600 + raw.time.minute * 60 + raw.time.second
  {
    if raw.time.second < 60 then raw
    else NextMinute(Timestamp(raw.date, Time(raw.time.hour, raw.time.minute, raw.time.second - 60)))
  }

  /** A captured leap second that passes the range check carries to a timestamp that is
      still in range. */
  lemma CarryInRange(raw: Timestamp)
    requires ValidDate(raw.date)
    requires 0 <= raw.time.hour < 24 && 0 <= raw.time.minute < 60 && 0 <= raw.time.second < 62
    requires InTimestampRange(raw)
    ensures Representable(CarrySeconds(raw))
  {
    if raw.time.second >= 60 {
      var x := Timestamp(raw.date, Time(raw.time.hour, raw.time.minute, raw.time.second - 60));
      var n := CarrySeconds(raw);
      var lo := Timestamp(EarliestTimestamp.date, Time(0, 12, 0));
      var hi := Timestamp(LatestTimestamp.date, Time(23, 46, 1));
      assert !Before(x, lo) && !Before(hi, x);
      SecondsOrder(x, lo);
      SecondsOrder(hi, x);
      SecondsOrder(n, EarliestTimestamp);
      SecondsOrder(LatestTimestamp, n);
    }
  }

  // ----- The two conversions -----

  /** `pd.to_datetime(s, format='%Y%m%d')`: midnight of the day the text names. */
  function ParseDate(s: string): (r: Result<Date, ParseError>)
    ensures r.Ok? ==> RepresentableDate(r.value)
  {
    match MatchFrom(DatePattern, s, 0)
    case Some(Span(y, Span(mo, Span(d, End)))) =>
      var date := Date(Field(s, 0, y), Field(s, y, mo), Field(s, y + mo, d));
      if y + mo + d != |s| then Err(FormatMismatch)                  // unconverted data remains
      else if !ValidDate(date) then Err(FieldOutOfRange)              // `date(year, month, day)` raises
      else if !InTimestampRange(Timestamp(date, Time(0, 0, 0))) then Err(OutOfBoundsDatetime)
      else Ok(date)
    case _ => Err(FormatMismatch)   // no match (a match always has the three spans)
  }

  /** `pd.to_datetime(s, format='%Y%m%d %H:%M:%S')`. The range check reads the fields as
      captured; a leap second carries afterwards. */
  function ParseTimestamp(s: string): (r: Result<Timestamp, ParseError>)
    ensures r.Ok? ==> Representable(r.value)
  {
    match MatchFrom(TimestampPattern, s, 0)
    case Some(Span(y, Span(mo, Span(d, Span(sp, Span(hh, Span(c1, Span(mi, Span(c2, Span(ss, End)))))))))) =>
      var raw := CapturedStamp(s, y, mo, d, sp, hh, mi, ss);
      if y + mo + d + sp + hh + mi + ss + 2 != |s| then Err(FormatMismatch)
      else if !ValidDate(raw.date) then Err(FieldOutOfRange)
      else if !InTimestampRange(raw) then Err(OutOfBoundsDatetime)
      else
        StampMatch(s, y, mo, d, sp, hh, c1, mi, c2, ss, End);
        CarryInRange(raw);
        Ok(CarrySeconds(raw))
    case _ => Err(FormatMismatch)   // no match (a match always has the nine spans)
  }

  /** The scripts' `MEAS_DATE.astype(str) + ' ' + MEAS_TIME.astype(str)` parsed with the
      combined format. */
  function ParseDateTime(date: string, time: string): (r: Result<Timestamp, ParseError>)
    ensures r.Ok? ==> Representable(r.value)
  {
    ParseTimestamp(date + " " + time)
  }

  /** The texts `to_datetime` turns into NaT before it tries the format: the empty text and
      the spellings of NaT and NaN (an empty cell read as text is `nan`). */
  predicate NatText(s: string) {
    s in {"", "NaT", "nat", "NAT", "nan", "NaN", "NAN"}
  }

  /** `pd.to_datetime(s, format='%Y%m%d')` on one cell of a text column: NaT (`None`) for a
      NaT text, otherwise the format's date or its error. pandas reads `now` and `today` as
      the clock time; with no clock here they go to the format, which rejects them. */
  function ConvertDate(s: string): (r: Result<Option<Date>, ParseError>)
    ensures r == Ok(None) <==> NatText(s)
    ensures !NatText(s) ==> (r.Ok? <==> ParseDate(s).Ok?)
    ensures r.Ok? && r.value.Some? ==> RepresentableDate(r.value.value)
  {
    if NatText(s) then Ok(None)
    else
      match ParseDate(s)
      case Ok(d) => Ok(Some(d))
      case Err(e) => Err(e)
  }

  // ----- Zero-padded text: the first alternative of each directive spans the field -----

  /** When the rest of the pattern matches after the first alternative of the first token,
      the engine takes that alternative. */
  lemma FirstAltWins(t: Token, q: Pattern, s: string, i: nat, rest: Spans)
    requires |Alts(t, s, i)| > 0 && MatchFrom(q, s, i + Alts(t, s, i)[0]) == Some(rest)
    ensures MatchFrom(Then(t, q), s, i) == Some(Span(Alts(t, s, i)[0], rest))
  {
    assert MatchFrom(Then(t, q), s, i) == TryAlts(Then(t, q), s, i, 0);
  }

  /** `s[i]` and `s[i + 1]` are digits. */
  predicate Digits2(s: string, i: nat) {
    i + 1 < |s| && IsDigit(s[i]) && IsDigit(s[i + 1])
  }

  lemma YearFirst(q: Pattern, s: string, i: nat, rest: Spans)
    requires i + 4 <= |s| && IsDigit(s[i]) && IsDigit(s[i + 1]) && IsDigit(s[i + 2]) && IsDigit(s[i + 3])
    requires MatchFrom(q, s, i + 4) == Some(rest)
    ensures MatchFrom(Then(Year, q), s, i) == Some(Span(4, rest))
  {
    FirstAltWins(Year, q, s, i, rest);
  }

  /** Two digits naming a month take `%m`'s first alternative. */
  lemma MonthFirst(q: Pattern, s: string, i: nat, rest: Spans)
    requires Digits2(s, i) && 1 <= Field(s, i, 2) <= 12 && MatchFrom(q, s, i + 2) == Some(rest)
    ensures MatchFrom(Then(Month, q), s, i) == Some(Span(2, rest))
  {
    FieldDigits(s, i);
    FirstAltWins(Month, q, s, i, rest);
  }

  /** Two digits naming a day of a month take `%d`'s first alternative. */
  lemma DayFirst(q: Pattern, s: string, i: nat, rest: Spans)
    requires Digits2(s, i) && 1 <= Field(s, i, 2) <= 31 && MatchFrom(q, s, i + 2) == Some(rest)
    ensures MatchFrom(Then(Day, q), s, i) == Some(Span(2, rest))
  {
    FieldDigits(s, i);
    FirstAltWins(Day, q, s, i, rest);
  }

  lemma HourFirst(q: Pattern, s: string, i: nat, rest: Spans)
    requires Digits2(s, i) && Field(s, i, 2) < 24 && MatchFrom(q, s, i + 2) == Some(rest)
    ensures MatchFrom(Then(Hour, q), s, i) == Some(Span(2, rest))
  {
    FieldDigits(s, i);
    FirstAltWins(Hour, q, s, i, rest);
  }

  lemma MinuteFirst(q: Pattern, s: string, i: nat, rest: Spans)
    requires Digits2(s, i) && Field(s, i, 2) < 60 && MatchFrom(q, s, i + 2) == Some(rest)
    ensures MatchFrom(Then(Minute, q), s, i) == Some(Span(2, rest))
  {
    FieldDigits(s, i);
    FirstAltWins(Minute, q, s, i, rest);
  }

  lemma SecondFirst(q: Pattern, s: string, i: nat, rest: Spans)
    requires Digits2(s, i) && Field(s, i, 2) < 62 && MatchFrom(q, s, i + 2) == Some(rest)
    ensures MatchFrom(Then(Second, q), s, i) == Some(Span(2, rest))
  {
    FieldDigits(s, i);
    FirstAltWins(Second, q, s, i, rest);
  }

  /** One white-space character before other text is the whole of `\s+`. */
  lemma SpaceFirst(q: Pattern, s: string, i: nat, rest: Spans)
    requires i + 1 < |s| && IsSpace(s[i]) && !IsSpace(s[i + 1]) && MatchFrom(q, s, i + 1) == Some(rest)
    ensures MatchFrom(Then(Spaces, q), s, i) == Some(Span(1, rest))
  {
    assert SpaceRun(s, i) == 1;
    assert Alts(Spaces, s, i) == [1];
    FirstAltWins(Spaces, q, s, i, rest);
  }

  lemma ColonFirst(q: Pattern, s: string, i: nat, rest: Spans)
    requires i < |s| && s[i] == ':' && MatchFrom(q, s, i + 1) == Some(rest)
    ensures MatchFrom(Then(Colon, q), s, i) == Some(Span(1, rest))
  {
    FirstAltWins(Colon, q, s, i, rest);
  }

  /** Eight digits spelling a month and a day of a month match `%Y%m%d` field by field at
      full width. */
  lemma DateFirst(q: Pattern, s: string, rest: Spans)
    requires 8 <= |s| && forall k :: 0 <= k < 8 ==> IsDigit(s[k])
    requires 1 <= Field(s, 4, 2) <= 12 && 1 <= Field(s, 6, 2) <= 31
    requires MatchFrom(q, s, 8) == Some(rest)
    ensures MatchFrom(Then(Year, Then(Month, Then(Day, q))), s, 0) == Some(Span(4, Span(2, Span(2, rest))))
  {
    DayFirst(q, s, 6, rest);
    MonthFirst(Then(Day, q), s, 4, Span(2, rest));
    YearFirst(Then(Month, Then(Day, q)), s, 0, Span(2, Span(2, rest)));
  }

  /** ` HH:MM:SS` from `i`, with fields in range, matches `\s+%H:%M:%S` field by field at
      full width. */
  lemma ClockFirst(q: Pattern, s: string, i: nat, rest: Spans)
    requires i + 9 <= |s| && s[i] == ' ' && s[i + 3] == ':' && s[i + 6] == ':'
    requires Digits2(s, i + 1) && Digits2(s, i + 4) && Digits2(s, i + 7)
    requires Field(s, i + 1, 2) < 24 && Field(s, i + 4, 2) < 60 && Field(s, i + 7, 2) < 62
    requires MatchFrom(q, s, i + 9) == Some(rest)
    ensures MatchFrom(Then(Spaces, Then(Hour, Then(Colon, Then(Minute, Then(Colon, Then(Second, q)))))), s, i)
            == Some(Span(1, Span(2, Span(1, Span(2, Span(1, Span(2, rest)))))))
  {
    SecondFirst(q, s, i + 7, rest);
    ColonFirst(Then(Second, q), s, i + 6, Span(2, rest));
    MinuteFirst(Then(Colon, Then(Second, q)), s, i + 4, Span(1, Span(2, rest)));
    ColonFirst(Then(Minute, Then(Colon, Then(Second, q))), s, i + 3, Span(2, Span(1, Span(2, rest))));
    HourFirst(Then(Colon, Then(Minute, Then(Colon, Then(Second, q)))), s, i + 1, Span(1, Span(2, Span(1, Span(2, rest)))));
    SpaceFirst(Then(Hour, Then(Colon, Then(Minute, Then(Colon, Then(Second, q))))), s, i,
               Span(2, Span(1, Span(2, Span(1, Span(2, rest))))));
  }

  // ----- Zero-padded text: what the conversions make of it -----

  /** `YYYYMMDD` with every field zero-padded. */
  predicate EightDigits(s: string) {
    |s| == 8 && AllDigits(s)
  }

  /** The year, month and day of `YYYYMMDD`, each read at full width. */
  function DateFields(s: string): Date {
    Date(Field(s, 0, 4), Field(s, 4, 2), Field(s, 6, 2))
  }

  /** `HH:MM:SS` with every field zero-padded. */
  predicate TimeShape(s: string) {
    && |s| == 8 && s[2] == ':' && s[5] == ':'
    && IsDigit(s[0]) && IsDigit(s[1]) && IsDigit(s[3]) && IsDigit(s[4]) && IsDigit(s[6]) && IsDigit(s[7])
  }

  function TimeFields(s: string): Time {
    Time(Field(s, 0, 2), Field(s, 3, 2), Field(s, 6, 2))
  }

  /** `YYYYMMDD HH:MM:SS` with every field zero-padded and one blank. */
  predicate StampText(s: string) {
    && |s| == 17 && s[8] == ' ' && s[11] == ':' && s[14] == ':'
    && forall k :: 0 <= k < 17 && k != 8 && k != 11 && k != 14 ==> IsDigit(s[k])
  }

  function StampFields(s: string): Timestamp {
    Timestamp(DateFields(s), Time(Field(s, 9, 2), Field(s, 12, 2), Field(s, 15, 2)))
  }

  /** What pandas demands of the fields it captured: a real date, a time whose seconds may
      be 60 or 61, and a place in the timestamp range. */
  predicate Admitted(raw: Timestamp) {
    && ValidDate(raw.date)
    && 0 <= raw.time.hour < 24 && 0 <= raw.time.minute < 60 && 0 <= raw.time.second < 62
    && InTimestampRange(raw)
  }

  /** On eight digits `%Y%m%d` reads every field at full width: the text converts exactly
      when the date it spells is one pandas holds at midnight, and to that date. */
  lemma ParseDateFixed(s: string)
    requires EightDigits(s)
    ensures ParseDate(s).Ok? <==> RepresentableDate(DateFields(s))
    ensures ParseDate(s).Ok? ==> ParseDate(s).value == DateFields(s)
  {
    if RepresentableDate(DateFields(s)) {
      DateFirst(Done, s, End);
    }
    match MatchFrom(DatePattern, s, 0)
    case Some(Span(y, Span(mo, Span(d, rest)))) =>
      DateMatch(s, y, mo, d, rest);
    case _ =>
  }

  /** In zero-padded text, a match that spans the whole text takes every field at full
      width. */
  lemma FixedWidths(s: string, mo: nat, d: nat, sp: nat, hh: nat, mi: nat, ss: nat)
    requires StampText(s) && DateAt(s, mo, d) && ClockAt(s, 4 + mo + d, sp, hh, mi, ss)
    requires 4 + mo + d + sp + hh + mi + ss + 2 == |s|
    ensures mo == 2 && d == 2 && sp == 1 && hh == 2 && mi == 2 && ss == 2
  {
    assert IsDigit(s[6]) && IsDigit(s[7]) && IsDigit(s[10]) && IsDigit(s[13]);
    assert SpaceRun(s, 8) == 1 by {
      assert IsDigit(s[9]);
    }
  }

  /** On zero-padded `YYYYMMDD HH:MM:SS` the format reads every field at full width: the
      text converts exactly when pandas admits the fields it spells, and to those fields
      with a leap second carried. */
  lemma ParseTimestampFixed(s: string)
    requires StampText(s)
    ensures ParseTimestamp(s).Ok? <==> Admitted(StampFields(s))
    ensures ParseTimestamp(s).Ok? ==> ParseTimestamp(s).value == CarrySeconds(StampFields(s))
  {
    if Admitted(StampFields(s)) {
      assert forall k :: 0 <= k < 8 ==> IsDigit(s[k]);
      assert Digits2(s, 9) && Digits2(s, 12) && Digits2(s, 15);
      ClockFirst(Done, s, 8, End);
      DateFirst(Then(Spaces, ClockPattern), s, Span(1, Span(2, Span(1, Span(2, Span(1, Span(2, End)))))));
    }
    match MatchFrom(TimestampPattern, s, 0)
    case Some(Span(y, Span(mo, Span(d, Span(sp, Span(hh, Span(c1, Span(mi, Span(c2, Span(ss, rest)))))))))) =>
      StampShape(s, y, mo, d, sp, hh, c1, mi, c2, ss, rest);
      if y + mo + d + sp + hh + mi + ss + 2 == |s| {
        StampMatch(s, y, mo, d, sp, hh, c1, mi, c2, ss, rest);
        FixedWidths(s, mo, d, sp, hh, mi, ss);
        assert CapturedStamp(s, y, mo, d, sp, hh, mi, ss) == StampFields(s);
      }
    case _ =>
  }

  /** A field reads only its own characters. */
  lemma {:induction false} FieldAppend(a: string, b: string, i: nat, n: nat)
    ensures i + n <= |a| ==> Field(a + b, i, n) == Field(a, i, n)
    ensures Field(a + b, |a| + i, n) == Field(b, i, n)
  {
    if n > 0 {
      FieldAppend(a, b, i, n - 1);
    }
  }

  /** A zero-padded date cell and time cell join into zero-padded text that spells the
      cells' fields. */
  lemma JoinedCells(date: string, time: string)
    requires EightDigits(date) && TimeShape(time)
    ensures StampText(date + " " + time)
    ensures StampFields(date + " " + time) == Timestamp(DateFields(date), TimeFields(time))
  {
    assert date + " " + time == date + (" " + time);
    FieldAppend(date, " " + time, 0, 4);
    FieldAppend(date, " " + time, 4, 2);
    FieldAppend(date, " " + time, 6, 2);
    FieldAppend(date + " ", time, 0, 2);
    FieldAppend(date + " ", time, 3, 2);
    FieldAppend(date + " ", time, 6, 2);
  }

  /** Zero-padded cells convert exactly when pandas admits the fields they spell, and to
      those fields with a leap second carried. */
  lemma ParseDateTimeFixed(date: string, time: string)
    requires EightDigits(date) && TimeShape(time)
    ensures var raw := Timestamp(DateFields(date), TimeFields(time));
            && (ParseDateTime(date, time).Ok? <==> Admitted(raw))
            && (ParseDateTime(date, time).Ok? ==> ParseDateTime(date, time).value == CarrySeconds(raw))
  {
    JoinedCells(date, time);
    ParseTimestampFixed(date + " " + time);
  }

  // ----- Zero-padded renderings -----

  /** The zero-padded rendering of a date spells that date. */
  lemma RenderDateFields(d: Date)
    requires 0 <= d.year < 10000 && 1 <= d.month <= 12 && 1 <= d.day <= 31
    ensures EightDigits(RenderDate(d)) && DateFields(RenderDate(d)) == d
  {
    Pow10Small();
    var s := RenderDate(d);
    assert s[0..4] == Render(d.year, 4);
    assert s[4..6] == Render(d.month, 2);
    assert s[6..8] == Render(d.day, 2);
    FieldRender(s, 0, d.year, 4);
    FieldRender(s, 4, d.month, 2);
    FieldRender(s, 6, d.day, 2);
  }

  /** The zero-padded rendering of a time of day spells that time. */
  lemma RenderTimeFields(t: Time)
    requires ValidTime(t)
    ensures TimeShape(RenderTime(t)) && TimeFields(RenderTime(t)) == t
  {
    Pow10Small();
    var s := RenderTime(t);
    var h, m, c := Render(t.hour, 2), Render(t.minute, 2), Render(t.second, 2);
    assert s[0..2] == h && s[3..5] == m && s[6..8] == c;
    assert s[2] == ':' && s[5] == ':';
    FieldRender(s, 0, t.hour, 2);
    FieldRender(s, 3, t.minute, 2);
    FieldRender(s, 6, t.second, 2);
  }

  /** Eight digits spelling a month and a day of a month are the rendering of that date. */
  lemma FieldsRenderDate(s: string)
    requires EightDigits(s) && 1 <= Field(s, 4, 2) <= 12 && 1 <= Field(s, 6, 2) <= 31
    ensures Field(s, 0, 4) < 10000 && RenderDate(DateFields(s)) == s
  {
    Pow10Small();
    RenderField(s, 0, 4);
    RenderField(s, 4, 2);
    RenderField(s, 6, 2);
    assert s == s[0..4] + s[4..6] + s[6..8];
  }

  /** A zero-padded time spelling a time of day is the rendering of that time. */
  lemma FieldsRenderTime(s: string)
    requires TimeShape(s) && ValidTime(TimeFields(s))
    ensures RenderTime(TimeFields(s)) == s
  {
    Pow10Small();
    RenderField(s, 0, 2);
    RenderField(s, 3, 2);
    RenderField(s, 6, 2);
    assert s == s[0..2] + ":" + s[3..5] + ":" + s[6..8];
  }

  /** The zero-padded rendering of a date pandas holds parses back to it. */
  lemma ParseRenderedDate(d: Date)
    requires RepresentableDate(d)
    ensures ParseDate(RenderDate(d)) == Ok(d)
  {
    RepresentableYears(Timestamp(d, Time(0, 0, 0)));
    RenderDateFields(d);
    ParseDateFixed(RenderDate(d));
  }

  /** An eight-digit text that `%Y%m%d` accepts is the rendering of the date it converts to. */
  lemma FixedDateRenders(s: string)
    requires EightDigits(s) && ParseDate(s).Ok?
    ensures var d := ParseDate(s).value;
            && 0 <= d.year < 10000 && 1 <= d.month <= 12 && 1 <= d.day <= 31
            && RenderDate(d) == s
  {
    ParseDateFixed(s);
    FieldsRenderDate(s);
  }

  /** The zero-padded renderings of a timestamp pandas holds parse back to it. */
  lemma ParseRenderedTimestamp(ts: Timestamp)
    requires Representable(ts)
    ensures ParseDateTime(RenderDate(ts.date), RenderTime(ts.time)) == Ok(ts)
  {
    RepresentableYears(ts);
    RenderDateFields(ts.date);
    RenderTimeFields(ts.time);
    ParseDateTimeFixed(RenderDate(ts.date), RenderTime(ts.time));
  }

  /** Zero-padded cells that convert without a leap second are the renderings of the
      timestamp they convert to. */
  lemma FixedCellsRender(date: string, time: string)
    requires EightDigits(date) && TimeShape(time) && ParseDateTime(date, time).Ok?
    ensures var ts := ParseDateTime(date, time).value;
            TimeFields(time).second < 60 ==> date == RenderDate(ts.date) && time == RenderTime(ts.time)
  {
    ParseDateTimeFixed(date, time);
    if TimeFields(time).second < 60 {
      FieldsRenderDate(date);
      FieldsRenderTime(time);
    }
  }

  // ----- What the formats accept and reject -----

  /** Text `%Y%m%d` accepts is six to eight characters long and starts with four digits. */
  lemma DateAccepted(s: string)
    requires ParseDate(s).Ok?
    ensures 6 <= |s| <= 8 && IsDigit(s[0]) && IsDigit(s[1]) && IsDigit(s[2]) && IsDigit(s[3])
  {
    match MatchFrom(DatePattern, s, 0)
    case Some(Span(y, Span(mo, Span(d, rest)))) =>
      DateMatch(s, y, mo, d, rest);
    case _ =>
  }

  /** Text the timestamp format accepts starts with four digits, has white space where the
      day ends (the seventh, eighth or ninth character), at least six characters of clock
      after it, and ends in a digit. */
  lemma TimestampAccepted(s: string)
    requires ParseTimestamp(s).Ok?
    ensures 12 <= |s| && IsDigit(s[0]) && IsDigit(s[1]) && IsDigit(s[2]) && IsDigit(s[3])
    ensures IsSpace(s[6]) || IsSpace(s[7]) || IsSpace(s[8])
    ensures IsDigit(s[|s| - 1])
  {
    match MatchFrom(TimestampPattern, s, 0)
    case Some(Span(y, Span(mo, Span(d, Span(sp, Span(hh, Span(c1, Span(mi, Span(c2, Span(ss, rest)))))))))) =>
      StampShape(s, y, mo, d, sp, hh, c1, mi, c2, ss, rest);
    case _ =>
  }

  /** The NaT check only catches text the formats reject: on every text `%Y%m%d` accepts,
      the cell conversion gives the format's date, and a NaT text is never a date or a
      timestamp. */
  lemma NatTextsRejected(s: string)
    ensures NatText(s) ==> ParseDate(s).Err? && ParseTimestamp(s).Err?
    ensures ParseDate(s).Ok? ==> ConvertDate(s) == Ok(Some(ParseDate(s).value))
  {
    if ParseDate(s).Ok? {
      DateAccepted(s);
    }
    if ParseTimestamp(s).Ok? {
      TimestampAccepted(s);
    }
  }

  /** A date and a time joined by a blank are never a NaT text, so for the scripts'
      timestamps the format is the whole conversion; and the date cell of a row that
      converts is not a NaT text either. */
  lemma JoinedNotNat(date: string, time: string)
    ensures !NatText(date + " " + time)
    ensures ParseDateTime(date, time).Ok? ==> !NatText(date)
  {
    var s := date + " " + time;
    assert s[|date|] == ' ';
    if ParseDateTime(date, time).Ok? {
      TimestampAccepted(s);
      if |date| > 0 {
        assert s[0] == date[0];
      }
    }
  }

  /** A missing cell reads as the text `nan`: joined with the other cell it is not NaT,
      and the timestamp format rejects it. */
  lemma NanRejected(date: string, time: string)
    requires date == "nan" || time == "nan"
    ensures ParseDateTime(date, time).Err?
  {
    if ParseDateTime(date, time).Ok? {
      var s := date + " " + time;
      TimestampAccepted(s);
      assert false;
    }
  }

  /** A date column read as floating point turns into text such as `20210315.0`, which
      neither format accepts, whatever the time cell. */
  lemma FloatDateRejected(date: string, time: string)
    requires |date| == 10 && (forall k :: 0 <= k < 8 ==> IsDigit(date[k])) && date[8] == '.' && date[9] == '0'
    ensures ParseDate(date).Err? && ParseDateTime(date, time).Err?
  {
    if ParseDate(date).Ok? {
      DateAccepted(date);
      assert false;
    }
    if ParseDateTime(date, time).Ok? {
      var s := date + " " + time;
      TimestampAccepted(s);
      assert false;
    }
  }

  /** A blank follows the day, so digits at the seventh and eighth characters put both
      month and day at full width. */
  lemma DigitDateWidths(s: string, mo: nat, d: nat, sp: nat, hh: nat, mi: nat, ss: nat)
    requires DateAt(s, mo, d) && ClockAt(s, 4 + mo + d, sp, hh, mi, ss)
    requires 8 <= |s| && IsDigit(s[6]) && IsDigit(s[7])
    ensures mo == 2 && d == 2
  {
  }

  /** When the day ends at the ninth character of text the timestamp format accepts, the
      date is read at full width, and it is a real date within the range. */
  lemma StampOfDigits(s: string) returns (raw: Timestamp)
    requires ParseTimestamp(s).Ok? && 8 <= |s| && IsDigit(s[6]) && IsDigit(s[7])
    ensures raw.date == DateFields(s) && ValidDate(raw.date) && InTimestampRange(raw)
  {
    match MatchFrom(TimestampPattern, s, 0)
    case Some(Span(y, Span(mo, Span(d, Span(sp, Span(hh, Span(c1, Span(mi, Span(c2, Span(ss, rest)))))))))) =>
      StampShape(s, y, mo, d, sp, hh, c1, mi, c2, ss, rest);
      DigitDateWidths(s, mo, d, sp, hh, mi, ss);
      raw := CapturedStamp(s, y, mo, d, sp, hh, mi, ss);
  }

  /** The fields an eight-digit date cell spells are those of the timestamp its row
      converts to, before a leap second carries: a real date within the range. */
  lemma StampDate(date: string, time: string) returns (raw: Timestamp)
    requires EightDigits(date) && ParseDateTime(date, time).Ok?
    ensures raw.date == DateFields(date) && ValidDate(raw.date) && InTimestampRange(raw)
  {
    var s := date + " " + time;
    assert s == date + (" " + time);
    assert s[6] == date[6] && s[7] == date[7];
    raw := StampOfDigits(s);
    FieldAppend(date, " " + time, 0, 4);
    FieldAppend(date, " " + time, 4, 2);
    FieldAppend(date, " " + time, 6, 2);
  }

  lemma FirstDayText()
    ensures RenderDate(Date(1677, 9, 21)) == "16770921"
  {
    Pow10Small();
  }

  /** Eight digits spell 1677-09-21 exactly when they are `16770921`. */
  lemma FirstDayFields(s: string)
    requires EightDigits(s) && ValidDate(DateFields(s))
    ensures DateFields(s) == Date(1677, 9, 21) <==> s == "16770921"
  {
    FieldsRenderDate(s);
    FirstDayText();
    RenderDateFields(Date(1677, 9, 21));
  }

  /** Pandas holds midnight of every day in its range but the first. */
  lemma MidnightInRange(raw: Timestamp)
    requires ValidDate(raw.date) && InTimestampRange(raw)
    ensures RepresentableDate(raw.date) <==> raw.date != Date(1677, 9, 21)
  {
  }

  /** An eight-digit date cell whose row converts converts on its own with `%Y%m%d`,
      unless it is `16770921`: pandas' range starts at 00:12:44 of that day, so the day's
      readings convert while its midnight does not. */
  lemma DateCellOfStamp(date: string, time: string)
    requires EightDigits(date) && ParseDateTime(date, time).Ok?
    ensures ParseDate(date).Ok? <==> date != "16770921"
  {
    var raw := StampDate(date, time);
    ParseDateFixed(date);
    FirstDayFields(date);
    MidnightInRange(raw);
  }

  // ----- Examples -----

  /** A month needs no padding. */
  lemma UnpaddedMonth()
    ensures ParseDate("2021315") == Ok(Date(2021, 3, 15))
  {
    var s := "2021315";
    FieldDigits(s, 4);
    FieldDigits(s, 5);
    DayFirst(Done, s, 5, End);
    FirstAltWins(Month, Then(Day, Done), s, 4, Span(2, End));
    YearFirst(Then(Month, Then(Day, Done)), s, 0, Span(1, Span(2, End)));
  }

  /** A zero-padded date takes every field at full width. */
  lemma PaddedDate()
    ensures ParseDate("20210401") == Ok(Date(2021, 4, 1))
  {
    var s := "20210401";
    FieldDigits(s, 4);
    FieldDigits(s, 6);
    ParseDateFixed(s);
  }

  /** The first alternative that lets the rest match wins: `2021111` is the first of
      November, not the eleventh of January. */
  lemma GreedyMonth()
    ensures ParseDate("2021111") == Ok(Date(2021, 11, 1))
  {
    var s := "2021111";
    FieldDigits(s, 4);
    FieldDigits(s, 6);
    FirstAltWins(Day, Done, s, 6, End);
    MonthFirst(Then(Day, Done), s, 4, Span(1, End));
    YearFirst(Then(Month, Then(Day, Done)), s, 0, Span(2, Span(1, End)));
  }

  /** When the first alternative leaves nothing the rest can match, the engine backtracks:
      `2021120` is the twentieth of January. */
  lemma BacktrackedMonth()
    ensures ParseDate("2021120") == Ok(Date(2021, 1, 20))
  {
  }

  /** `%d` admits a day padded with a space. */
  lemma SpacePaddedDay()
    ensures ParseDate("202103 5") == Ok(Date(2021, 3, 5))
  {
    var s := "202103 5";
    FieldDigits(s, 6);
    FirstAltWins(Day, Done, s, 6, End);
    MonthFirst(Then(Day, Done), s, 4, Span(2, End));
    YearFirst(Then(Month, Then(Day, Done)), s, 0, Span(2, Span(2, End)));
  }

  /** Text left over after the match is rejected. */
  lemma LeftoverRejected()
    ensures ParseDate("20210315 ") == Err(FormatMismatch)
  {
    var s := "20210315 ";
    FieldDigits(s, 4);
    FieldDigits(s, 6);
    DateFirst(Done, s, End);
  }

  /** How the minutes and seconds of the next example split: both zero-padded. */
  lemma UnpaddedMinuteSpans()
    ensures MatchFrom(Then(Colon, Then(Minute, Then(Colon, Then(Second, Done)))), "20210315  9:05:00", 11)
            == Some(Span(1, Span(2, Span(1, Span(2, End)))))
  {
    var s := "20210315  9:05:00";
    FieldDigits(s, 12);
    FieldDigits(s, 15);
    SecondFirst(Done, s, 15, End);
    ColonFirst(Then(Second, Done), s, 14, Span(2, End));
    MinuteFirst(Then(Colon, Then(Second, Done)), s, 12, Span(1, Span(2, End)));
    ColonFirst(Then(Minute, Then(Colon, Then(Second, Done))), s, 11, Span(2, Span(1, Span(2, End))));
  }

  /** How the clock part of the next example splits: two blanks, then `%H` takes one digit. */
  lemma UnpaddedClockSpans()
    ensures MatchFrom(Then(Spaces, ClockPattern), "20210315  9:05:00", 8)
            == Some(Span(2, Span(1, Span(1, Span(2, Span(1, Span(2, End)))))))
  {
    var s := "20210315  9:05:00";
    UnpaddedMinuteSpans();
    FirstAltWins(Hour, Then(Colon, Then(Minute, Then(Colon, Then(Second, Done)))), s, 10, Span(1, Span(2, Span(1, Span(2, End)))));
    assert SpaceRun(s, 8) == 2;
    FirstAltWins(Spaces, ClockPattern, s, 8, Span(1, Span(1, Span(2, Span(1, Span(2, End))))));
  }

  /** How `%Y%m%d %H:%M:%S` splits the text of the next example. */
  lemma UnpaddedTimeSpans()
    ensures MatchFrom(TimestampPattern, "20210315  9:05:00", 0)
            == Some(Span(4, Span(2, Span(2, Span(2, Span(1, Span(1, Span(2, Span(1, Span(2, End))))))))))
  {
    UnpaddedClockSpans();
    DateFirst(Then(Spaces, ClockPattern), "20210315  9:05:00", Span(2, Span(1, Span(1, Span(2, Span(1, Span(2, End)))))));
  }

  /** An unpadded hour and several blanks are accepted. */
  lemma UnpaddedTime()
    ensures ParseDateTime("20210315", " 9:05:00") == Ok(Timestamp(Date(2021, 3, 15), Time(9, 5, 0)))
  {
    var s := "20210315  9:05:00";
    assert "20210315" + " " + " 9:05:00" == s;
    UnpaddedTimeSpans();
    FieldDigits(s, 10);
    assert CapturedStamp(s, 4, 2, 2, 2, 1, 2, 2) == Timestamp(Date(2021, 3, 15), Time(9, 5, 0));
  }

  /** A leap second carries into the next minute, here into the next year. */
  lemma LeapSecondCarries()
    ensures ParseDateTime("20211231", "23:59:60") == Ok(Timestamp(Date(2022, 1, 1), Time(0, 0, 0)))
  {
    ParseDateTimeFixed("20211231", "23:59:60");
    assert DateFields("20211231") == Date(2021, 12, 31);
    assert TimeFields("23:59:60") == Time(23, 59, 60);
  }
}

=== FILE: wrappers.dfy ===
/** Failure-carrying wrappers shared by the whole model.
    - Option<T> stands for a cell that may hold pandas' missing-value marker (NaN / None).
    - Result<T, E> stands for a step of a script that either produces a value or raises. */
module Wrappers {

  /** A value that may be missing; `None` plays the role of NaN. */
  datatype Option<+T> = None | Some(value: T) {

    predicate IsFailure() {
      None?
    }

    function PropagateFailure<U>(): Option<U>
      requires None?
    {
      None
    }

    function Extract(): T
      requires Some?
    {
      value
    }
  }

  /** The outcome of a step that may raise: `Err` carries the reason the script would stop with. */
  datatype Result<+T, +E> = Ok(value: T) | Err(error: E) {

    predicate IsFailure() {
      Err?
    }

    function PropagateFailure<U>(): Result<U, E>
      requires Err?
    {
      Err(error)
    }

    function Extract(): T
      requires Ok?
    {
      value
    }
  }
}
